=== FILE: README.md ===
# ca-river-valleys: the decision procedures behind the pipeline, in Dafny

The ca-river-valleys repository maps valley floors for the watersheds (HUCs)
of California. Most of its code calls geospatial libraries and remote data
services. Between those calls sit small, deterministic procedures, and this
project models and proves properties of them:

- **Tile grouping and binary mosaics** (`src/mosaic.py`,
  `scripts/mosaic_huc6.py`). A tile's watershed id is parsed from its file
  name. Tiles are grouped by an id prefix whose length comes from the
  level. Each group is binarised (`> 0` becomes 1) and its nodata is
  filled with 255. The state clip is optional. The huc6 script also
  flattens region-18 boundaries into tagged polygon records and clips each
  huc6 mosaic to its own records.
- **DEM acquisition with a fallback** (`src/dl_dem_and_flowlines.py`,
  `src/dl_special_case.py`). One direct request is made. Only if it raises
  is the bounding box split at its midpoints into four quadrants, fetched,
  merged and clipped. Around this sit the Mexico-flag choice of land file,
  the boundary checks, the flowline query, and the per-watershed failure
  ledger.
- **Watershed-id selection** (`src/filter_hucs.py`, `src/get_hucs.py`,
  `src/utils.py`, `src/generate_target_huc10s.py`, `scripts/missing.py`).
  This covers:
  - the level filter;
  - digit-only prefix validation and the prefix filter;
  - sample-size validation and sampling without replacement;
  - truncation followed by deduplication, and sorted output;
  - config-key precedence;
  - the region-18 ∪ "CA" union with first-wins deduplication;
  - the set of expected but not completed ids.
- **The flowline filter** (`src/filter_nhd.py`).
- **DEM/flowline file pairing** (`src/valley_floors.py`). It extracts the
  key from file names and inner-joins on it.

Library calls become parameters. `rasterio.merge`, polygon rasterisation,
the NHD and 3DEP services, the boundary service and the ocean clip enter
as function-typed fields of small "services" datatypes, and directory
listings and tables are passed in as sequences. DEMs are symbolic terms
that record how they were built (fetched, merged, clipped, reprojected).
Random sampling is a function of an abstract stream of draws. Lemmas show
that every sub-multiset of the right size is reachable, so the model covers
every outcome of `np.random.choice(..., replace=False)`.

Modules follow the source files: `Mosaic`, `MosaicHuc6`, `DemAcquisition`,
`NhdFetch`, `DemDownload`, `SpecialCases`, `FilterHucs`, `GetHucs`,
`TargetHucs`, `FilterNhd`, `TargetHuc10s`, `ValleyFloors` and `Missing`.
Shared modules hold Python's string operations (`Text`), sequence
utilities (`Seqs`), sampling (`Sampling`), rasters (`Raster`) and
bounding boxes (`Geo`).

Where the code and its design notes disagree, the model follows the code:

- Ids shorter than the level are not rejected. Slicing makes a short id
  its own group or truncation.
- `src/mosaic.py` fills nodata with 255 and casts to uint8 inside
  `mosaic` (line 83), and only then clips to the state (lines 121-122).
  Pixels outside the state therefore become missing and are not refilled
  with 255.
- Quadrant requests are not retried.
- The quadrant path can still fail after every request succeeds:
  `merge_arrays`, `rio.clip` and `rio.reproject` may raise, and nothing
  catches them. The model gives each its own failure predicate.
- `filter_huc10_list` fails whenever a sample size is given (see
  "## Findings"). `TargetHucs.GetTargetHucs` calls it as written, and
  `TargetHucs.GetTargetHucsCorrected` is the variant with the fix.

## Model

| member | source | states |
|---|---|---|
| Text.SplitHead | src/mosaic.py:93 | `s.split(c)[0]`: a prefix of `s` without `c`, followed by `c` unless it is all of `s`. `Text.SplitHeadUnique` shows these facts determine it. |
| Text.SplitHeadUnique | src/mosaic.py:93 | Any prefix without `c` that is followed by `c` (or is all of `s`) equals `s.split(c)[0]`. |
| Text.AfterLast | src/mosaic.py:93 | `s.split(c)[-1]`: a suffix of `s` without `c`, preceded by `c` unless it is all of `s`. |
| Text.AfterLastUnique | src/mosaic.py:93 | The three facts about `s.split(c)[-1]` determine it. |
| Text.BaseName | src/mosaic.py:93 | `path.split("/")[-1]` contains no `/` and ends the path. |
| Text.PathJoin | src/valley_floors.py:18 | `os.path.join(dir, name)` ends with the name, and starts with `dir` unless the name is absolute. |
| Text.BaseNameOfChild | scripts/missing.py:16 | Under a directory ending in `/`, a plain name is the base name of the joined path. |
| Text.BaseNameOfJoin | src/valley_floors.py:18 | `os.path.join` of a plain name has that name as its base name. |
| Text.ContainsIffOccurs | src/generate_target_huc10s.py:22 | `t in s` (substring) holds iff `t` starts at some index of `s`. |
| Text.Take | src/get_hucs.py:58 | `s[:n]` is a prefix of `s` of length `min(n, len(s))`. |
| Text.ShowNat | src/utils.py:22 | `str(n)` for a natural number is a digit string with no leading zero. |
| Text.ParseShowNat | src/utils.py:22 | Reading back `str(n)` gives `n`. |
| Text.LessEqTotal | src/filter_hucs.py:41 | Python's string order, used by `sorted`, is total. |
| Text.LessEqTransitive | src/filter_hucs.py:41 | Python's string order is transitive. |
| Text.LessEqAntisymmetric | src/filter_hucs.py:41 | Python's string order is antisymmetric. |
| Seqs.Filter | src/filter_nhd.py:16-20 | Boolean-mask indexing keeps exactly the elements satisfying the predicate, as a sub-multiset. |
| Seqs.FilterIdempotent | src/filter_nhd.py:16-20 | Applying the same mask twice equals applying it once. |
| Seqs.FilterFuse | src/filter_nhd.py:16-20 | Two successive masks equal one mask by their conjunction. |
| Seqs.FilterCounts | src/filter_nhd.py:16-20 | A value occurs in the filtered list as often as in the input if it satisfies the predicate, and not at all otherwise, so duplicates are kept. |
| Seqs.FilterAppend | src/filter_nhd.py:16-20 | Filtering a concatenation gives the concatenation of the filtered parts, so the input order is kept. |
| Seqs.DedupBy | src/generate_target_huc10s.py:27 | `drop_duplicates(subset=key)`: keys are distinct, every input key is present, and each kept row is the first row with its key. |
| Seqs.DedupByOrder | src/generate_target_huc10s.py:27 | Kept rows appear in the order in which their keys first appear in the input. |
| Seqs.Dedup | src/get_hucs.py:61 | `drop_duplicates()`: the result is distinct and has the same elements as the input. |
| Seqs.DedupOrder | src/get_hucs.py:61 | `drop_duplicates()` keeps values in the order of their first appearance. |
| Seqs.MembersIsFilter | src/mosaic.py:118 | The rows with a given key are the input filtered by that key, and when the key occurs the first of them is the key's first row. |
| Seqs.GroupSizesPartition | src/mosaic.py:117-118 | Over distinct groups that include every element's key, the group sizes add up to the number of elements. |
| Seqs.Sort | src/filter_hucs.py:41 | `sorted`: the result is ordered and a permutation of the input. |
| Seqs.SortCanonical | src/filter_hucs.py:41 | Two lists with the same elements sort to the same list, and a sorted list sorts to itself. |
| Seqs.DistinctSubMultiset | src/get_hucs.py:88-90 | A sub-multiset of a duplicate-free list is duplicate-free. |
| Sampling.Sample | src/filter_hucs.py:39 | `np.random.choice(xs, n, replace=False)` yields exactly `n` elements forming a sub-multiset of `xs`. |
| Sampling.SampleReachesEvery | src/filter_hucs.py:39 | Every ordering of every sub-multiset of `xs` is the sample of some draw stream. |
| Raster.Binarize | src/mosaic.py:67 | A pixel becomes 1 iff its merged value is a number > 0, and 0 otherwise; the grid shape is kept. |
| Raster.BinarizeIdempotent | src/mosaic.py:67 | Binarising twice equals binarising once. |
| Raster.MaskNodata | src/mosaic.py:79 | Reading with `masked=True` makes a pixel missing iff it equals the declared nodata; other pixels are unchanged. |
| Raster.FillNodata | src/mosaic.py:81 | `fillna(255)` turns exactly the missing pixels into 255 and leaves no pixel missing. |
| Raster.ClipToCoverage | src/mosaic.py:56-60 | Covered pixels keep their value, uncovered pixels become missing, and the shape is unchanged. |
| Raster.ClipFullCoverage | src/mosaic.py:56-60 | A mask covering every pixel changes nothing. |
| Raster.ClipIdempotent | src/mosaic.py:56-60 | Clipping twice with one mask equals clipping once. |
| Mosaic.LevelDigits | src/mosaic.py:98 | `int(level[-1])` is the number written after "huc" in the level name. |
| Mosaic.ParseLevelArg | src/mosaic.py:34-39 | No `--level` means huc6. A given value is accepted iff it is huc2, huc4, huc6 or huc8, and then names the level. |
| Mosaic.HucIdOfPath | src/mosaic.py:93 | The id is the base name up to its first `-`: a prefix of the base name with no `-` or `/`. |
| Mosaic.GroupOf | src/mosaic.py:95-99 | No level gives "all". Otherwise the group is the id's prefix of length `min(digits, len(id))`, so short ids are not rejected. |
| Mosaic.LoadFloorFiles | src/mosaic.py:89-102 | One record per file, in order, carrying the file, its id and its group. |
| Mosaic.Groups | src/mosaic.py:117 | `unique()`: distinct groups, containing every record's group and no other. |
| Mosaic.GroupsInOrder | src/mosaic.py:117 | `unique()` lists the groups in the order of their first appearance among the records. |
| Mosaic.GroupFiles | src/mosaic.py:118 | A group's file list holds exactly the files of records in that group, in record order. It is non-empty for a group that occurs, and starts with the file of the group's first record. |
| Mosaic.GroupsPartitionFiles | src/mosaic.py:89-102 | Each file is a member of its own group and of no other, and the group sizes add up to the number of files. |
| Mosaic.MosaicTiles | src/mosaic.py:63-86 | Each pixel is 0, 1 or 255. A pixel is 255 where its 0/1 class equals the nodata declared by the first tile; otherwise it is that class. The declared nodata is 255. |
| Mosaic.MosaicOfUndeclared | src/mosaic.py:67-83 | If the first tile's nodata is neither 0 nor 1, the mosaic is exactly the binarised merge. |
| Mosaic.GroupOutput | src/mosaic.py:119-124 | Path `{output_dir}/{group}-floors.tif`. Without the state clip the pixels are the mosaic's. With it, a pixel is missing iff the state does not cover it, and is otherwise the mosaic's. |
| Mosaic.OutputPathsDistinct | src/mosaic.py:124 | Distinct groups are written to distinct paths. |
| Mosaic.GroupOutputs | src/mosaic.py:117-124 | One output per given group, in order. The k-th is the output of the k-th group, built from that group's non-empty file list. |
| Mosaic.MosaicRun | src/mosaic.py:89-124 | An empty listing raises the KeyError of `floors["group"]`, and only an empty listing fails. Otherwise there is one output per distinct group, in the order in which groups first appear. Each output is that group's output built from its non-empty file list and named after the group. No two outputs share a path. |
| MosaicHuc6.UnitBoundaries | scripts/mosaic_huc6.py:28-44 | A coastal huc6 contributes exactly its non-empty land parts. A Polygon contributes one record and a MultiPolygon one per part. Every record is tagged with the unit's huc6. |
| MosaicHuc6.CoastalPartsNonEmpty | scripts/mosaic_huc6.py:32-36 | No record of a coastal unit is empty. |
| MosaicHuc6.Boundaries | scripts/mosaic_huc6.py:21-44 | Every record is tagged with the huc6 of some region-18 unit of the input. |
| MosaicHuc6.BoundariesSound | scripts/mosaic_huc6.py:21-44 | A record is in the boundary list iff it is a record of some region-18 unit. |
| MosaicHuc6.BoundariesFor | scripts/mosaic_huc6.py:97 | The mask for `h` uses exactly the records tagged `h`. |
| MosaicHuc6.Huc6Key | scripts/mosaic_huc6.py:57-58 | The key is the first six characters of the id parsed from the base name. |
| MosaicHuc6.Huc6KeyIsGroup | scripts/mosaic_huc6.py:57-58 | The key equals the general driver's group at level huc6. |
| MosaicHuc6.Manifest | scripts/mosaic_huc6.py:54-62 | One record per tile, in order, with the tile's huc6 key. |
| MosaicHuc6.Huc6Mosaic | scripts/mosaic_huc6.py:71-105 | Every pixel is 0, 1 or 255, with nodata 255. A pixel is 255 iff it is outside the boundary or its class equals the first tile's nodata; otherwise it is that class. |
| MosaicHuc6.Huc6MosaicFullCover | scripts/mosaic_huc6.py:71-105 | With full coverage, the huc6 mosaic equals the general driver's mosaic. |
| MosaicHuc6.Huc6Output | scripts/mosaic_huc6.py:97-106 | The output of a key whose clip succeeded: written to `{hucid}-floors.tif` and clipped to that huc6's own boundary records. A key without records never reaches it, because `Huc6Loop` stops first. |
| MosaicHuc6.Huc6Keys | scripts/mosaic_huc6.py:65 | The keys are distinct, include every tile's key, and come from tiles. |
| MosaicHuc6.Huc6PathsDistinct | scripts/mosaic_huc6.py:106 | Distinct keys give distinct output files. |
| MosaicHuc6.Huc6LoopOutputs | scripts/mosaic_huc6.py:64-106 | When every clip succeeds: one output per distinct huc6 key, with distinct paths and every pixel in {0, 1, 255}. The k-th output is the huc6 output of the k-th key, built from that key's non-empty tile list and clipped to the boundary records. |
| MosaicHuc6.Huc6Loop | scripts/mosaic_huc6.py:64-106 | The loop fails with rasterio's "No valid geometry objects found for rasterize" iff some tile's huc6 key has no boundary record. Otherwise every key has records and the result is the outputs of all keys. |
| MosaicHuc6.Huc6Run | scripts/mosaic_huc6.py:20-106 | With no boundary record the script raises at `set_geometry`. Otherwise, with no tile it raises at `manifest["huc6"]`. Otherwise a tile key without boundary records makes the clip raise. It succeeds iff there are boundary records and tiles and every tile key has records, and then returns the non-empty outputs of all keys. |
| MosaicHuc6.TileOutsideRegionFails | scripts/mosaic_huc6.py:20-106 | A tile whose huc6 is not that of any region-18 unit, such as a huc10 outside region 18 that touches California, makes the script fail. |
| Geo.MidX | src/dl_dem_and_flowlines.py:65 | `mid_x` is equidistant from `minx` and `maxx`. |
| Geo.MidY | src/dl_dem_and_flowlines.py:66 | `mid_y` is equidistant from `miny` and `maxy`. |
| Geo.Split | src/dl_dem_and_flowlines.py:69-96 | Exactly four boxes, in the order bottom-left, bottom-right, top-left, top-right, each anchored at its corner and half as wide and half as tall. |
| Geo.SplitWithin | src/dl_dem_and_flowlines.py:69-96 | Each quadrant of a well-formed box lies inside it and is well formed. |
| Geo.SplitCovers | src/dl_dem_and_flowlines.py:69-96 | Every point of the box lies in some quadrant. |
| Geo.SplitSound | src/dl_dem_and_flowlines.py:69-96 | Every point of a quadrant lies in the box. |
| Geo.SplitOverlapOnMidLines | src/dl_dem_and_flowlines.py:69-96 | Two different quadrants share only points on a mid line. |
| DemAcquisition.FetchTiles | src/dl_dem_and_flowlines.py:98-100 | One request per tile, in order, stopping at the first that raises. Every request before the last succeeded, and on failure the last one raised. Success iff no tile raises, and the result is then the fetched tiles in order. |
| DemAcquisition.Merge | src/dl_dem_and_flowlines.py:102 | `merge_arrays` succeeds iff the library does not raise, and then merges exactly the given DEMs. |
| DemAcquisition.Clip | src/dl_dem_and_flowlines.py:103 | `rio.clip` succeeds iff the library does not raise, and then clips the given DEM to the given argument. |
| DemAcquisition.Reproject | src/dl_dem_and_flowlines.py:52 | `rio.reproject` succeeds iff the library does not raise, and then reprojects the given DEM to EPSG:3310. |
| DemAcquisition.RetryOnSmaller | src/dl_dem_and_flowlines.py:56-104 | Between one and four requests, for the quadrants in order, every one before the last successful. Fewer than four means failure. Success iff all four requests, the merge and the clip succeed, and the result is then the merged quadrants clipped to the boundary. |
| DemAcquisition.WithFallback | src/dl_dem_and_flowlines.py:46-50 | The direct request comes first. It is the only request iff it succeeds; otherwise the quadrant requests follow. |
| DemAcquisition.GetDem | src/dl_dem_and_flowlines.py:46-53 | The direct request is for the boundary itself, and a result is reprojected to EPSG:3310. |
| DemAcquisition.GetDemTotalBounds | src/dl_special_case.py:26-36 | The direct request is for the box of `total_bounds`, and a result is clipped to the boundary, then reprojected. |
| DemAcquisition.FallbackShape | src/dl_special_case.py:26-79 | At most five requests. The quadrant path runs iff the direct request raised, asks for the four quadrants of the original bounds, and never subdivides further. |
| DemAcquisition.GetDemOutcome | src/dl_dem_and_flowlines.py:46-104 | If the direct request succeeds, `get_dem` succeeds iff its DEM reprojects. If it raises, success iff all four quadrant requests, the merge, the clip and the reprojection succeed. The DEM is the one the path taken builds. |
| DemAcquisition.GetDemTotalBoundsOutcome | src/dl_special_case.py:26-87 | The same for the `total_bounds` variant. Either path's DEM is clipped once more before reprojection, and each of those clips may also raise. |
| DemAcquisition.BareClipDisablesFallback | src/dl_dem_and_flowlines.py:46-103 | If clipping to a bare geometry always raises, `get_dem` can only succeed through the direct request. |
| NhdFetch.ToCrs | src/dl_dem_and_flowlines.py:42 | `to_crs` keeps every row, in order, with its geometry type; each shape becomes its projection into the target CRS. |
| NhdFetch.NhdKept | src/dl_dem_and_flowlines.py:32-41 | A MultiPolygon is queried by its box and clipped back; anything else is queried directly. Exactly the LineString features are kept, and a failed query fails. |
| NhdFetch.GetNhd | src/dl_dem_and_flowlines.py:32-43 | Succeeds iff the query does. The result has one row per kept feature, in order, each a LineString reprojected to EPSG:3310. |
| NhdFetch.GetNhdTotalBounds | src/dl_special_case.py:18-23 | The query uses `total_bounds` and is clipped, keeping exactly the LineString features. |
| NhdFetch.SameForMultiPolygon | src/dl_special_case.py:18-23 | For a MultiPolygon both scripts send the same query and keep the same features. They differ only in the final reprojection of src/dl_dem_and_flowlines.py. |
| NhdFetch.NhdFilterStable | src/dl_dem_and_flowlines.py:41 | Filtering the kept features again changes nothing. |
| DemDownload.MxFlagOf | src/dl_dem_and_flowlines.py:129-132 | The flag is set iff some state string contains "MX". A missing state makes `"MX" in None` raise. |
| DemDownload.MxFlag | src/dl_dem_and_flowlines.py:129-132 | The loop computes the same flag, or the same error, as the recursive definition. |
| DemDownload.LandFile | src/dl_dem_and_flowlines.py:134-137 | The flag selects the North-America land file; otherwise the US file is used. |
| DemDownload.RunDownload | src/dl_dem_and_flowlines.py:124-171 | A `None` boundary raises "Boundary is empty" and a non-polygon raises its own error, before any download. Otherwise both downloads run, and the run fails iff either failed. |
| DemDownload.DownloadsIndependent | src/dl_dem_and_flowlines.py:150-166 | The DEM outcome does not depend on the flowline service, and the other way round. |
| SpecialCases.CaseFailures | src/dl_special_case.py:101-121 | A boundary failure gives exactly one record. Otherwise there is one record per failed download, NHD before DEM, all tagged with the watershed. |
| SpecialCases.CaseFailuresBound | src/dl_special_case.py:101-121 | At most two records per watershed; a "failed on get_boundary" record appears iff the boundary failed. |
| SpecialCases.Ledger | src/dl_special_case.py:93-121 | Every failure of every processed watershed is recorded in the ledger. |
| SpecialCases.LedgerAppendOnly | src/dl_special_case.py:93-121 | Processing more watersheds only appends records at the end. |
| SpecialCases.LedgerSound | src/dl_special_case.py:96-121 | Every record names a listed watershed, and there are at most two per watershed. |
| SpecialCases.RunSpecialCases | src/dl_special_case.py:93-125 | The loop builds the ledger in processing order without stopping, and writes the log iff a failure was recorded. |
| FilterHucs.AsText | src/filter_hucs.py:12 | `str(x)` keeps text unchanged and writes a non-negative integer as digits that read back to it. |
| FilterHucs.ApplyPrefix | src/filter_hucs.py:15-21 | A false prefix keeps all ids. A true non-digit prefix raises. Otherwise exactly the ids starting with it are kept, and an empty result raises. |
| FilterHucs.ApplySample | src/filter_hucs.py:27-39 | A non-integer or a size below 1 raises, as does a size above the count. Otherwise exactly `n` ids are drawn as a sub-multiset. |
| FilterHucs.ApplySampleComplete | src/filter_hucs.py:39 | Every size-`n` selection is a possible sample. |
| FilterHucs.LevelIds | src/filter_hucs.py:11-12 | An id is listed iff some manifest row of that level has it as its text. |
| FilterHucs.SelectIds | src/filter_hucs.py:15-41 | Errors come exactly from the prefix or sample checks. The output is sorted and a sub-multiset of the input, and its ids match the prefix. Without a sample it contains every matching id, and with one it has the sample size. |
| FilterHucs.FilterHucList | src/filter_hucs.py:8-41 | Only ids of the requested level survive; the rest is as for `SelectIds`. Without a sample the output is a permutation of the prefix-filtered list. |
| GetHucs.LevelLength | src/get_hucs.py:33-57 | Only huc8, huc10 and huc12 are valid, and each gives the number in its name. |
| GetHucs.Truncate | src/get_hucs.py:58 | Each truncated id is a prefix of its source id, of length `n` when the source is long enough. |
| GetHucs.Candidates | src/get_hucs.py:58-61 | The truncated ids are distinct; every input's truncation is present, and nothing else is. |
| GetHucs.GetHucs | src/get_hucs.py:32-90 | An invalid level or a missing `huc10` column raises. Otherwise the result is the selection from the truncated candidates, which fails exactly when the prefix or the sample check fails. The output is sorted, distinct and prefix-matching, and consists of truncations of input ids. Without a sample it contains every matching truncation; with one it has the sample size. |
| GetHucs.GetHucIdsFromConfig | src/get_hucs.py:105-113 | `huc_ids` is returned verbatim; otherwise `get_hucs` runs with the level defaulting to huc10. |
| TargetHucs.KeepPrefix | src/utils.py:6-9 | A `None` prefix keeps everything. An integer prefix makes `str.startswith` raise a TypeError. A text prefix keeps exactly the ids with that prefix, in order, and an empty result raises. |
| TargetHucs.ChoiceError | src/utils.py:15 | `np.random.choice(..., replace=False)` accepts a size iff `0 <= n <= count`. An empty population with a non-zero size is rejected first; otherwise a negative size and a size above the count get their own messages. |
| TargetHucs.FilterHuc10ListAsWritten | src/utils.py:5-17 | As written: any `sample_size` ends in an error, and without one the result is the prefix filter. |
| TargetHucs.AsWrittenSamplingFails | src/utils.py:15-17 | A sample of one from a one-id list fails with the `to_list` error. |
| TargetHucs.FilterHuc10List | src/utils.py:5-17 | Corrected: without a sample the input order is kept. A sample succeeds iff `0 <= n <= count` and gives `n` ids drawn without replacement. |
| TargetHucs.FilterHuc10ListCorrected | src/utils.py:14-17 | Every admissible sample is reachable in the corrected function, while the written function fails on it; the two agree without a sample. |
| TargetHucs.AllAsText | src/utils.py:25 | An element-wise `str` of the same length and order. |
| TargetHucs.GetTargetHucs | src/utils.py:20-35 | Precedence is `huc_id`, then `huc_ids`, then `huc_manifest`; with none of them there is no list. The manifest goes through `filter_huc10_list` as written, so a manifest with a sample size fails, and so does one with an integer prefix. |
| TargetHucs.GetTargetHucsCorrected | src/utils.py:20-35 | With the corrected filter the manifest branch returns that filter's result, and an integer prefix still raises. It agrees with the code as written when ids are given or no sample is asked for. |
| TargetHucs.TargetIdsAsGiven | src/utils.py:20-35 | Given text ids come back unchanged, and integer ids as digits that read back to them, one for one and in order. A manifest with no prefix and no sample comes back whole. |
| FilterNhd.FilterNhdFlowlines | src/filter_nhd.py:10-21 | A missing required column raises. Otherwise a row is kept iff it is a StreamRiver, not a headwater shorter than 1 km, and a LineString; the result is a sub-multiset. |
| FilterNhd.FilterIsConjunction | src/filter_nhd.py:16-21 | The three filters in sequence equal one order-preserving filter by their conjunction. |
| FilterNhd.FilterNhdIdempotent | src/filter_nhd.py:16-21 | Filtering the filtered rows again changes nothing. |
| TargetHuc10s.FilledStates | src/generate_target_huc10s.py:21 | A missing `states` becomes the text "None". |
| TargetHuc10s.WatershedRows | src/generate_target_huc10s.py:17 | Exactly the region-18 rows, with their states unfilled. |
| TargetHuc10s.StateRows | src/generate_target_huc10s.py:21-22 | Exactly the rows whose filled states contain "CA", carrying the filled value. |
| TargetHuc10s.TargetList | src/generate_target_huc10s.py:26-32 | Output `hucid`s are distinct, and every output row is a region-18 row or a CA row. |
| TargetHuc10s.TargetListComplete | src/generate_target_huc10s.py:17-27 | Every region-18 huc10 and every huc10 whose states mention CA is in the output. |
| TargetHuc10s.TargetListSound | src/generate_target_huc10s.py:17-27 | Every output huc10 comes from a region-18 row or from a row whose states mention CA. |
| TargetHuc10s.MissingStatesNeverMatch | src/generate_target_huc10s.py:21-22 | A missing `states` never matches "CA". |
| TargetHuc10s.RegionRowsWin | src/generate_target_huc10s.py:26-27 | A huc10 with a region-18 row keeps that row and its unfilled states, even when it also mentions CA. |
| ValleyFloors.Key | src/valley_floors.py:17-24 | The key is the name up to its first `-`. |
| ValleyFloors.ParseFlowDir | src/valley_floors.py:14-20 | Exactly the `.shp` names are listed, each with its key and joined path. |
| ValleyFloors.ParseDemDir | src/valley_floors.py:22-27 | Every name is listed, in order, with its key and joined path. |
| ValleyFloors.Join | src/valley_floors.py:35 | Each DEM row contributes the rows of its matching flowline files. |
| ValleyFloors.ValleyFloorJobs | src/valley_floors.py:14-43 | One job per joined DEM/flowline pair, in join order; each job runs its pair and writes to its key's output. |
| ValleyFloors.JoinSound | src/valley_floors.py:35 | Every joined row pairs a DEM and a flowline file with equal keys. |
| ValleyFloors.JoinComplete | src/valley_floors.py:35 | Every DEM and flowline file with equal keys are joined; keys present on one side only are dropped. |
| ValleyFloors.JobsSound | src/valley_floors.py:14-43 | Every job runs a listed DEM with a listed `.shp` file of the same key, writing to that key's output. |
| ValleyFloors.JobsComplete | src/valley_floors.py:14-43 | Every listed DEM whose key matches a listed `.shp` name gets a job. |
| ValleyFloors.OutFileNames | src/valley_floors.py:43 | The output file name is the key followed directly by `valley_floor.shp`, so different keys write different files. |
| Missing.FloorsFiles | scripts/missing.py:13 | The glob returns exactly the directory followed by each non-hidden name ending in `-floors.tif`. |
| Missing.CompletedIds | scripts/missing.py:14-17 | The completed ids are the ids parsed from the globbed paths. |
| Missing.CandidateIds | scripts/missing.py:20-22 | The candidates are the huc10 manifest ids, as text, that start with "18". |
| Missing.MissingIds | scripts/missing.py:25 | An id is missing iff it is a candidate and not completed. |
| Missing.CompletedIdOfName | scripts/missing.py:13-17 | A globbed file's id is its name up to the first `-`, a proper prefix of the name. |
| Missing.MissingIffNoFile | scripts/missing.py:13-25 | A candidate is missing iff no matching name in the directory has it as its id. |
| Missing.MosaicOutputCompletes | scripts/mosaic_huc6.py:106 | A mosaic output named after a plain group is found by the glob and marks that group completed. |

## Left out

- Remote services: WBD, NHD, py3dep, `huc_wb_full` and URL reads are parameters that answer or fail. Their data is not modelled.
- File I/O is not modelled: CSV and shapefile reads and writes, `glob` and `os.listdir` (both become lists of names), `makedirs`, and the temporary GeoTIFF round trip.
- `rasterio.merge` overlap rules, reprojection and resampling are left to the library. The merged grid is an input and reprojection is a symbolic term.
- Rasterisation in `rio.clip(all_touched=True)` is a library computation. It is a given boolean coverage grid.
- Shapely and geopandas geometry is not modelled: intersection, the union with the land polygon, `explode`, `within` and areas. The land parts of a coastal huc6 and the ocean-clipped boundary are inputs.
- Mosaic.MosaicTiles: which binary values are lost on re-reading depends on the nodata the first tile declares. That value is a parameter, not guessed.
- The uint8 cast at src/mosaic.py:83 happens inside `mosaic`, before the state clip. After it no pixel is missing, so the model needs no cast.
- Mosaic.GroupOutput: the state clip assumes that `rio.clip(drop=False)` leaves uncovered pixels as NaN, so that `where(~np.isnan(mask))` marks them missing. For a uint8 raster with nodata 255, rioxarray may fill uncovered pixels with the nodata value instead. The clip would then change nothing. This depends on the library version and is not modelled.
- Geo.MidX: the midpoint is exact in the model. In the code it is a float64 sum and halving, which may round. The covering lemmas do not depend on this, because all four quadrants share the computed midpoint.
- Geo.MidY: as for `Geo.MidX`, float64 rounding of the midpoint is not modelled.
- Geo.Split: quadrant corners are exact reals in the model, not float64 values.
- DemAcquisition.GetDem: whether `rio.clip` accepts the bare shapely geometry at src/dl_dem_and_flowlines.py:103 is not modelled. It may raise every time. The clip's failure is a parameter, and `DemAcquisition.BareClipDisablesFallback` gives the consequence: the fallback then never yields a DEM.
- DemDownload.MxFlagOf: a missing `states` value is modelled as None, with None's error message. A NaN read by pandas raises "argument of type 'float' is not iterable" instead.
- Library exception texts (the KeyError of an empty frame, `set_geometry` on a frame without a geometry column, `str.startswith` with an integer, rasterio's `rasterize` with no geometry, and the checks of `np.random.choice`) are written as current pandas, geopandas, rasterio and NumPy word them. Newer rasterio releases may accept an empty geometry list, in which case the clip would not raise. Other versions may word them differently; only where each run stops is modelled.
- DemDownload.RunDownload: the "Boundary is empty" branch is modelled as written. `union_all` never returns None, so this branch cannot be reached.
- NumPy seeding is not modelled: a seed only picks one draw stream.
- GetHucs.GetHucs: float and boolean `sample_size` values are not modelled. A sample size is text or an integer.
- FilterHucs.ApplySample: `True` passes `isinstance(sample_size, int)` at src/filter_hucs.py:27 and draws one id. `Scalar` has no booleans, so this case is not modelled; floats and booleans are left out as in `get_hucs`.
- TargetHucs.FilterHuc10ListAsWritten: `sample_size` is an integer in the model. A text or float value from the configuration reaches `np.random.choice` at src/utils.py:15 and raises there, and that case is not modelled. The model still fails on every sample size, as the code as written does.
- MosaicHuc6.Huc6Run: when the loop stops at a key without boundary records, the files already written for earlier keys stay on disk. The model returns only the error.
- `str.isdigit` and digit rendering cover ASCII digits only. Unicode digits are not modelled.
- `read_csv` dtype inference is not modelled. Id columns arrive as text, or as text or integers where the code applies `str`.
- Argument parsing is modelled only for `--level`. The `--no-ocean-clip` flag has no effect in the code.
- `print` and progress messages are output only.
- `get_boundary` exceptions in `src/dl_dem_and_flowlines.py` are not modelled. The run starts from the boundary's states and its ocean-clipped geometry.
- `clip_out_ocean`'s `to_crs` and the GeoSeries union are library calls. They are folded into the given `clipOcean` function.
- Files that are almost entirely library calls or side effects are not modelled:
  - `src/dl_huc_and_nhd.py`, `src/download_huc.py`, `src/ocean_mask.py`, `src/dl_land_shape.py`;
  - `scripts/outside.py`, `scripts/download_huc_manifest.py`;
  - `src/dl_target_huc10s.py`;
  - `scripts/mosaic.py`, whose binarisation is the same as in `src/mosaic.py`.
- ValleyFloors.Join: row order follows the DEM rows, as documented for pandas inner merges. Older pandas versions grouped rows by key, and the membership properties hold either way.
- The valley-floor computation (`pyvalleys.workflow.valley_floors`) is a library call. Only its inputs are modelled.
- SpecialCases.RunSpecialCases: `failed_hucs.csv` is reduced to the flag `writeLog`, which says whether it is written.

## Findings

| source | as written | input that shows it | evidently intended | confidence | as-written member | corrected member |
|---|---|---|---|---|---|---|
| src/utils.py:15-17 | `np.random.choice` returns a NumPy array, and `.to_list()` is then called on it. Arrays have no `to_list`, so every call with a `sample_size` raises `AttributeError`. | `filter_huc10_list(["1805000101"], sample_size=1)` | `.tolist()`, which returns the sampled ids as a list | not executed | TargetHucs.FilterHuc10ListAsWritten, TargetHucs.AsWrittenSamplingFails | TargetHucs.FilterHuc10List, TargetHucs.FilterHuc10ListCorrected, TargetHucs.GetTargetHucsCorrected |

=== FILE: common.dfy ===
/** Failure-carrying results shared by every module of the model.
    A Python exception is modelled as `Err(message)`; the message text is
    the one the source raises. */
module Common {

  datatype Option<+T> = None | Some(value: T) {
    function GetOr(default: T): T {
      match this
      case Some(v) => v
      case None => default
    }
  }

  datatype Result<+T> = Ok(value: T) | Err(msg: string) {
    predicate IsFailure() {
      Err?
    }

    function PropagateFailure<U>(): Result<U>
      requires Err?
    {
      Err(msg)
    }

    function Extract(): T
      requires Ok?
    {
      value
    }
  }
}

=== FILE: dem_acquisition.dfy ===
/** Elevation (DEM) acquisition with its one-level fallback, shared by
    src/dl_dem_and_flowlines.py and src/dl_special_case.py: one direct request,
    and only if it raises, one request per quadrant of the bounding box,
    merged and clipped to the boundary. The elevation service is a parameter
    that either answers a request or raises; DEMs are kept as symbolic terms
    recording how they were built. */
module DemAcquisition {
  import opened Common
  import opened Geo

  /** What a direct request covers: the boundary itself or a box. */
  datatype Area = WholeGeometry(g: Geometry) | BoxArea(b: Box)

  /** `py3dep.static_3dep_dem(area, ...)` or `py3dep.get_dem(box, ...)`. */
  datatype DemRequest = StaticDem(area: Area) | TileDem(tile: Box)

  /** What `.rio.clip` is handed: src/dl_dem_and_flowlines.py passes the bare
      shapely geometry, src/dl_special_case.py the GeoSeries of the boundary. */
  datatype ClipArg = BareGeometry(g: Geometry) | GeoSeriesOf(g: Geometry)

  /** A DEM, by how it was obtained. */
  datatype Dem =
    | Fetched(req: DemRequest)
    | Merged(parts: seq<Dem>)          // `merge_arrays`
    | Clipped(src: Dem, to: ClipArg)   // `.rio.clip(...)`
    | Reprojected(src: Dem, crs: string)

  /** The elevation service and the raster library: which requests raise, and
      on which inputs `merge_arrays`, `.rio.clip` and `.rio.reproject` raise. */
  datatype Provider = Provider(
    fails: DemRequest -> bool,
    mergeFails: seq<Dem> -> bool,
    clipFails: (Dem, ClipArg) -> bool,
    reprojectFails: Dem -> bool)

  /** The requests made, in order, and the DEM or the error. */
  datatype Attempt = Attempt(requests: seq<DemRequest>, dem: Result<Dem>)

  /** The requests of the quadrant loop, and the DEMs fetched or the error. */
  datatype Fetch = Fetch(requests: seq<DemRequest>, dems: Result<seq<Dem>>)

  const TargetCrs: string := "EPSG:3310"

  function TileRequests(tiles: seq<Box>): (rs: seq<DemRequest>)
    ensures |rs| == |tiles| && forall k :: 0 <= k < |tiles| ==> rs[k] == TileDem(tiles[k])
  {
    seq(|tiles|, k requires 0 <= k < |tiles| => TileDem(tiles[k]))
  }

  function FetchedAll(rs: seq<DemRequest>): (ds: seq<Dem>)
    ensures |ds| == |rs| && forall k :: 0 <= k < |rs| ==> ds[k] == Fetched(rs[k])
  {
    seq(|rs|, k requires 0 <= k < |rs| => Fetched(rs[k]))
  }

  /** The loop `dems.append(py3dep.get_dem(box))`: one request per tile, in
      order, stopping at the first that raises. */
  function FetchTiles(tiles: seq<Box>, p: Provider): (f: Fetch)
    ensures |f.requests| <= |tiles|
    ensures forall k :: 0 <= k < |f.requests| ==> f.requests[k] == TileDem(tiles[k])
    ensures forall k :: 0 <= k < |f.requests| - 1 ==> !p.fails(f.requests[k])
    ensures f.dems.Ok? <==> forall k :: 0 <= k < |tiles| ==> !p.fails(TileDem(tiles[k]))
    ensures f.dems.Ok? ==> f.requests == TileRequests(tiles) && f.dems.value == FetchedAll(f.requests)
    ensures f.dems.Err? ==> |f.requests| > 0 && p.fails(f.requests[|f.requests| - 1])
    decreases |tiles|
  {
    if |tiles| == 0 then
      Fetch([], Ok([]))
    else if p.fails(TileDem(tiles[0])) then
      Fetch([TileDem(tiles[0])], Err("py3dep.get_dem raised"))
    else
      var rest := FetchTiles(tiles[1..], p);
      var reqs := [TileDem(tiles[0])] + rest.requests;
      assert forall k :: 0 < k < |tiles| ==> tiles[k] == tiles[1..][k - 1];
      assert forall k :: 0 < k < |reqs| ==> reqs[k] == rest.requests[k - 1];
      if rest.dems.Err? then Fetch(reqs, rest.dems)
      else Fetch(reqs, Ok(FetchedAll(reqs)))
  }

  /** `merge_arrays(dems)`. */
  function Merge(ds: seq<Dem>, p: Provider): (r: Result<Dem>)
    ensures r.Ok? <==> !p.mergeFails(ds)
    ensures r.Ok? ==> r.value == Merged(ds)
  {
    if p.mergeFails(ds) then Err("merge_arrays raised") else Ok(Merged(ds))
  }

  /** `dem.rio.clip(arg)`. */
  function Clip(d: Dem, arg: ClipArg, p: Provider): (r: Result<Dem>)
    ensures r.Ok? <==> !p.clipFails(d, arg)
    ensures r.Ok? ==> r.value == Clipped(d, arg)
  {
    if p.clipFails(d, arg) then Err("rio.clip raised") else Ok(Clipped(d, arg))
  }

  /** `dem.rio.reproject("EPSG:3310", ...)`. */
  function Reproject(d: Dem, p: Provider): (r: Result<Dem>)
    ensures r.Ok? <==> !p.reprojectFails(d)
    ensures r.Ok? ==> r.value == Reprojected(d, TargetCrs)
  {
    if p.reprojectFails(d) then Err("rio.reproject raised") else Ok(Reprojected(d, TargetCrs))
  }

  /** The four quadrant DEMs, merged: what a full quadrant loop hands to the clip. */
  function QuadrantMosaic(boundary: Geometry): Dem {
    Merged(FetchedAll(TileRequests(Split(boundary.bounds))))
  }

  /** `retry_on_smaller`: the four quadrants of the bounds, merged, then
      clipped with `arg`. A raising quadrant ends the loop; the merge and
      the clip can raise as well. */
  function RetryOnSmaller(boundary: Geometry, arg: ClipArg, p: Provider): (a: Attempt)
    ensures 1 <= |a.requests| <= 4
    ensures forall k :: 0 <= k < |a.requests| ==> a.requests[k] == TileDem(Split(boundary.bounds)[k])
    ensures forall k :: 0 <= k < |a.requests| - 1 ==> !p.fails(a.requests[k])
    ensures |a.requests| < 4 ==> a.dem.Err? && p.fails(a.requests[|a.requests| - 1])
    ensures a.dem.Ok? <==>
      (forall k :: 0 <= k < 4 ==> !p.fails(TileDem(Split(boundary.bounds)[k]))) &&
      !p.mergeFails(QuadrantMosaic(boundary).parts) && !p.clipFails(QuadrantMosaic(boundary), arg)
    ensures a.dem.Ok? ==> a.dem.value == Clipped(QuadrantMosaic(boundary), arg)
  {
    var qs := Split(boundary.bounds);
    var t := FetchTiles(qs, p);
    match t.dems
    case Err(e) => Attempt(t.requests, Err(e))
    case Ok(ds) =>
      var m := Merge(ds, p);
      if m.Err? then Attempt(t.requests, Err(m.msg))
      else Attempt(t.requests, Clip(m.value, arg, p))
  }

  /** Try `direct`; only if it raises, fall back to the quadrant requests. */
  function WithFallback(direct: DemRequest, boundary: Geometry, arg: ClipArg, p: Provider): (a: Attempt)
    ensures |a.requests| >= 1 && a.requests[0] == direct
    ensures !p.fails(direct) <==> |a.requests| == 1
    ensures !p.fails(direct) ==> a.dem == Ok(Fetched(direct))
    ensures p.fails(direct) ==>
      a == Attempt([direct] + RetryOnSmaller(boundary, arg, p).requests, RetryOnSmaller(boundary, arg, p).dem)
  {
    if !p.fails(direct) then Attempt([direct], Ok(Fetched(direct)))
    else
      var r := RetryOnSmaller(boundary, arg, p);
      Attempt([direct] + r.requests, r.dem)
  }

  /** `get_dem` of src/dl_dem_and_flowlines.py: the direct request covers the
      boundary itself, the fallback clips to the bare geometry, and the result
      is reprojected. */
  function GetDem(boundary: Geometry, p: Provider): (a: Attempt)
    ensures |a.requests| >= 1 && a.requests[0] == StaticDem(WholeGeometry(boundary))
    ensures a.dem.Ok? ==> a.dem.value.Reprojected? && a.dem.value.crs == TargetCrs
  {
    var w := WithFallback(StaticDem(WholeGeometry(boundary)), boundary, BareGeometry(boundary), p);
    match w.dem
    case Ok(d) => Attempt(w.requests, Reproject(d, p))
    case Err(e) => w
  }

  /** `get_dem` of src/dl_special_case.py: the direct request covers the box of
      `total_bounds`, both paths clip to the GeoSeries, and the result is
      clipped again before reprojection. */
  function GetDemTotalBounds(boundary: Geometry, p: Provider): (a: Attempt)
    ensures |a.requests| >= 1 && a.requests[0] == StaticDem(BoxArea(boundary.bounds))
    ensures a.dem.Ok? ==> (a.dem.value.Reprojected? && a.dem.value.crs == TargetCrs &&
      a.dem.value.src.Clipped? && a.dem.value.src.to == GeoSeriesOf(boundary))
  {
    var arg := GeoSeriesOf(boundary);
    var w := WithFallback(StaticDem(BoxArea(boundary.bounds)), boundary, arg, p);
    match w.dem
    case Err(e) => w
    case Ok(d) =>
      match Clip(d, arg, p)
      case Err(e) => Attempt(w.requests, Err(e))
      case Ok(c) => Attempt(w.requests, Reproject(c, p))
  }

  /** The fallback is taken only when the direct request raises, it asks for at
      most the four quadrants of the original bounds, and never subdivides further. */
  lemma FallbackShape(boundary: Geometry, p: Provider)
    ensures var a := GetDem(boundary, p);
      |a.requests| <= 5 &&
      (|a.requests| > 1 <==> p.fails(StaticDem(WholeGeometry(boundary)))) &&
      forall k :: 1 <= k < |a.requests| ==> a.requests[k] == TileDem(Split(boundary.bounds)[k - 1])
    ensures var a := GetDemTotalBounds(boundary, p);
      |a.requests| <= 5 &&
      (|a.requests| > 1 <==> p.fails(StaticDem(BoxArea(boundary.bounds)))) &&
      forall k :: 1 <= k < |a.requests| ==> a.requests[k] == TileDem(Split(boundary.bounds)[k - 1])
  {
    var d1 := StaticDem(WholeGeometry(boundary));
    var d2 := StaticDem(BoxArea(boundary.bounds));
    if p.fails(d1) {
      var r := RetryOnSmaller(boundary, BareGeometry(boundary), p);
      assert forall k :: 1 <= k < |[d1] + r.requests| ==> ([d1] + r.requests)[k] == r.requests[k - 1];
    }
    if p.fails(d2) {
      var r := RetryOnSmaller(boundary, GeoSeriesOf(boundary), p);
      assert forall k :: 1 <= k < |[d2] + r.requests| ==> ([d2] + r.requests)[k] == r.requests[k - 1];
    }
  }

  /** `get_dem` succeeds exactly when the direct request succeeds and its DEM
      reprojects, or the direct request raises and the quadrant path (four
      requests, the merge, the clip) and the reprojection all succeed; the DEM
      is then the one that path builds. */
  lemma GetDemOutcome(boundary: Geometry, p: Provider)
    ensures var a := GetDem(boundary, p);
      var direct := StaticDem(WholeGeometry(boundary));
      var m := QuadrantMosaic(boundary);
      var fallback := Clipped(m, BareGeometry(boundary));
      (!p.fails(direct) ==>
        (a.dem.Ok? <==> !p.reprojectFails(Fetched(direct))) &&
        (a.dem.Ok? ==> a.dem.value == Reprojected(Fetched(direct), TargetCrs))) &&
      (p.fails(direct) ==>
        (a.dem.Ok? <==> ((forall k :: 0 <= k < 4 ==> !p.fails(m.parts[k].req)) &&
          !p.mergeFails(m.parts) && !p.clipFails(m, BareGeometry(boundary)) && !p.reprojectFails(fallback))) &&
        (a.dem.Ok? ==> a.dem.value == Reprojected(fallback, TargetCrs)))
  {
    var m := QuadrantMosaic(boundary);
    assert forall k :: 0 <= k < 4 ==> m.parts[k].req == TileDem(Split(boundary.bounds)[k]);
  }

  /** The same for the `total_bounds` variant, whose DEM is clipped once more
      before reprojection, on either path. */
  lemma GetDemTotalBoundsOutcome(boundary: Geometry, p: Provider)
    ensures var a := GetDemTotalBounds(boundary, p);
      var direct := StaticDem(BoxArea(boundary.bounds));
      var arg := GeoSeriesOf(boundary);
      var m := QuadrantMosaic(boundary);
      var fallback := Clipped(m, arg);
      (!p.fails(direct) ==>
        (a.dem.Ok? <==> !p.clipFails(Fetched(direct), arg) && !p.reprojectFails(Clipped(Fetched(direct), arg))) &&
        (a.dem.Ok? ==> a.dem.value == Reprojected(Clipped(Fetched(direct), arg), TargetCrs))) &&
      (p.fails(direct) ==>
        (a.dem.Ok? <==> ((forall k :: 0 <= k < 4 ==> !p.fails(m.parts[k].req)) &&
          !p.mergeFails(m.parts) && !p.clipFails(m, arg) &&
          !p.clipFails(fallback, arg) && !p.reprojectFails(Clipped(fallback, arg)))) &&
        (a.dem.Ok? ==> a.dem.value == Reprojected(Clipped(fallback, arg), TargetCrs)))
  {
    var m := QuadrantMosaic(boundary);
    assert forall k :: 0 <= k < 4 ==> m.parts[k].req == TileDem(Split(boundary.bounds)[k]);
  }

  /** If clipping to a bare geometry always raises, the fallback of
      src/dl_dem_and_flowlines.py can never produce a DEM: `get_dem` then
      succeeds only through the direct request. */
  lemma BareClipDisablesFallback(boundary: Geometry, p: Provider)
    requires forall d :: p.clipFails(d, BareGeometry(boundary))
    ensures GetDem(boundary, p).dem.Ok? ==> !p.fails(StaticDem(WholeGeometry(boundary)))
  {
    GetDemOutcome(boundary, p);
  }
}

=== FILE: dem_download.dfy ===
/** The `__main__` of src/dl_dem_and_flowlines.py for one watershed: the
    Mexico flag that picks the land file, the boundary checks, and the two
    downloads, each attempted whatever happened to the other, with the
    script failing at the end iff either failed. */
module DemDownload {
  import opened Common
  import opened Text
  import opened Geo
  import opened NhdFetch
  import opened DemAcquisition

  /** The error `"MX" in element` raises for a missing state value. */
  const MissingStatesError: string := "argument of type 'NoneType' is not iterable"

  /** The flag as a recursive definition: an error for any missing entry,
      otherwise whether any entry contains "MX". */
  function MxFlagOf(states: seq<Option<string>>): (r: Result<bool>)
    ensures r.Err? <==> exists k :: 0 <= k < |states| && states[k].None?
    ensures r.Err? ==> r.msg == MissingStatesError
    ensures r.Ok? ==> (r.value <==> exists k :: 0 <= k < |states| && Contains(states[k].value, "MX"))
    decreases |states|
  {
    if |states| == 0 then Ok(false)
    else
      var rest := MxFlagOf(states[1..]);
      assert forall k :: 0 < k < |states| ==> states[k] == states[1..][k - 1];
      match states[0]
      case None => Err(MissingStatesError)
      case Some(s) =>
        if rest.Err? then rest else Ok(Contains(s, "MX") || rest.value)
  }

  /** The loop over `states` that sets `mx_flag`. */
  method MxFlag(states: seq<Option<string>>) returns (r: Result<bool>)
    ensures r.Err? <==> exists k :: 0 <= k < |states| && states[k].None?
    ensures r.Ok? ==> (r.value <==> exists k :: 0 <= k < |states| && Contains(states[k].value, "MX"))
    ensures r == MxFlagOf(states)
  {
    var flag := false;
    var i := 0;
    while i < |states|
      invariant 0 <= i <= |states|
      invariant forall k :: 0 <= k < i ==> states[k].Some?
      invariant flag <==> exists k :: 0 <= k < i && Contains(states[k].value, "MX")
    {
      match states[i]
      case None =>
        return Err(MissingStatesError);
      case Some(s) =>
        if Contains(s, "MX") {
          flag := true;
        }
      i := i + 1;
    }
    return Ok(flag);
  }

  /** The land file used to cut the ocean out of the boundary. */
  function LandFile(mx: bool, usLandFile: string, naLandFile: string): (f: string)
    ensures mx ==> f == naLandFile
    ensures !mx ==> f == usLandFile
  {
    if mx then naLandFile else usLandFile
  }

  /** `str(b)` for a boolean. */
  function PyBool(b: bool): string {
    if b then "True" else "False"
  }

  /** What the script consults: the `states` of the boundary, the ocean clip
      (with its union) against a land file, and the two download services. */
  datatype Services = Services(
    states: seq<Option<string>>,
    clipOcean: string -> Option<Geometry>,
    nhd: NhdService,
    dem: Provider)

  /** What a run did: the land file chosen, the downloads attempted, and the error it ended with. */
  datatype Report = Report(
    landFile: Option<string>,
    nhd: Option<Result<seq<Feature>>>,
    dem: Option<Attempt>,
    error: Option<string>)

  /** One run: the flag, the land file, the boundary checks, then both downloads. */
  function RunDownload(usLandFile: string, naLandFile: string, svc: Services): (r: Report)
    ensures MxFlagOf(svc.states).Err? ==> r == Report(None, None, None, Some(MissingStatesError))
    ensures MxFlagOf(svc.states).Ok? ==> r.landFile == Some(LandFile(MxFlagOf(svc.states).value, usLandFile, naLandFile))
    ensures r.landFile.Some? && svc.clipOcean(r.landFile.value).None? ==>
      r.nhd.None? && r.dem.None? && r.error == Some("Boundary is empty")
    ensures r.landFile.Some? && svc.clipOcean(r.landFile.value).Some? ==>
      var b := svc.clipOcean(r.landFile.value).value;
      (b.kind != Polygon && b.kind != MultiPolygon ==>
        r.nhd.None? && r.dem.None? && r.error == Some("Boundary is not a polygon, or multipolygon")) &&
      (b.kind == Polygon || b.kind == MultiPolygon ==>
        r.nhd == Some(GetNhd(b, svc.nhd)) && r.dem == Some(GetDem(b, svc.dem)) &&
        (r.error.None? <==> GetNhd(b, svc.nhd).Ok? && GetDem(b, svc.dem).dem.Ok?))
  {
    match MxFlagOf(svc.states)
    case Err(e) => Report(None, None, None, Some(e))
    case Ok(mx) =>
      var land := LandFile(mx, usLandFile, naLandFile);
      match svc.clipOcean(land)
      case None => Report(Some(land), None, None, Some("Boundary is empty"))
      case Some(b) =>
        if b.kind != Polygon && b.kind != MultiPolygon then
          Report(Some(land), None, None, Some("Boundary is not a polygon, or multipolygon"))
        else
          var nhd := GetNhd(b, svc.nhd);
          var dem := GetDem(b, svc.dem);
          var failedNhd := nhd.Err?;
          var failedDem := dem.dem.Err?;
          var error := if failedNhd || failedDem
            then Some("Failed to download data: NHD_failed=" + PyBool(failedNhd) + ", DEM_failed=" + PyBool(failedDem))
            else None;
          Report(Some(land), Some(nhd), Some(dem), error)
  }

  /** A failed flowline download does not stop the DEM download, and the other way round. */
  lemma DownloadsIndependent(usLandFile: string, naLandFile: string, svc: Services, svc2: Services)
    requires svc.states == svc2.states && svc.clipOcean == svc2.clipOcean
    ensures svc.dem == svc2.dem ==> RunDownload(usLandFile, naLandFile, svc).dem == RunDownload(usLandFile, naLandFile, svc2).dem
    ensures svc.nhd == svc2.nhd ==> RunDownload(usLandFile, naLandFile, svc).nhd == RunDownload(usLandFile, naLandFile, svc2).nhd
  {
  }
}

=== FILE: filter_hucs.dfy ===
/** `filter_huc_list` of src/filter_hucs.py, and the prefix and sample-size
    checks it shares with `get_hucs` of src/get_hucs.py. */
module FilterHucs {
  import opened Common
  import opened Text
  import opened Seqs
  import opened Sampling

  /** A cell or configuration value: text or an integer. */
  datatype Scalar = Text(s: string) | Number(n: int)

  /** `str(x)` */
  function AsText(x: Scalar): (t: string)
    ensures x.Text? ==> t == x.s
    ensures x.Number? && x.n >= 0 ==> IsDigits(t) && ParseNat(t) == x.n
  {
    match x
    case Text(s) => s
    case Number(n) =>
      assert n >= 0 ==> ParseNat(ShowInt(n)) == n by {
        if n >= 0 {
          ParseShowNat(n);
        }
      }
      ShowInt(n)
  }

  /** Python truthiness of `filter_prefix`: None, "" and 0 are false. */
  predicate Truthy(x: Option<Scalar>) {
    match x
    case None => false
    case Some(Text(s)) => |s| > 0
    case Some(Number(n)) => n != 0
  }

  const PrefixError: string := "filter_prefix must be a string of digits"
  const SampleSizeError: string := "sample_size must be a positive integer"

  function NoMatchError(prefix: string): string {
    "No HUCs found with prefix '" + prefix + "'"
  }

  function TooLargeError(n: int, available: nat): string {
    "sample_size (" + ShowInt(n) + ") is larger than available HUCs (" + ShowInt(available) + ")"
  }

  function HasPrefix(p: string): string -> bool {
    x => StartsWith(x, p)
  }

  /** `if filter_prefix: ...`: a false prefix keeps everything; a true one must
      be a digit string, keeps the ids starting with it, and must keep at least one. */
  function ApplyPrefix(hucs: seq<string>, prefix: Option<Scalar>): (r: Result<seq<string>>)
    ensures !Truthy(prefix) ==> r == Ok(hucs)
    ensures Truthy(prefix) && !(prefix.value.Text? && IsDigits(prefix.value.s)) ==> r == Err(PrefixError)
    ensures Truthy(prefix) && prefix.value.Text? && IsDigits(prefix.value.s) ==>
      var p := prefix.value.s;
      (r.Ok? <==> exists i :: 0 <= i < |hucs| && StartsWith(hucs[i], p)) &&
      (r.Err? ==> r.msg == NoMatchError(p)) &&
      (r.Ok? ==> forall x :: x in r.value <==> x in hucs && StartsWith(x, p)) &&
      (r.Ok? ==> multiset(r.value) <= multiset(hucs))
  {
    if !Truthy(prefix) then Ok(hucs)
    else if !(prefix.value.Text? && IsDigits(prefix.value.s)) then Err(PrefixError)
    else
      var p := prefix.value.s;
      var kept := Filter(hucs, HasPrefix(p));
      assert forall i :: 0 <= i < |hucs| && StartsWith(hucs[i], p) ==> hucs[i] in kept by {
        forall i | 0 <= i < |hucs| && StartsWith(hucs[i], p)
          ensures hucs[i] in kept
        {
          assert HasPrefix(p)(hucs[i]);
        }
      }
      if |kept| == 0 then
        Err(NoMatchError(p))
      else
        assert kept[0] in hucs && StartsWith(kept[0], p);
        Ok(kept)
  }

  /** `if sample_size is not None: ...`: a non-integer or a value below 1 is
      refused, so is one above the number available; otherwise `n` ids are
      drawn without replacement by the draw stream `draws`. */
  function ApplySample(hucs: seq<string>, sampleSize: Option<Scalar>, draws: seq<nat>): (r: Result<seq<string>>)
    ensures sampleSize.None? ==> r == Ok(hucs)
    ensures sampleSize.Some? && (sampleSize.value.Text? || sampleSize.value.n < 1) ==> r == Err(SampleSizeError)
    ensures sampleSize.Some? && sampleSize.value.Number? && sampleSize.value.n > |hucs| && sampleSize.value.n >= 1 ==>
      r == Err(TooLargeError(sampleSize.value.n, |hucs|))
    ensures sampleSize.Some? && r.Ok? ==> sampleSize.value.Number? && |r.value| == sampleSize.value.n
    ensures r.Ok? ==> multiset(r.value) <= multiset(hucs)
  {
    match sampleSize
    case None => Ok(hucs)
    case Some(Text(_)) => Err(SampleSizeError)
    case Some(Number(n)) =>
      if n < 1 then Err(SampleSizeError)
      else if n > |hucs| then Err(TooLargeError(n, |hucs|))
      else Ok(Sample(hucs, n, draws))
  }

  /** Every size-n selection of the candidates is the outcome of some draw stream. */
  lemma ApplySampleComplete(hucs: seq<string>, chosen: seq<string>) returns (draws: seq<nat>)
    requires 1 <= |chosen| && multiset(chosen) <= multiset(hucs)
    ensures ApplySample(hucs, Some(Number(|chosen|)), draws) == Ok(chosen)
  {
    draws := SampleReachesEvery(hucs, chosen);
  }

  /** A row of the manifest. */
  datatype ManifestRow = ManifestRow(level: string, hucid: Scalar)

  /** `manifest.loc[manifest['level'] == level, 'hucid'].astype(str)`, in row order. */
  function LevelIds(manifest: seq<ManifestRow>, level: string): (ids: seq<string>)
    ensures forall x :: x in ids <==> exists i :: 0 <= i < |manifest| && manifest[i].level == level && AsText(manifest[i].hucid) == x
    decreases |manifest|
  {
    if |manifest| == 0 then []
    else
      var rest := LevelIds(manifest[1..], level);
      assert forall i :: 0 < i < |manifest| ==> manifest[i] == manifest[1..][i - 1];
      (if manifest[0].level == level then [AsText(manifest[0].hucid)] else []) + rest
  }

  /** A selected id satisfies the prefix filter. */
  predicate MatchesPrefix(x: string, prefix: Option<Scalar>) {
    Truthy(prefix) ==> prefix.value.Text? && StartsWith(x, prefix.value.s)
  }

  /** An applied prefix filter keeps exactly the matching ids. */
  lemma ApplyPrefixKeeps(hucs: seq<string>, prefix: Option<Scalar>)
    requires ApplyPrefix(hucs, prefix).Ok?
    ensures forall x :: x in ApplyPrefix(hucs, prefix).value <==> x in hucs && MatchesPrefix(x, prefix)
  {
  }

  lemma InSorted(xs: seq<string>, x: string)
    requires x in Sort(xs)
    ensures x in xs
  {
    assert x in multiset(Sort(xs));
  }

  lemma InSubMultiset(a: seq<string>, b: seq<string>, x: string)
    requires multiset(a) <= multiset(b) && x in a
    ensures x in b
  {
    assert x in multiset(a);
  }

  /** The steps both scripts share after collecting their candidate ids: the
      prefix filter, the optional sample, and `sorted`. */
  function SelectIds(ids: seq<string>, sampleSize: Option<Scalar>, draws: seq<nat>, prefix: Option<Scalar>): (r: Result<seq<string>>)
    ensures r.Err? <==> (ApplyPrefix(ids, prefix).Err? || ApplySample(ApplyPrefix(ids, prefix).value, sampleSize, draws).Err?)
    ensures r.Ok? ==> Sorted(r.value)
    ensures r.Ok? ==> multiset(r.value) <= multiset(ids)
    ensures r.Ok? ==> forall x :: x in r.value ==> x in ids && MatchesPrefix(x, prefix)
    ensures r.Ok? && sampleSize.None? ==> r.value == Sort(ApplyPrefix(ids, prefix).value)
    ensures r.Ok? && sampleSize.None? ==> forall x :: x in ids && MatchesPrefix(x, prefix) ==> x in r.value
    ensures r.Ok? && sampleSize.Some? ==> sampleSize.value.Number? && |r.value| == sampleSize.value.n
  {
    var kept :- ApplyPrefix(ids, prefix);
    ApplyPrefixKeeps(ids, prefix);
    var chosen :- ApplySample(kept, sampleSize, draws);
    var sorted := Sort(chosen);
    assert forall x :: x in sorted ==> x in kept by {
      forall x | x in sorted
        ensures x in kept
      {
        InSorted(chosen, x);
        InSubMultiset(chosen, kept, x);
      }
    }
    assert sampleSize.None? ==> forall x :: x in kept ==> x in sorted by {
      if sampleSize.None? {
        forall x | x in kept
          ensures x in sorted
        {
          assert x in multiset(sorted);
        }
      }
    }
    Ok(sorted)
  }

  /** `filter_huc_list`: the ids of the level, then the shared selection steps. */
  function FilterHucList(manifest: seq<ManifestRow>, level: string, sampleSize: Option<Scalar>, draws: seq<nat>, prefix: Option<Scalar>): (r: Result<seq<string>>)
    ensures r.Err? <==> (ApplyPrefix(LevelIds(manifest, level), prefix).Err? ||
      ApplySample(ApplyPrefix(LevelIds(manifest, level), prefix).value, sampleSize, draws).Err?)
    ensures r.Ok? ==> Sorted(r.value)
    ensures r.Ok? ==> forall x :: x in r.value ==> (MatchesPrefix(x, prefix) &&
      exists i :: 0 <= i < |manifest| && manifest[i].level == level && AsText(manifest[i].hucid) == x)
    ensures r.Ok? && sampleSize.None? ==> multiset(r.value) == multiset(ApplyPrefix(LevelIds(manifest, level), prefix).value)
    ensures r.Ok? && sampleSize.Some? ==> sampleSize.value.Number? && |r.value| == sampleSize.value.n
    ensures r.Ok? ==> multiset(r.value) <= multiset(LevelIds(manifest, level))
  {
    SelectIds(LevelIds(manifest, level), sampleSize, draws, prefix)
  }
}

=== FILE: filter_nhd.dfy ===
/** `filter_nhd_flowlines` of src/filter_nhd.py: a required-column check, then
    three row filters applied one after the other. */
module FilterNhd {
  import opened Common
  import opened Seqs
  import opened Geo

  /** The columns of a flowline row the filter reads. */
  datatype FlowRow = FlowRow(startFlag: int, ftype: string, lengthKm: real, kind: GeomType)

  const Required: seq<string> := ["StartFlag", "FTYPE", "geometry", "LENGTHKM"]
  const MissingColumnsError: string := "Input NHDPlus dataset must contain columns: StartFlag, FTYPE, geometry, LENGTHKM"

  predicate IsStreamRiver(r: FlowRow) {
    r.ftype == "StreamRiver"
  }

  /** `~((StartFlag == 1) & (LENGTHKM < 1))`: not a headwater segment shorter than 1 km. */
  predicate NotShortHeadwater(r: FlowRow) {
    !(r.startFlag == 1 && r.lengthKm < 1.0)
  }

  predicate IsLine(r: FlowRow) {
    r.kind == LineString
  }

  /** A row the filter keeps, as one condition. */
  predicate Kept(r: FlowRow) {
    IsStreamRiver(r) && NotShortHeadwater(r) && IsLine(r)
  }

  predicate HasColumns(columns: set<string>) {
    forall k :: 0 <= k < |Required| ==> Required[k] in columns
  }

  function FilterNhdFlowlines(columns: set<string>, rows: seq<FlowRow>): (r: Result<seq<FlowRow>>)
    ensures r.Err? <==> !HasColumns(columns)
    ensures r.Err? ==> r.msg == MissingColumnsError
    ensures r.Ok? ==> forall x :: x in r.value <==> x in rows && Kept(x)
    ensures r.Ok? ==> multiset(r.value) <= multiset(rows)
  {
    if !HasColumns(columns) then Err(MissingColumnsError)
    else
      var streams := Filter(rows, IsStreamRiver);
      var long := Filter(streams, NotShortHeadwater);
      Ok(Filter(long, IsLine))
  }

  /** The three filters in sequence are one order-preserving filter by their conjunction. */
  lemma FilterIsConjunction(columns: set<string>, rows: seq<FlowRow>)
    requires HasColumns(columns)
    ensures FilterNhdFlowlines(columns, rows) == Ok(Filter(rows, Kept))
  {
    FilterFuse(rows, IsStreamRiver, NotShortHeadwater);
    var p := Both(IsStreamRiver, NotShortHeadwater);
    FilterFuse(rows, p, IsLine);
    FilterCongruent(rows, Both(p, IsLine), Kept);
  }

  /** Filtering the filtered rows again changes nothing. */
  lemma FilterNhdIdempotent(columns: set<string>, rows: seq<FlowRow>)
    requires HasColumns(columns)
    ensures FilterNhdFlowlines(columns, FilterNhdFlowlines(columns, rows).value) == FilterNhdFlowlines(columns, rows)
  {
    FilterIsConjunction(columns, rows);
    FilterIsConjunction(columns, Filter(rows, Kept));
    FilterIdempotent(rows, Kept);
  }
}

=== FILE: geo.dfy ===
/** Geometry as the download scripts see it: bounding boxes over exact reals,
    the four-quadrant split of a box, and geometries reduced to their type,
    an identity and their bounds. Shapes themselves belong to the geometry
    library and are not modelled. */
module Geo {

  /** `(minx, miny, maxx, maxy)`, as `bounds` and `total_bounds` give it. */
  datatype Box = Box(minx: real, miny: real, maxx: real, maxy: real)

  predicate WellFormed(b: Box) {
    b.minx <= b.maxx && b.miny <= b.maxy
  }

  /** The point `(x, y)` lies in the closed box. */
  predicate InBox(b: Box, x: real, y: real) {
    b.minx <= x <= b.maxx && b.miny <= y <= b.maxy
  }

  /** `a` lies inside `b`. */
  predicate Within(a: Box, b: Box) {
    b.minx <= a.minx && a.maxx <= b.maxx && b.miny <= a.miny && a.maxy <= b.maxy
  }

  function Width(b: Box): real {
    b.maxx - b.minx
  }

  function Height(b: Box): real {
    b.maxy - b.miny
  }

  /** `(minx + maxx) / 2` */
  function MidX(b: Box): (m: real)
    ensures m - b.minx == b.maxx - m
  {
    (b.minx + b.maxx) / 2.0
  }

  /** `(miny + maxy) / 2` */
  function MidY(b: Box): (m: real)
    ensures m - b.miny == b.maxy - m
  {
    (b.miny + b.maxy) / 2.0
  }

  /** The four quadrants, bottom-left, bottom-right, top-left, top-right. */
  function Split(b: Box): (qs: seq<Box>)
    ensures |qs| == 4
    ensures qs[0].minx == b.minx && qs[0].miny == b.miny
    ensures qs[1].maxx == b.maxx && qs[1].miny == b.miny
    ensures qs[2].minx == b.minx && qs[2].maxy == b.maxy
    ensures qs[3].maxx == b.maxx && qs[3].maxy == b.maxy
    ensures forall k :: 0 <= k < 4 ==> Width(qs[k]) * 2.0 == Width(b) && Height(qs[k]) * 2.0 == Height(b)
  {
    var mx := MidX(b);
    var my := MidY(b);
    [ Box(b.minx, b.miny, mx, my),
      Box(mx, b.miny, b.maxx, my),
      Box(b.minx, my, mx, b.maxy),
      Box(mx, my, b.maxx, b.maxy) ]
  }

  /** Each quadrant of a box lies inside it and is itself a box. */
  lemma SplitWithin(b: Box)
    requires WellFormed(b)
    ensures forall k :: 0 <= k < 4 ==> Within(Split(b)[k], b) && WellFormed(Split(b)[k])
  {
  }

  /** Every point of the box lies in some quadrant. */
  lemma SplitCovers(b: Box, x: real, y: real)
    requires InBox(b, x, y)
    ensures exists k :: 0 <= k < 4 && InBox(Split(b)[k], x, y)
  {
    var qs := Split(b);
    var k := (if x <= MidX(b) then 0 else 1) + (if y <= MidY(b) then 0 else 2);
    assert InBox(qs[k], x, y);
  }

  /** A point of a quadrant lies in the box. */
  lemma SplitSound(b: Box, x: real, y: real, k: nat)
    requires k < 4 && InBox(Split(b)[k], x, y) && WellFormed(b)
    ensures InBox(b, x, y)
  {
    SplitWithin(b);
  }

  /** Two different quadrants share only points on a mid line. */
  lemma SplitOverlapOnMidLines(b: Box, x: real, y: real, k: nat, l: nat)
    requires k < l < 4
    requires InBox(Split(b)[k], x, y) && InBox(Split(b)[l], x, y)
    ensures x == MidX(b) || y == MidY(b)
  {
  }

  /** The shapely geometry types the scripts test for. */
  datatype GeomType = Polygon | MultiPolygon | LineString | MultiLineString | OtherType(name: string)

  /** A geometry: its type, an identity standing for its shape, and its bounds. */
  datatype Geometry = Geometry(kind: GeomType, id: nat, bounds: Box)

  /** One row of a feature table. */
  datatype Feature = Feature(kind: GeomType, id: nat)

  predicate IsLineString(f: Feature) {
    f.kind == LineString
  }
}

=== FILE: get_hucs.dfy ===
/** `get_hucs` and `get_huc_ids_from_config` of src/get_hucs.py. Reading
    `huc10s.csv` is left to the caller: the table arrives as its columns. */
module GetHucs {
  import opened Common
  import opened Text
  import opened Seqs
  import opened FilterHucs

  const InvalidLevelError: string := "Invalid HUC level. Must be one of ['huc8', 'huc10', 'huc12']"
  const MissingColumnError: string := "Column 'huc10' not found in data file"

  /** `valid_levels[level]`, when the level is one of the keys. */
  function LevelLength(level: string): (n: Option<nat>)
    ensures n.Some? <==> level in {"huc8", "huc10", "huc12"}
    ensures n.Some? ==> level == "huc" + ShowNat(n.value)
  {
    if level == "huc8" then Some(8)
    else if level == "huc10" then Some(10)
    else if level == "huc12" then Some(12)
    else None
  }

  /** `hucs[huc_col].str[:level_length]` */
  function Truncate(ids: seq<string>, n: nat): (r: seq<string>)
    ensures |r| == |ids|
    ensures forall i :: 0 <= i < |ids| ==> StartsWith(ids[i], r[i]) && |r[i]| <= n && (|ids[i]| >= n ==> |r[i]| == n)
  {
    seq(|ids|, i requires 0 <= i < |ids| => Take(ids[i], n))
  }

  /** The truncated ids without duplicates, in order of first appearance. */
  function Candidates(col: seq<string>, n: nat): (c: seq<string>)
    ensures Distinct(c)
    ensures forall x :: x in c ==> |x| <= n && exists i :: 0 <= i < |col| && x == Take(col[i], n)
    ensures forall i :: 0 <= i < |col| ==> Take(col[i], n) in c
  {
    var processed := Truncate(col, n);
    var c := Dedup(processed);
    assert forall x :: x in c ==> exists i :: 0 <= i < |col| && x == Take(col[i], n) by {
      forall x | x in c
        ensures exists i :: 0 <= i < |col| && x == Take(col[i], n)
      {
        var k :| 0 <= k < |c| && c[k] == x;
        var i :| 0 <= i < |processed| && processed[i] == x;
      }
    }
    c
  }

  /** The sorted selection from distinct candidates is distinct. */
  lemma SelectionDistinct(c: seq<string>, sampleSize: Option<Scalar>, draws: seq<nat>, prefix: Option<Scalar>)
    requires Distinct(c)
    requires SelectIds(c, sampleSize, draws, prefix).Ok?
    ensures Distinct(SelectIds(c, sampleSize, draws, prefix).value)
  {
    DistinctSubMultiset(SelectIds(c, sampleSize, draws, prefix).value, c);
  }

  /** `get_hucs`: validate the level, truncate every id to it, remove
      duplicates, then filter by prefix, sample, and sort. */
  function GetHucs(level: string, table: map<string, seq<string>>, sampleSize: Option<Scalar>, draws: seq<nat>, prefix: Option<Scalar>): (r: Result<seq<string>>)
    ensures LevelLength(level).None? ==> r == Err(InvalidLevelError)
    ensures LevelLength(level).Some? && "huc10" !in table ==> r == Err(MissingColumnError)
    ensures r.Ok? ==> LevelLength(level).Some? && "huc10" in table
    ensures r.Ok? ==> Sorted(r.value) && Distinct(r.value)
    ensures r.Ok? ==> forall x :: x in r.value ==>
      MatchesPrefix(x, prefix) && |x| <= LevelLength(level).value &&
      exists i :: 0 <= i < |table["huc10"]| && x == Take(table["huc10"][i], LevelLength(level).value)
    ensures r.Ok? && sampleSize.None? ==> forall i :: 0 <= i < |table["huc10"]| ==>
      (MatchesPrefix(Take(table["huc10"][i], LevelLength(level).value), prefix) ==>
        Take(table["huc10"][i], LevelLength(level).value) in r.value)
    ensures r.Ok? && sampleSize.Some? ==> sampleSize.value.Number? && |r.value| == sampleSize.value.n
    ensures LevelLength(level).Some? && "huc10" in table ==>
      var c := Candidates(table["huc10"], LevelLength(level).value);
      r == SelectIds(c, sampleSize, draws, prefix) &&
      (r.Err? <==> ApplyPrefix(c, prefix).Err? || ApplySample(ApplyPrefix(c, prefix).value, sampleSize, draws).Err?)
  {
    match LevelLength(level)
    case None => Err(InvalidLevelError)
    case Some(n) =>
      if "huc10" !in table then Err(MissingColumnError)
      else
        var c := Candidates(table["huc10"], n);
        var r := SelectIds(c, sampleSize, draws, prefix);
        if r.Ok? then
          SelectionDistinct(c, sampleSize, draws, prefix);
          r
        else r
  }

  /** The keys of the workflow configuration that select watersheds. */
  datatype HucConfig = HucConfig(
    hucIds: Option<seq<string>>,
    hucLevel: Option<string>,
    sampleSize: Option<Scalar>,
    hucFilter: Option<Scalar>)

  /** `get_huc_ids_from_config`: an explicit `huc_ids` list wins unchanged;
      otherwise `get_hucs` runs with the level defaulting to huc10. */
  function GetHucIdsFromConfig(config: HucConfig, table: map<string, seq<string>>, draws: seq<nat>): (r: Result<seq<string>>)
    ensures config.hucIds.Some? ==> r == Ok(config.hucIds.value)
    ensures config.hucIds.None? && config.hucLevel.None? ==>
      r == GetHucs("huc10", table, config.sampleSize, draws, config.hucFilter)
    ensures config.hucIds.None? && config.hucLevel.Some? ==>
      r == GetHucs(config.hucLevel.value, table, config.sampleSize, draws, config.hucFilter)
  {
    if config.hucIds.Some? then Ok(config.hucIds.value)
    else GetHucs(config.hucLevel.GetOr("huc10"), table, config.sampleSize, draws, config.hucFilter)
  }

  /** Without `huc_ids` in the configuration the list is sorted and free of duplicates. */
  lemma ConfigListsAreCanonical(config: HucConfig, table: map<string, seq<string>>, draws: seq<nat>)
    requires config.hucIds.None?
    requires GetHucIdsFromConfig(config, table, draws).Ok?
    ensures Sorted(GetHucIdsFromConfig(config, table, draws).value)
    ensures Distinct(GetHucIdsFromConfig(config, table, draws).value)
  {
  }
}

=== FILE: missing.dfy ===
/** scripts/missing.py: the region-18 huc10s of the manifest that have no
    `-floors.tif` file yet. The directory listing and the manifest are inputs. */
module Missing {
  import opened Text
  import opened Seqs
  import opened FilterHucs
  import Mosaic

  const Suffix: string := "-floors.tif"

  /** `glob("*-floors.tif")` on one name: `*` does not match a leading dot. */
  predicate GlobMatch(name: string) {
    EndsWith(name, Suffix) && !StartsWith(name, ".")
  }

  /** The paths glob returns: the directory text followed by each matching name. */
  function FloorsFiles(floorsDir: string, names: seq<string>): (files: seq<string>)
    ensures forall f :: f in files <==> exists i :: 0 <= i < |names| && GlobMatch(names[i]) && f == floorsDir + names[i]
  {
    var hits := Filter(names, GlobMatch);
    var files := Keys(hits, (n: string) => floorsDir + n);
    assert forall f :: f in files ==> exists i :: 0 <= i < |names| && GlobMatch(names[i]) && f == floorsDir + names[i] by {
      forall f | f in files
        ensures exists i :: 0 <= i < |names| && GlobMatch(names[i]) && f == floorsDir + names[i]
      {
        var k :| 0 <= k < |files| && files[k] == f;
        assert hits[k] in hits;
        var i :| 0 <= i < |names| && names[i] == hits[k];
      }
    }
    assert forall i :: 0 <= i < |names| && GlobMatch(names[i]) ==> floorsDir + names[i] in files by {
      forall i | 0 <= i < |names| && GlobMatch(names[i])
        ensures floorsDir + names[i] in files
      {
        assert names[i] in hits;
        var k :| 0 <= k < |hits| && hits[k] == names[i];
        assert files[k] == floorsDir + names[i];
      }
    }
    files
  }

  /** `f.split('/')[-1].split('-')[0]` for every globbed file. */
  function CompletedIds(files: seq<string>): (ids: set<string>)
    ensures forall x :: x in ids <==> exists k :: 0 <= k < |files| && Mosaic.HucIdOfPath(files[k]) == x
  {
    set k | 0 <= k < |files| :: Mosaic.HucIdOfPath(files[k])
  }

  /** The huc10 rows of the manifest, as text, whose id starts with "18". */
  function CandidateIds(manifest: seq<ManifestRow>): (ids: set<string>)
    ensures forall x :: x in ids <==> x in LevelIds(manifest, "huc10") && StartsWith(x, "18")
    ensures forall x :: x in ids <==>
      exists i :: 0 <= i < |manifest| && manifest[i].level == "huc10" && AsText(manifest[i].hucid) == x && StartsWith(x, "18")
  {
    var region := Filter(LevelIds(manifest, "huc10"), HasPrefix("18"));
    assert forall x :: x in LevelIds(manifest, "huc10") && StartsWith(x, "18") ==> x in region by {
      forall x | x in LevelIds(manifest, "huc10") && StartsWith(x, "18")
        ensures x in region
      {
        var ids := LevelIds(manifest, "huc10");
        var k :| 0 <= k < |ids| && ids[k] == x;
        assert HasPrefix("18")(ids[k]);
      }
    }
    set x | x in region
  }

  /** `set(huc10s['hucid']) - set(completed)`. */
  function MissingIds(manifest: seq<ManifestRow>, floorsDir: string, names: seq<string>): (missing: set<string>)
    ensures forall x :: x in missing <==> x in CandidateIds(manifest) && x !in CompletedIds(FloorsFiles(floorsDir, names))
  {
    CandidateIds(manifest) - CompletedIds(FloorsFiles(floorsDir, names))
  }

  /** In a directory whose path ends in `/`, the id of a globbed file is its
      name up to the first `-`, a proper prefix since the name ends in the suffix. */
  lemma CompletedIdOfName(floorsDir: string, name: string)
    requires EndsWith(floorsDir, "/") && '/' !in name && GlobMatch(name)
    ensures Mosaic.HucIdOfPath(floorsDir + name) == SplitHead(name, '-')
    ensures |SplitHead(name, '-')| < |name|
  {
    BaseNameOfChild(floorsDir, name);
    var k := |name| - |Suffix|;
    assert name[k] == Suffix[0] == '-' by {
      assert name[k..] == Suffix;
    }
    var id := SplitHead(name, '-');
    assert forall j :: 0 <= j < |id| ==> id[j] == name[..|id|][j];
    assert |id| <= k;
  }

  /** A huc10 is missing exactly when it is a candidate and no matching file
      name in the directory starts with it followed by `-`. */
  lemma MissingIffNoFile(manifest: seq<ManifestRow>, floorsDir: string, names: seq<string>, x: string)
    requires EndsWith(floorsDir, "/")
    requires forall i :: 0 <= i < |names| ==> '/' !in names[i]
    ensures x in MissingIds(manifest, floorsDir, names) <==>
      x in CandidateIds(manifest) && forall i :: 0 <= i < |names| && GlobMatch(names[i]) ==> SplitHead(names[i], '-') != x
  {
    var files := FloorsFiles(floorsDir, names);
    if x in CompletedIds(files) {
      var k :| 0 <= k < |files| && Mosaic.HucIdOfPath(files[k]) == x;
      assert files[k] in files;
      var i :| 0 <= i < |names| && GlobMatch(names[i]) && files[k] == floorsDir + names[i];
      CompletedIdOfName(floorsDir, names[i]);
    } else {
      forall i | 0 <= i < |names| && GlobMatch(names[i])
        ensures SplitHead(names[i], '-') != x
      {
        assert floorsDir + names[i] in files;
        var k :| 0 <= k < |files| && files[k] == floorsDir + names[i];
        CompletedIdOfName(floorsDir, names[i]);
        assert Mosaic.HucIdOfPath(files[k]) in CompletedIds(files);
      }
    }
  }

  /** The mosaic driver's output for a group without `-` or `/` that does not
      start with a dot is found by the glob and counts that group as completed. */
  lemma MosaicOutputCompletes(outputDir: string, g: string)
    requires '-' !in g && '/' !in g && !StartsWith(g, ".")
    ensures GlobMatch(g + Suffix)
    ensures Mosaic.HucIdOfPath(outputDir + "/" + g + Suffix) == g
  {
    var name := g + Suffix;
    assert '/' !in name by {
      forall k | 0 <= k < |name|
        ensures name[k] != '/'
      {
        if k >= |g| {
          assert name[k] == Suffix[k - |g|];
        }
      }
    }
    assert name[|name| - |Suffix|..] == Suffix;
    assert outputDir + "/" + g + Suffix == (outputDir + "/") + name;
    assert EndsWith(outputDir + "/", "/");
    BaseNameOfChild(outputDir + "/", name);
    assert name[|g|] == '-';
    assert name[..|g|] == g;
    SplitHeadUnique(name, '-', g);
    assert name[..1][0] == name[0];
    if |g| > 0 {
      assert g[..1] == name[..1];
    } else {
      assert name[0] == '-';
    }
  }
}

=== FILE: mosaic.dfy ===
/** The tile mosaic driver of src/mosaic.py: name parsing, grouping by a
    watershed-id prefix, binarisation with the nodata fill, the optional
    state clip, and one output per group. */
module Mosaic {
  import opened Common
  import opened Text
  import opened Seqs
  import opened Raster

  /** The `--level` choices other than None. */
  datatype Level = Huc2 | Huc4 | Huc6 | Huc8

  function LevelName(l: Level): string {
    match l
    case Huc2 => "huc2"
    case Huc4 => "huc4"
    case Huc6 => "huc6"
    case Huc8 => "huc8"
  }

  /** `int(level[-1])`: how many leading id characters a level groups by. */
  function LevelDigits(l: Level): (d: nat)
    ensures LevelName(l) == "huc" + ShowNat(d)
  {
    var name := LevelName(l);
    DigitValue(name[|name| - 1])
  }

  /** `--level`: absent means the default huc6; a given value must be one of the choices. */
  function ParseLevelArg(arg: Option<string>): (r: Result<Level>)
    ensures arg.None? ==> r == Ok(Huc6)
    ensures arg.Some? && r.Ok? ==> LevelName(r.value) == arg.value
    ensures arg.Some? ==> (r.Ok? <==> arg.value in {"huc2", "huc4", "huc6", "huc8"})
  {
    match arg
    case None => Ok(Huc6)
    case Some(s) =>
      if s == "huc2" then Ok(Huc2)
      else if s == "huc4" then Ok(Huc4)
      else if s == "huc6" then Ok(Huc6)
      else if s == "huc8" then Ok(Huc8)
      else Err("argument --level: invalid choice: '" + s + "'")
  }

  /** The watershed id of a tile: its file name up to the first `-`. */
  function HucIdOfPath(path: string): (id: string)
    ensures StartsWith(BaseName(path), id)
    ensures '-' !in id && '/' !in id
    ensures |id| < |BaseName(path)| ==> BaseName(path)[|id|] == '-'
  {
    var base := BaseName(path);
    var id := SplitHead(base, '-');
    assert forall k :: 0 <= k < |id| ==> id[k] == base[k];
    id
  }

  function Min(a: int, b: int): int {
    if a <= b then a else b
  }

  /** The group of a tile id: "all" without a level, otherwise the first
      `LevelDigits` characters; slicing never fails, so a short id is its own group. */
  function GroupOf(id: string, level: Option<Level>): (g: string)
    ensures level.None? ==> g == "all"
    ensures level.Some? ==> StartsWith(id, g) && |g| == Min(LevelDigits(level.value), |id|)
  {
    match level
    case None => "all"
    case Some(l) => Take(id, LevelDigits(l))
  }

  /** One record of `load_floor_files`. */
  datatype FloorFile = FloorFile(huc10: string, filename: string, group: string)

  function GroupKey(f: FloorFile): string {
    f.group
  }

  function FileName(f: FloorFile): string {
    f.filename
  }

  /** `load_floor_files` over the listed tile paths: one record per file, in order. */
  function LoadFloorFiles(files: seq<string>, level: Option<Level>): (r: seq<FloorFile>)
    ensures |r| == |files|
    ensures forall i :: 0 <= i < |files| ==>
      r[i].filename == files[i] && r[i].huc10 == HucIdOfPath(files[i]) && r[i].group == GroupOf(r[i].huc10, level)
  {
    seq(|files|, i requires 0 <= i < |files| =>
      var id := HucIdOfPath(files[i]);
      FloorFile(id, files[i], GroupOf(id, level)))
  }

  /** `floors["group"].unique()`. */
  function Groups(recs: seq<FloorFile>): (gs: seq<string>)
    ensures Distinct(gs)
    ensures forall i :: 0 <= i < |recs| ==> recs[i].group in gs
    ensures forall k :: 0 <= k < |gs| ==> HasKey(recs, GroupKey, gs[k])
  {
    var keys := Keys(recs, GroupKey);
    var gs := Dedup(keys);
    assert forall i :: 0 <= i < |recs| ==> keys[i] == recs[i].group;
    assert forall k :: 0 <= k < |gs| ==> HasKey(recs, GroupKey, gs[k]) by {
      forall k | 0 <= k < |gs|
        ensures HasKey(recs, GroupKey, gs[k])
      {
        var i :| 0 <= i < |keys| && keys[i] == gs[k];
        assert GroupKey(recs[i]) == gs[k];
      }
    }
    gs
  }

  /** `unique()` lists the groups in the order their first record appears. */
  lemma GroupsInOrder(recs: seq<FloorFile>)
    ensures var gs := Groups(recs);
      forall k, l :: 0 <= k < l < |gs| ==> FirstIndex(recs, GroupKey, gs[k]) < FirstIndex(recs, GroupKey, gs[l])
  {
    var keys := Keys(recs, GroupKey);
    var gs := Groups(recs);
    assert gs == Dedup(keys);
    DedupOrder(keys);
    forall k, l | 0 <= k < l < |gs|
      ensures FirstIndex(recs, GroupKey, gs[k]) < FirstIndex(recs, GroupKey, gs[l])
    {
      FirstIndexKeys(recs, GroupKey, gs[k]);
      FirstIndexKeys(recs, GroupKey, gs[l]);
    }
  }

  /** `floors.loc[floors["group"] == g, "filename"]`, in record order: a group
      present in the records has at least one file, and its first file (the
      one `iloc[0]` reads the nodata from) is that of the group's first record. */
  function GroupFiles(recs: seq<FloorFile>, g: string): (files: seq<string>)
    ensures forall f :: f in files ==> exists i :: 0 <= i < |recs| && recs[i].filename == f && recs[i].group == g
    ensures forall i :: 0 <= i < |recs| && recs[i].group == g ==> recs[i].filename in files
    ensures HasKey(recs, GroupKey, g) ==> |files| > 0 && files[0] == recs[FirstIndex(recs, GroupKey, g)].filename
  {
    var ms := Members(recs, GroupKey, g);
    MembersIsFilter(recs, GroupKey, g);
    var files := Keys(ms, FileName);
    assert forall f :: f in files ==> exists i :: 0 <= i < |recs| && recs[i].filename == f && recs[i].group == g by {
      forall f | f in files
        ensures exists i :: 0 <= i < |recs| && recs[i].filename == f && recs[i].group == g
      {
        var k :| 0 <= k < |files| && files[k] == f;
        assert ms[k] in ms;
        var i :| 0 <= i < |recs| && recs[i] == ms[k];
        assert recs[i].filename == f;
      }
    }
    assert forall i :: 0 <= i < |recs| && recs[i].group == g ==> recs[i].filename in files by {
      forall i | 0 <= i < |recs| && recs[i].group == g
        ensures recs[i].filename in files
      {
        assert recs[i] in ms;
        var k :| 0 <= k < |ms| && ms[k] == recs[i];
        assert files[k] == recs[i].filename;
      }
    }
    files
  }

  /** Every listed file falls in exactly one group: it is a member of its own group
      and of no other, and the group sizes add up to the number of files. */
  lemma GroupsPartitionFiles(files: seq<string>, level: Option<Level>)
    ensures GroupSizes(Groups(LoadFloorFiles(files, level)), LoadFloorFiles(files, level), GroupKey) == |files|
    ensures forall i, g :: 0 <= i < |files| ==>
      var recs := LoadFloorFiles(files, level);
      (recs[i] in Members(recs, GroupKey, g) <==> g == recs[i].group)
  {
    var recs := LoadFloorFiles(files, level);
    GroupSizesPartition(Groups(recs), recs, GroupKey);
  }

  /** `mosaic(tif_files)` given the merged grid and the nodata the first tile
      declares: 1 where the merged value is positive, 0 elsewhere, and 255 where
      that class equals the declared nodata and so is lost on re-reading. */
  function MosaicTiles(merged: Grid, firstDeclared: Option<int>): (m: Mosaic)
    ensures m.nodata == Nodata
    ensures SameShape(m.grid, merged)
    ensures forall i, j :: InGrid(merged, i, j) ==> Classified(m.grid[i][j])
    ensures forall i, j :: InGrid(merged, i, j) ==>
      m.grid[i][j] == if firstDeclared == Some(FloorValue(merged[i][j])) then Val(Nodata) else Val(FloorValue(merged[i][j]))
  {
    Mosaic(FillNodata(MaskNodata(Binarize(merged), firstDeclared)), Nodata)
  }

  /** Without a nodata declaration of 0 or 1, the mosaic is exactly the binarised merge. */
  lemma MosaicOfUndeclared(merged: Grid, firstDeclared: Option<int>)
    requires firstDeclared != Some(0) && firstDeclared != Some(1)
    ensures MosaicTiles(merged, firstDeclared).grid == Binarize(merged)
  {
    var m := MosaicTiles(merged, firstDeclared).grid;
    var b := Binarize(merged);
    forall i | 0 <= i < |merged|
      ensures m[i] == b[i]
    {
      assert forall j :: 0 <= j < |merged[i]| ==> m[i][j] == b[i][j];
    }
  }

  /** The library side of one run. */
  datatype Sources = Sources(
    merge: seq<string> -> Grid,           // `rasterio.merge.merge` of the tiles
    declaredNodata: string -> Option<int>, // the nodata in a tile's metadata
    stateCover: Grid -> seq<seq<bool>>)   // pixels the California polygons touch

  datatype Output = Output(path: string, mosaic: Mosaic)

  /** One group of the driver loop: mosaic, then the state clip when asked for. */
  function GroupOutput(outputDir: string, g: string, files: seq<string>, stateClip: bool, src: Sources): (o: Output)
    requires |files| > 0
    ensures o.path == outputDir + "/" + g + "-floors.tif"
    ensures o.mosaic.nodata == Nodata
    ensures SameShape(o.mosaic.grid, src.merge(files))
    ensures !stateClip ==> o.mosaic == MosaicTiles(src.merge(files), src.declaredNodata(files[0]))
    ensures stateClip ==>
      var m := MosaicTiles(src.merge(files), src.declaredNodata(files[0])).grid;
      forall i, j :: InGrid(m, i, j) ==>
        (o.mosaic.grid[i][j] == Missing <==> !Covered(src.stateCover(m), i, j)) &&
        (Covered(src.stateCover(m), i, j) ==> o.mosaic.grid[i][j] == m[i][j])
  {
    var m := MosaicTiles(src.merge(files), src.declaredNodata(files[0]));
    var grid := if stateClip then ClipToCoverage(m.grid, src.stateCover(m.grid)) else m.grid;
    Output(outputDir + "/" + g + "-floors.tif", Mosaic(grid, m.nodata))
  }

  lemma ConcatCancel(a: string, x: string, y: string, b: string)
    requires a + x + b == a + y + b
    ensures x == y
  {
    assert |x| == |y|;
    assert x == (a + x + b)[|a|..|a| + |x|];
    assert y == (a + y + b)[|a|..|a| + |y|];
  }

  /** Different groups are written to different paths. */
  lemma OutputPathsDiffer(outputDir: string, g: string, h: string)
    requires g != h
    ensures outputDir + "/" + g + "-floors.tif" != outputDir + "/" + h + "-floors.tif"
  {
    if outputDir + "/" + g + "-floors.tif" == outputDir + "/" + h + "-floors.tif" {
      ConcatCancel(outputDir + "/", g, h, "-floors.tif");
    }
  }

  /** The outputs of the groups `gs`, in order. */
  function GroupOutputs(outputDir: string, recs: seq<FloorFile>, gs: seq<string>, stateClip: bool, src: Sources): (outs: seq<Output>)
    requires forall k :: 0 <= k < |gs| ==> HasKey(recs, GroupKey, gs[k])
    ensures |outs| == |gs|
    ensures forall k :: 0 <= k < |gs| ==>
      |GroupFiles(recs, gs[k])| > 0 && outs[k] == GroupOutput(outputDir, gs[k], GroupFiles(recs, gs[k]), stateClip, src)
  {
    seq(|gs|, k requires 0 <= k < |gs| => GroupOutput(outputDir, gs[k], GroupFiles(recs, gs[k]), stateClip, src))
  }

  /** Distinct groups give distinct output paths. */
  lemma OutputPathsDistinct(outputDir: string, gs: seq<string>, paths: seq<string>)
    requires Distinct(gs) && |paths| == |gs|
    requires forall k :: 0 <= k < |gs| ==> paths[k] == outputDir + "/" + gs[k] + "-floors.tif"
    ensures Distinct(paths)
  {
    forall k, l | 0 <= k < l < |paths|
      ensures paths[k] != paths[l]
    {
      OutputPathsDiffer(outputDir, gs[k], gs[l]);
    }
  }

  function Paths(outs: seq<Output>): (ps: seq<string>)
    ensures |ps| == |outs| && forall k :: 0 <= k < |outs| ==> ps[k] == outs[k].path
  {
    seq(|outs|, k requires 0 <= k < |outs| => outs[k].path)
  }

  /** What `floors["group"]` raises when no file was listed: a frame built
      from no records has no columns. */
  const NoFilesError: string := "KeyError: 'group'"

  /** The `__main__` loop: one output per distinct group, in order of first
      appearance, each made from that group's files and written to its own
      `{group}-floors.tif`. An empty listing raises before any output. */
  function MosaicRun(outputDir: string, files: seq<string>, level: Option<Level>, stateClip: bool, src: Sources): (r: Result<seq<Output>>)
    ensures r.Err? <==> |files| == 0
    ensures r.Err? ==> r.msg == NoFilesError
    ensures r.Ok? ==> var outs := r.value;
      var gs := Groups(LoadFloorFiles(files, level));
      |outs| == |gs| && |outs| > 0 &&
      forall k :: 0 <= k < |outs| ==> outs[k].path == outputDir + "/" + gs[k] + "-floors.tif"
    ensures r.Ok? ==> var outs := r.value;
      var recs := LoadFloorFiles(files, level);
      var gs := Groups(recs);
      forall k :: 0 <= k < |outs| ==>
        |GroupFiles(recs, gs[k])| > 0 &&
        outs[k] == GroupOutput(outputDir, gs[k], GroupFiles(recs, gs[k]), stateClip, src)
    ensures r.Ok? ==> var outs := r.value;
      var recs := LoadFloorFiles(files, level);
      var gs := Groups(recs);
      forall k, l :: 0 <= k < l < |outs| ==> FirstIndex(recs, GroupKey, gs[k]) < FirstIndex(recs, GroupKey, gs[l])
    ensures r.Ok? ==> Distinct(Paths(r.value))
  {
    if |files| == 0 then Err(NoFilesError)
    else
      var recs := LoadFloorFiles(files, level);
      var gs := Groups(recs);
      assert recs[0].group in gs;
      var outs := GroupOutputs(outputDir, recs, gs, stateClip, src);
      OutputPathsDistinct(outputDir, gs, Paths(outs));
      GroupsInOrder(recs);
      Ok(outs)
  }
}

=== FILE: mosaic_huc6.dfy ===
/** scripts/mosaic_huc6.py: the region-18 huc6 boundaries split into tagged
    polygon records, the tile manifest keyed by huc6, and one binary mosaic
    per huc6, clipped to that huc6's own boundary records. */
module MosaicHuc6 {
  import opened Common
  import opened Text
  import opened Seqs
  import opened Raster
  import Driver = Mosaic

  /** The huc6 units whose boundaries are first cut back to the land polygon. */
  const CoastalHuc6: seq<string> := ["180101", "180500", "180600", "180701", "180702", "180703"]

  /** One polygon of a boundary. Its shape is left to the geometry library;
      the model keeps an identity and whether it is empty. */
  datatype Part = Part(id: nat, isEmpty: bool)

  /** The geometry of a huc6 row, by its shapely type. */
  datatype Shape = PolygonShape(poly: Part) | MultiPolygonShape(parts: seq<Part>) | OtherShape

  /** A row of the huc6 table. `landParts` are the pieces of
      `geom.intersection(land["geometry"])`, one per land polygon, as the library gives them. */
  datatype Huc6Unit = Huc6Unit(huc2: string, huc6: string, geom: Shape, landParts: seq<Part>)

  /** One entry of `boundaries`: a polygon tagged with its huc6 id. */
  datatype Boundary = Boundary(hucid: string, part: Part)

  function PartOf(b: Boundary): Part {
    b.part
  }

  predicate NonEmpty(p: Part) {
    !p.isEmpty
  }

  /** The boundary records one huc6 row contributes. */
  function UnitBoundaries(u: Huc6Unit): (bs: seq<Boundary>)
    ensures forall k :: 0 <= k < |bs| ==> bs[k].hucid == u.huc6
    ensures u.huc6 in CoastalHuc6 ==> Keys(bs, PartOf) == Filter(u.landParts, NonEmpty)
    ensures u.huc6 !in CoastalHuc6 && u.geom.PolygonShape? ==> Keys(bs, PartOf) == [u.geom.poly]
    ensures u.huc6 !in CoastalHuc6 && u.geom.MultiPolygonShape? ==> Keys(bs, PartOf) == u.geom.parts
    ensures u.huc6 !in CoastalHuc6 && u.geom.OtherShape? ==> bs == []
  {
    var parts :=
      if u.huc6 in CoastalHuc6 then Filter(u.landParts, NonEmpty)
      else match u.geom
        case PolygonShape(p) => [p]
        case MultiPolygonShape(ps) => ps
        case OtherShape => [];
    var bs := seq(|parts|, k requires 0 <= k < |parts| => Boundary(u.huc6, parts[k]));
    assert Keys(bs, PartOf) == parts;
    bs
  }

  /** A coastal unit never contributes an empty polygon. */
  lemma CoastalPartsNonEmpty(u: Huc6Unit)
    requires u.huc6 in CoastalHuc6
    ensures forall k :: 0 <= k < |UnitBoundaries(u)| ==> !UnitBoundaries(u)[k].part.isEmpty
  {
    var bs := UnitBoundaries(u);
    forall k | 0 <= k < |bs|
      ensures !bs[k].part.isEmpty
    {
      assert Keys(bs, PartOf)[k] == bs[k].part;
      assert bs[k].part in Filter(u.landParts, NonEmpty);
    }
  }

  /** `h` is the huc6 id of some region-18 row. */
  predicate IsRegionHuc6(units: seq<Huc6Unit>, h: string) {
    exists i :: 0 <= i < |units| && units[i].huc2 == "18" && units[i].huc6 == h
  }

  /** The loop over `ca_huc6`: the records of every region-18 row, in order;
      each is tagged with the id of a region-18 row. */
  function Boundaries(units: seq<Huc6Unit>): (bs: seq<Boundary>)
    ensures forall k :: 0 <= k < |bs| ==> IsRegionHuc6(units, bs[k].hucid)
    decreases |units|
  {
    if |units| == 0 then []
    else
      var head := if units[0].huc2 == "18" then UnitBoundaries(units[0]) else [];
      var rest := Boundaries(units[1..]);
      assert forall h :: IsRegionHuc6(units[1..], h) ==> IsRegionHuc6(units, h) by {
        forall h | IsRegionHuc6(units[1..], h)
          ensures IsRegionHuc6(units, h)
        {
          var i :| 0 <= i < |units[1..]| && units[1..][i].huc2 == "18" && units[1..][i].huc6 == h;
          assert units[i + 1] == units[1..][i];
        }
      }
      assert forall k :: 0 <= k < |head| ==> IsRegionHuc6(units, head[k].hucid) by {
        forall k | 0 <= k < |head|
          ensures IsRegionHuc6(units, head[k].hucid)
        {
          assert units[0].huc2 == "18" && head[k].hucid == units[0].huc6;
        }
      }
      head + rest
  }

  /** Every boundary record comes from a region-18 row with the same id, and
      every record of such a row is present. */
  lemma {:induction false} BoundariesSound(units: seq<Huc6Unit>)
    ensures forall b :: b in Boundaries(units) ==>
      exists i :: 0 <= i < |units| && units[i].huc2 == "18" && b in UnitBoundaries(units[i])
    ensures forall i, b :: 0 <= i < |units| && units[i].huc2 == "18" && b in UnitBoundaries(units[i]) ==>
      b in Boundaries(units)
    decreases |units|
  {
    if |units| > 0 {
      BoundariesSound(units[1..]);
      var head := if units[0].huc2 == "18" then UnitBoundaries(units[0]) else [];
      assert Boundaries(units) == head + Boundaries(units[1..]);
      forall b | b in Boundaries(units)
        ensures exists i :: 0 <= i < |units| && units[i].huc2 == "18" && b in UnitBoundaries(units[i])
      {
        if b in head {
          assert units[0].huc2 == "18" && b in UnitBoundaries(units[0]);
        } else {
          var i :| 0 <= i < |units[1..]| && units[1..][i].huc2 == "18" && b in UnitBoundaries(units[1..][i]);
          assert units[i + 1] == units[1..][i];
        }
      }
      forall i, b | 0 <= i < |units| && units[i].huc2 == "18" && b in UnitBoundaries(units[i])
        ensures b in Boundaries(units)
      {
        if i > 0 {
          assert units[1..][i - 1] == units[i];
        }
      }
    }
  }

  /** `huc6_boundaries.loc[huc6_boundaries["hucid"] == hucid]`. */
  function BoundariesFor(bs: seq<Boundary>, h: string): (r: seq<Boundary>)
    ensures forall b :: b in r <==> b in bs && b.hucid == h
  {
    Filter(bs, (b: Boundary) => b.hucid == h)
  }

  /** The manifest key of a tile: the first six characters of its id. */
  function Huc6Key(path: string): (key: string)
    ensures StartsWith(Driver.HucIdOfPath(path), key)
    ensures |key| == Driver.Min(6, |Driver.HucIdOfPath(path)|)
  {
    Take(Driver.HucIdOfPath(path), 6)
  }

  /** The huc6 key is the group the general mosaic driver gives at level huc6. */
  lemma Huc6KeyIsGroup(path: string)
    ensures Huc6Key(path) == Driver.GroupOf(Driver.HucIdOfPath(path), Some(Driver.Huc6))
  {
    assert Driver.LevelDigits(Driver.Huc6) == 6;
  }

  /** The manifest: the general loader at level huc6, whose `group` column is `huc6`. */
  function Manifest(files: seq<string>): (recs: seq<Driver.FloorFile>)
    ensures |recs| == |files|
    ensures forall i :: 0 <= i < |files| ==> recs[i].filename == files[i] && recs[i].group == Huc6Key(files[i])
  {
    var recs := Driver.LoadFloorFiles(files, Some(Driver.Huc6));
    assert forall i :: 0 <= i < |files| ==> recs[i].group == Huc6Key(files[i]) by {
      forall i | 0 <= i < |files|
        ensures recs[i].group == Huc6Key(files[i])
      {
        Huc6KeyIsGroup(files[i]);
      }
    }
    recs
  }

  /** Binarise, mask the first tile's nodata, keep only pixels the boundary
      covers, and fill the rest with 255. */
  function Huc6Mosaic(merged: Grid, firstDeclared: Option<int>, cover: seq<seq<bool>>): (m: Mosaic)
    ensures m.nodata == Nodata
    ensures SameShape(m.grid, merged)
    ensures forall i, j :: InGrid(merged, i, j) ==> Classified(m.grid[i][j])
    ensures forall i, j :: InGrid(merged, i, j) ==>
      (m.grid[i][j] == Val(Nodata) <==> !Covered(cover, i, j) || firstDeclared == Some(FloorValue(merged[i][j])))
    ensures forall i, j :: InGrid(merged, i, j) && m.grid[i][j] != Val(Nodata) ==>
      m.grid[i][j] == Val(FloorValue(merged[i][j]))
  {
    var b := Binarize(merged);
    var masked := MaskNodata(b, firstDeclared);
    var clipped := ClipToCoverage(masked, cover);
    Mosaic(FillNodata(clipped), Nodata)
  }

  /** With a boundary covering every pixel, the huc6 mosaic is the general mosaic. */
  lemma Huc6MosaicFullCover(merged: Grid, firstDeclared: Option<int>, cover: seq<seq<bool>>)
    requires forall i, j :: InGrid(merged, i, j) ==> Covered(cover, i, j)
    ensures Huc6Mosaic(merged, firstDeclared, cover) == Driver.MosaicTiles(merged, firstDeclared)
  {
    var a := Huc6Mosaic(merged, firstDeclared, cover).grid;
    var b := Driver.MosaicTiles(merged, firstDeclared).grid;
    forall i | 0 <= i < |merged|
      ensures a[i] == b[i]
    {
      forall j | 0 <= j < |merged[i]|
        ensures a[i][j] == b[i][j]
      {
        assert InGrid(merged, i, j);
      }
    }
  }

  /** The library side of the script. */
  datatype Sources = Sources(
    merge: seq<string> -> Grid,                          // `rasterio.merge.merge` of the tiles
    declaredNodata: string -> Option<int>,                // the nodata in a tile's metadata
    rasterize: (seq<Boundary>, Grid) -> seq<seq<bool>>)  // pixels the polygons touch

  /** The output for one huc6 key, written to `{hucid}-floors.tif`, once its
      clip has succeeded; a key without boundary records stops the loop
      before this point (`Huc6Loop`). */
  function Huc6Output(hucid: string, files: seq<string>, bs: seq<Boundary>, src: Sources): (o: Driver.Output)
    requires |files| > 0
    ensures o.path == hucid + "-floors.tif"
    ensures o.mosaic.nodata == Nodata
    ensures var merged := src.merge(files);
      var cover := src.rasterize(BoundariesFor(bs, hucid), merged);
      o.mosaic == Huc6Mosaic(merged, src.declaredNodata(files[0]), cover)
  {
    var merged := src.merge(files);
    Driver.Output(hucid + "-floors.tif", Huc6Mosaic(merged, src.declaredNodata(files[0]), src.rasterize(BoundariesFor(bs, hucid), merged)))
  }

  lemma SuffixCancel(x: string, y: string, b: string)
    requires x + b == y + b
    ensures x == y
  {
    assert |x| == |y|;
    assert x == (x + b)[..|x|];
    assert y == (y + b)[..|y|];
  }

  lemma KeysFromFiles(files: seq<string>)
    ensures var keys := Driver.Groups(Manifest(files));
      forall k :: 0 <= k < |keys| ==> exists i :: 0 <= i < |files| && keys[k] == Huc6Key(files[i])
  {
    var recs := Manifest(files);
    var keys := Driver.Groups(recs);
    forall k | 0 <= k < |keys|
      ensures exists i :: 0 <= i < |files| && keys[k] == Huc6Key(files[i])
    {
      assert HasKey(recs, Driver.GroupKey, keys[k]);
      var i :| 0 <= i < |recs| && Driver.GroupKey(recs[i]) == keys[k];
    }
  }

  lemma FilesHaveKeys(files: seq<string>)
    ensures forall i :: 0 <= i < |files| ==> Huc6Key(files[i]) in Driver.Groups(Manifest(files))
  {
    var recs := Manifest(files);
    forall i | 0 <= i < |files|
      ensures Huc6Key(files[i]) in Driver.Groups(recs)
    {
      assert recs[i].group in Driver.Groups(recs);
    }
  }

  /** `manifest["huc6"].unique()`: each tile's key once, in order of first appearance. */
  function Huc6Keys(files: seq<string>): (keys: seq<string>)
    ensures Distinct(keys)
    ensures forall i :: 0 <= i < |files| ==> Huc6Key(files[i]) in keys
    ensures forall k :: 0 <= k < |keys| ==> exists i :: 0 <= i < |files| && keys[k] == Huc6Key(files[i])
  {
    KeysFromFiles(files);
    FilesHaveKeys(files);
    Driver.Groups(Manifest(files))
  }

  /** The outputs of the keys `gs`, in order. */
  function Huc6Outputs(recs: seq<Driver.FloorFile>, gs: seq<string>, bs: seq<Boundary>, src: Sources): (outs: seq<Driver.Output>)
    requires forall k :: 0 <= k < |gs| ==> HasKey(recs, Driver.GroupKey, gs[k])
    ensures |outs| == |gs|
    ensures forall k :: 0 <= k < |gs| ==>
      |Driver.GroupFiles(recs, gs[k])| > 0 && outs[k] == Huc6Output(gs[k], Driver.GroupFiles(recs, gs[k]), bs, src)
  {
    seq(|gs|, k requires 0 <= k < |gs| => Huc6Output(gs[k], Driver.GroupFiles(recs, gs[k]), bs, src))
  }

  /** Every pixel of every output is 0, 1 or 255. */
  lemma Huc6OutputsClassified(recs: seq<Driver.FloorFile>, gs: seq<string>, bs: seq<Boundary>, src: Sources)
    requires forall k :: 0 <= k < |gs| ==> HasKey(recs, Driver.GroupKey, gs[k])
    ensures var outs := Huc6Outputs(recs, gs, bs, src);
      forall k, i, j :: 0 <= k < |outs| && InGrid(outs[k].mosaic.grid, i, j) ==> Classified(outs[k].mosaic.grid[i][j])
  {
    var outs := Huc6Outputs(recs, gs, bs, src);
    forall k, i, j | 0 <= k < |outs| && InGrid(outs[k].mosaic.grid, i, j)
      ensures Classified(outs[k].mosaic.grid[i][j])
    {
      var fs := Driver.GroupFiles(recs, gs[k]);
      var merged := src.merge(fs);
      var m := Huc6Mosaic(merged, src.declaredNodata(fs[0]), src.rasterize(BoundariesFor(bs, gs[k]), merged));
      assert outs[k].mosaic == m;
      assert InGrid(merged, i, j);
    }
  }

  /** Distinct keys are written to distinct files. */
  lemma Huc6PathsDistinct(gs: seq<string>, paths: seq<string>)
    requires Distinct(gs) && |paths| == |gs|
    requires forall k :: 0 <= k < |gs| ==> paths[k] == gs[k] + "-floors.tif"
    ensures Distinct(paths)
  {
    forall k, l | 0 <= k < l < |paths|
      ensures paths[k] != paths[l]
    {
      if paths[k] == paths[l] {
        SuffixCancel(gs[k], gs[l], "-floors.tif");
      }
    }
  }

  /** The outputs of the loop over the huc6 keys of the tiles when every
      clip succeeds: one output per key, each clipped to that key's
      boundary records. */
  function Huc6LoopOutputs(files: seq<string>, bs: seq<Boundary>, src: Sources): (outs: seq<Driver.Output>)
    ensures |outs| == |Huc6Keys(files)|
    ensures forall k :: 0 <= k < |outs| ==> outs[k].path == Huc6Keys(files)[k] + "-floors.tif"
    ensures Distinct(Driver.Paths(outs))
    ensures forall k, i, j :: 0 <= k < |outs| && InGrid(outs[k].mosaic.grid, i, j) ==> Classified(outs[k].mosaic.grid[i][j])
    ensures var recs := Manifest(files);
      forall k :: 0 <= k < |outs| ==>
        |Driver.GroupFiles(recs, Huc6Keys(files)[k])| > 0 &&
        outs[k] == Huc6Output(Huc6Keys(files)[k], Driver.GroupFiles(recs, Huc6Keys(files)[k]), bs, src)
  {
    var recs := Manifest(files);
    var gs := Driver.Groups(recs);
    var outs := Huc6Outputs(recs, gs, bs, src);
    Huc6PathsDistinct(gs, Driver.Paths(outs));
    Huc6OutputsClassified(recs, gs, bs, src);
    outs
  }

  /** What `rio.clip` raises, through rasterio's `rasterize`, when a key has
      no boundary record and the clip receives no geometry. */
  const NoGeometryError: string := "No valid geometry objects found for rasterize"

  /** The key `h` has no boundary record. */
  predicate Unbounded(bs: seq<Boundary>, h: string) {
    |BoundariesFor(bs, h)| == 0
  }

  /** Some tile's huc6 key has no boundary record. */
  predicate SomeTileUnbounded(files: seq<string>, bs: seq<Boundary>) {
    exists i :: 0 <= i < |files| && Unbounded(bs, Huc6Key(files[i]))
  }

  lemma KeyFromTile(files: seq<string>, k: nat)
    requires k < |Huc6Keys(files)|
    ensures exists i :: 0 <= i < |files| && Huc6Keys(files)[k] == Huc6Key(files[i])
  {
  }

  /** A tile key lacks boundary records iff one of the distinct keys does. */
  lemma UnboundedKeys(files: seq<string>, bs: seq<Boundary>)
    ensures SomeTileUnbounded(files, bs) <==>
      exists k :: 0 <= k < |Huc6Keys(files)| && Unbounded(bs, Huc6Keys(files)[k])
  {
    var keys := Huc6Keys(files);
    if exists k :: 0 <= k < |keys| && Unbounded(bs, keys[k]) {
      var k :| 0 <= k < |keys| && Unbounded(bs, keys[k]);
      KeyFromTile(files, k);
      var i :| 0 <= i < |files| && keys[k] == Huc6Key(files[i]);
      assert Unbounded(bs, Huc6Key(files[i]));
    }
    if SomeTileUnbounded(files, bs) {
      var i :| 0 <= i < |files| && Unbounded(bs, Huc6Key(files[i]));
      var k :| 0 <= k < |keys| && keys[k] == Huc6Key(files[i]);
    }
  }

  /** The loop over the huc6 keys: it stops with the clip's error at the
      first key that has no boundary record, and otherwise yields every
      key's output. */
  function Huc6Loop(files: seq<string>, bs: seq<Boundary>, src: Sources): (r: Result<seq<Driver.Output>>)
    ensures r.Err? <==> SomeTileUnbounded(files, bs)
    ensures r.Err? ==> r.msg == NoGeometryError
    ensures r.Ok? ==> forall k :: 0 <= k < |Huc6Keys(files)| ==> !Unbounded(bs, Huc6Keys(files)[k])
    ensures r.Ok? ==> r.value == Huc6LoopOutputs(files, bs, src)
  {
    UnboundedKeys(files, bs);
    if SomeTileUnbounded(files, bs) then Err(NoGeometryError)
    else Ok(Huc6LoopOutputs(files, bs, src))
  }

  /** What `set_geometry("geometry")` raises when no boundary record was made. */
  const NoBoundariesError: string := "Unknown column geometry"

  /** What `manifest["huc6"]` raises when no tile was listed. */
  const NoTilesError: string := "KeyError: 'huc6'"

  /** The whole script: the boundaries of the region-18 units, then one
      output per distinct huc6 key of the tiles, each clipped to that key's
      boundaries. The boundary frame is built first, so with no boundary
      record the script stops there; with no tile it stops at the manifest;
      and it stops in the loop at a tile key that has no boundary record. */
  function Huc6Run(files: seq<string>, units: seq<Huc6Unit>, src: Sources): (r: Result<seq<Driver.Output>>)
    ensures |Boundaries(units)| == 0 ==> r == Err(NoBoundariesError)
    ensures |Boundaries(units)| > 0 && |files| == 0 ==> r == Err(NoTilesError)
    ensures (|Boundaries(units)| > 0 && |files| > 0 && SomeTileUnbounded(files, Boundaries(units))) ==>
      r == Err(NoGeometryError)
    ensures r.Ok? <==> |Boundaries(units)| > 0 && |files| > 0 && !SomeTileUnbounded(files, Boundaries(units))
    ensures r.Ok? ==> |r.value| > 0 && r.value == Huc6LoopOutputs(files, Boundaries(units), src)
  {
    var bs := Boundaries(units);
    if |bs| == 0 then Err(NoBoundariesError)
    else if |files| == 0 then Err(NoTilesError)
    else
      assert Huc6Key(files[0]) in Huc6Keys(files);
      Huc6Loop(files, bs, src)
  }

  /** A huc6 that is not the huc6 of any region-18 unit has no boundary record. */
  lemma NoRecordsOutsideRegion(units: seq<Huc6Unit>, h: string)
    requires forall j :: 0 <= j < |units| && units[j].huc2 == "18" ==> units[j].huc6 != h
    ensures Unbounded(Boundaries(units), h)
  {
    var bs := Boundaries(units);
    HeadIsMember(BoundariesFor(bs, h));
  }

  /** A tile whose huc6 is not the huc6 of any region-18 unit (a huc10
      outside region 18 that touches California, say) stops the script. */
  lemma TileOutsideRegionFails(files: seq<string>, units: seq<Huc6Unit>, src: Sources, i: nat)
    requires i < |files|
    requires forall j :: 0 <= j < |units| && units[j].huc2 == "18" ==> units[j].huc6 != Huc6Key(files[i])
    ensures Huc6Run(files, units, src).Err?
  {
    NoRecordsOutsideRegion(units, Huc6Key(files[i]));
    assert SomeTileUnbounded(files, Boundaries(units));
  }
}

=== FILE: nhd_fetch.dfy ===
/** Flowline (NHD) downloads: the query each script sends, the clip to the
    boundary, and the filter that keeps only LineString features. The NHD
    service and the geometric clip are parameters. */
module NhdFetch {
  import opened Common
  import opened Seqs
  import opened Geo

  /** `nhd.bygeom(...)` given a geometry, or given a box / bounds tuple. */
  datatype NhdQuery = ByGeometry(g: Geometry) | ByBounds(b: Box)

  datatype NhdService = NhdService(
    query: NhdQuery -> Result<seq<Feature>>,        // the features found, or the error raised
    clip: (seq<Feature>, Geometry) -> seq<Feature>, // `flow.clip(boundary)`
    project: (Feature, string) -> nat)              // the shape of a feature after `to_crs`

  /** `flow.to_crs(crs)`: every row is kept, in order, with its geometry type;
      only its shape changes. */
  function ToCrs(fs: seq<Feature>, crs: string, svc: NhdService): (r: seq<Feature>)
    ensures |r| == |fs|
    ensures forall k :: 0 <= k < |fs| ==> r[k].kind == fs[k].kind && r[k].id == svc.project(fs[k], crs)
  {
    seq(|fs|, k requires 0 <= k < |fs| => Feature(fs[k].kind, svc.project(fs[k], crs)))
  }

  /** The flowlines `get_nhd` of src/dl_dem_and_flowlines.py keeps before
      reprojecting: a MultiPolygon is queried by its bounding box and the
      answer clipped back to it; anything else is queried directly. */
  function NhdKept(boundary: Geometry, svc: NhdService): (r: Result<seq<Feature>>)
    ensures boundary.kind == MultiPolygon ==>
      (r.Ok? <==> svc.query(ByBounds(boundary.bounds)).Ok?) &&
      (r.Ok? ==> forall f :: f in r.value <==> f in svc.clip(svc.query(ByBounds(boundary.bounds)).value, boundary) && IsLineString(f))
    ensures boundary.kind != MultiPolygon ==>
      (r.Ok? <==> svc.query(ByGeometry(boundary)).Ok?) &&
      (r.Ok? ==> forall f :: f in r.value <==> f in svc.query(ByGeometry(boundary)).value && IsLineString(f))
  {
    if boundary.kind == MultiPolygon then
      var flow :- svc.query(ByBounds(boundary.bounds));
      Ok(Filter(svc.clip(flow, boundary), IsLineString))
    else
      var flow :- svc.query(ByGeometry(boundary));
      Ok(Filter(flow, IsLineString))
  }

  /** `get_nhd` of src/dl_dem_and_flowlines.py: the kept LineStrings,
      reprojected to EPSG:3310. */
  function GetNhd(boundary: Geometry, svc: NhdService): (r: Result<seq<Feature>>)
    ensures r.Ok? <==> NhdKept(boundary, svc).Ok?
    ensures r.Ok? ==> |r.value| == |NhdKept(boundary, svc).value|
    ensures r.Ok? ==> forall k :: 0 <= k < |r.value| ==>
      var f := NhdKept(boundary, svc).value[k];
      IsLineString(r.value[k]) && r.value[k].id == svc.project(f, "EPSG:3310")
  {
    var kept :- NhdKept(boundary, svc);
    assert forall k :: 0 <= k < |kept| ==> IsLineString(kept[k]) by {
      forall k | 0 <= k < |kept|
        ensures IsLineString(kept[k])
      {
        assert kept[k] in kept;
      }
    }
    Ok(ToCrs(kept, "EPSG:3310", svc))
  }

  /** `get_nhd` of src/dl_special_case.py: always queried by `total_bounds`,
      then clipped; no reprojection. */
  function GetNhdTotalBounds(boundary: Geometry, svc: NhdService): (r: Result<seq<Feature>>)
    ensures r.Ok? <==> svc.query(ByBounds(boundary.bounds)).Ok?
    ensures r.Ok? ==> forall f :: f in r.value <==> f in svc.clip(svc.query(ByBounds(boundary.bounds)).value, boundary) && IsLineString(f)
  {
    var flow :- svc.query(ByBounds(boundary.bounds));
    Ok(Filter(svc.clip(flow, boundary), IsLineString))
  }

  /** For a MultiPolygon the two scripts send the same query and keep the same
      features; they differ only in the final `to_crs` of
      src/dl_dem_and_flowlines.py. */
  lemma SameForMultiPolygon(boundary: Geometry, svc: NhdService)
    requires boundary.kind == MultiPolygon
    ensures NhdKept(boundary, svc) == GetNhdTotalBounds(boundary, svc)
    ensures GetNhd(boundary, svc).Ok? <==> GetNhdTotalBounds(boundary, svc).Ok?
    ensures GetNhd(boundary, svc).Ok? ==>
      GetNhd(boundary, svc).value == ToCrs(GetNhdTotalBounds(boundary, svc).value, "EPSG:3310", svc)
  {
  }

  /** Reprojection keeps every row's geometry type, so the returned flowlines
      are all LineStrings and filtering them again changes nothing. */
  lemma {:induction false} NhdFilterStable(boundary: Geometry, svc: NhdService)
    requires GetNhd(boundary, svc).Ok?
    ensures Filter(GetNhd(boundary, svc).value, IsLineString) == GetNhd(boundary, svc).value
  {
    var r := GetNhd(boundary, svc).value;
    assert forall k :: 0 <= k < |r| ==> IsLineString(r[k]);
    FilterKeepsAll(r, IsLineString);
  }
}

=== FILE: raster.dfy ===
/** Single-band rasters as grids of pixels. A pixel is a number or missing
    (NaN in the masked arrays the scripts work on). Merging, reading,
    reprojection and polygon rasterisation happen in libraries and enter
    the model as inputs; this module holds the per-pixel steps the
    scripts perform themselves. */
module Raster {
  import opened Common

  datatype Pixel = Val(v: int) | Missing

  type Grid = seq<seq<Pixel>>

  /** The nodata sentinel written into every mosaic. */
  const Nodata: int := 255

  /** A finished mosaic: its pixels and its declared nodata value. */
  datatype Mosaic = Mosaic(grid: Grid, nodata: int)

  predicate SameShape(a: Grid, b: Grid) {
    |a| == |b| && forall i :: 0 <= i < |a| ==> |a[i]| == |b[i]|
  }

  predicate InGrid(g: Grid, i: int, j: int) {
    0 <= i < |g| && 0 <= j < |g[i]|
  }

  /** Floor (1), not floor (0) or nodata (255). */
  predicate Classified(p: Pixel) {
    p == Val(0) || p == Val(1) || p == Val(Nodata)
  }

  /** The class `np.where(merged > 0, 1, 0)` gives a pixel; NaN compares false. */
  function FloorValue(p: Pixel): int {
    if p.Val? && p.v > 0 then 1 else 0
  }

  /** `np.where(merged > 0, 1, 0)` over a whole grid. */
  function Binarize(g: Grid): (r: Grid)
    ensures SameShape(r, g)
    ensures forall i, j :: InGrid(g, i, j) ==> (r[i][j] == Val(1) <==> g[i][j].Val? && g[i][j].v > 0)
    ensures forall i, j :: InGrid(g, i, j) ==> r[i][j] == Val(0) || r[i][j] == Val(1)
  {
    seq(|g|, i requires 0 <= i < |g| =>
      seq(|g[i]|, j requires 0 <= j < |g[i]| => Val(FloorValue(g[i][j]))))
  }

  /** Binarising an already binary grid changes nothing. */
  lemma BinarizeIdempotent(g: Grid)
    ensures Binarize(Binarize(g)) == Binarize(g)
  {
    var b := Binarize(g);
    var bb := Binarize(b);
    forall i | 0 <= i < |g|
      ensures bb[i] == b[i]
    {
      assert forall j :: 0 <= j < |b[i]| ==> bb[i][j] == b[i][j];
    }
  }

  /** Reading a raster with `masked=True`: pixels equal to the declared nodata become missing. */
  function MaskNodata(g: Grid, declared: Option<int>): (r: Grid)
    ensures SameShape(r, g)
    ensures forall i, j :: InGrid(g, i, j) ==>
      (r[i][j] == Missing <==> g[i][j] == Missing || (g[i][j].Val? && declared == Some(g[i][j].v)))
    ensures forall i, j :: InGrid(g, i, j) && r[i][j] != Missing ==> r[i][j] == g[i][j]
  {
    seq(|g|, i requires 0 <= i < |g| =>
      seq(|g[i]|, j requires 0 <= j < |g[i]| =>
        if g[i][j].Val? && declared == Some(g[i][j].v) then Missing else g[i][j]))
  }

  /** `fillna(255)`: missing pixels take the nodata value, others keep theirs. */
  function FillNodata(g: Grid): (r: Grid)
    ensures SameShape(r, g)
    ensures forall i, j :: InGrid(g, i, j) ==> r[i][j] != Missing
    ensures forall i, j :: InGrid(g, i, j) ==> (g[i][j] == Missing ==> r[i][j] == Val(Nodata))
    ensures forall i, j :: InGrid(g, i, j) ==> (g[i][j] != Missing ==> r[i][j] == g[i][j])
  {
    seq(|g|, i requires 0 <= i < |g| =>
      seq(|g[i]|, j requires 0 <= j < |g[i]| =>
        if g[i][j] == Missing then Val(Nodata) else g[i][j]))
  }

  /** The pixel (i, j) is touched by the clip polygons. A coverage grid smaller
      than the raster leaves the pixels outside it uncovered. */
  predicate Covered(cover: seq<seq<bool>>, i: int, j: int) {
    0 <= i < |cover| && 0 <= j < |cover[i]| && cover[i][j]
  }

  /** `raster.where(~np.isnan(raster.rio.clip(geoms, all_touched=True, drop=False)))`:
      covered pixels keep their value, the rest become missing. */
  function ClipToCoverage(g: Grid, cover: seq<seq<bool>>): (r: Grid)
    ensures SameShape(r, g)
    ensures forall i, j :: InGrid(g, i, j) ==> (Covered(cover, i, j) ==> r[i][j] == g[i][j])
    ensures forall i, j :: InGrid(g, i, j) ==> (!Covered(cover, i, j) ==> r[i][j] == Missing)
  {
    seq(|g|, i requires 0 <= i < |g| =>
      seq(|g[i]|, j requires 0 <= j < |g[i]| =>
        if Covered(cover, i, j) then g[i][j] else Missing))
  }

  /** A mask covering every pixel leaves the raster as it was. */
  lemma ClipFullCoverage(g: Grid, cover: seq<seq<bool>>)
    requires forall i, j :: InGrid(g, i, j) ==> Covered(cover, i, j)
    ensures ClipToCoverage(g, cover) == g
  {
    var r := ClipToCoverage(g, cover);
    forall i | 0 <= i < |g|
      ensures r[i] == g[i]
    {
      assert forall j :: 0 <= j < |g[i]| ==> r[i][j] == g[i][j];
    }
  }

  /** Clipping twice with the same mask is clipping once. */
  lemma ClipIdempotent(g: Grid, cover: seq<seq<bool>>)
    ensures ClipToCoverage(ClipToCoverage(g, cover), cover) == ClipToCoverage(g, cover)
  {
    var r := ClipToCoverage(g, cover);
    var rr := ClipToCoverage(r, cover);
    forall i | 0 <= i < |g|
      ensures rr[i] == r[i]
    {
      assert forall j :: 0 <= j < |g[i]| ==> rr[i][j] == r[i][j];
    }
  }
}

=== FILE: sampling.dfy ===
/** Sampling without replacement (`np.random.choice(xs, size=n, replace=False)`).
    The random number generator is not modelled: its output is an abstract
    stream of draws, each of which picks one of the elements not yet taken.
    Seeding only fixes which stream is used. */
module Sampling {

  /** `pool` without its element at index `k`. */
  function RemoveAt<T>(pool: seq<T>, k: nat): (r: seq<T>)
    requires k < |pool|
    ensures |r| == |pool| - 1
    ensures multiset(r) == multiset(pool) - multiset{pool[k]}
  {
    assert pool == pool[..k] + [pool[k]] + pool[k + 1..];
    pool[..k] + pool[k + 1..]
  }

  /** The sample taken with the draw stream `draws`; a short stream is padded with zeros. */
  function Sample<T>(pool: seq<T>, n: nat, draws: seq<nat>): (r: seq<T>)
    requires n <= |pool|
    ensures |r| == n
    ensures multiset(r) <= multiset(pool)
    decreases n
  {
    if n == 0 then []
    else
      var k := (if |draws| > 0 then draws[0] else 0) % |pool|;
      [pool[k]] + Sample(RemoveAt(pool, k), n - 1, if |draws| > 0 then draws[1..] else [])
  }

  lemma IndexOf<T>(pool: seq<T>, x: T) returns (k: nat)
    requires x in multiset(pool)
    ensures k < |pool| && pool[k] == x
  {
    k :| 0 <= k < |pool| && pool[k] == x;
  }

  /** Drawing index `k` first puts `pool[k]` at the head of the sample. */
  lemma SampleFirstDraw<T>(pool: seq<T>, n: nat, k: nat, tail: seq<nat>)
    requires 0 < n <= |pool| && k < |pool|
    ensures Sample(pool, n, [k] + tail) == [pool[k]] + Sample(RemoveAt(pool, k), n - 1, tail)
  {
    assert ([k] + tail)[1..] == tail;
    assert k % |pool| == k;
  }

  /** Every arrangement of every sub-multiset of the pool is the outcome of some draw
      stream, so `Sample` over all streams is exactly "some size-n sample". */
  lemma {:induction false} SampleReachesEvery<T>(pool: seq<T>, s: seq<T>) returns (draws: seq<nat>)
    requires multiset(s) <= multiset(pool)
    ensures |s| <= |pool|
    ensures Sample(pool, |s|, draws) == s
    decreases |s|
  {
    if |s| == 0 {
      draws := [];
    } else {
      var k := IndexOf(pool, s[0]);
      var rest := RemoveAt(pool, k);
      assert s == [s[0]] + s[1..];
      assert multiset(s[1..]) <= multiset(rest);
      var tail := SampleReachesEvery(rest, s[1..]);
      SampleFirstDraw(pool, |s|, k, tail);
      draws := [k] + tail;
    }
  }
}

=== FILE: seqs.dfy ===
/** Sequence building blocks shared by the pandas-style steps of the
    pipeline: order-preserving filters, `drop_duplicates`/`unique`,
    grouping by a key, and `sorted` on text. */
module Seqs {
  import opened Text

  predicate Distinct<T(==)>(xs: seq<T>) {
    forall i, j :: 0 <= i < j < |xs| ==> xs[i] != xs[j]
  }

  /** A distinct sequence holds every value at most once. */
  lemma {:induction false} DistinctCounts<T>(xs: seq<T>)
    requires Distinct(xs)
    ensures forall x :: multiset(xs)[x] <= 1
    decreases |xs|
  {
    if |xs| > 0 {
      var rest := xs[1..];
      assert xs == [xs[0]] + rest;
      assert Distinct(rest) by {
        forall i, j | 0 <= i < j < |rest|
          ensures rest[i] != rest[j]
        {
          assert rest[i] == xs[i + 1] && rest[j] == xs[j + 1];
        }
      }
      DistinctCounts(rest);
      assert xs[0] !in rest by {
        forall k | 0 <= k < |rest|
          ensures rest[k] != xs[0]
        {
          assert rest[k] == xs[k + 1];
        }
      }
    }
  }

  /** A sequence holding every value at most once is distinct. */
  lemma {:induction false} CountsDistinct<T>(xs: seq<T>)
    requires forall x :: multiset(xs)[x] <= 1
    ensures Distinct(xs)
    decreases |xs|
  {
    if |xs| > 0 {
      var rest := xs[1..];
      assert xs == [xs[0]] + rest;
      assert multiset(xs) == multiset{xs[0]} + multiset(rest);
      assert forall x :: multiset(rest)[x] <= multiset(xs)[x];
      CountsDistinct(rest);
      assert multiset(rest)[xs[0]] == 0;
      forall i, j | 0 <= i < j < |xs|
        ensures xs[i] != xs[j]
      {
        assert xs[j] == rest[j - 1];
        if i > 0 {
          assert xs[i] == rest[i - 1];
        }
      }
    }
  }

  /** Drawing some elements of a distinct sequence yields a distinct sequence. */
  lemma DistinctSubMultiset<T>(a: seq<T>, b: seq<T>)
    requires multiset(a) <= multiset(b)
    requires Distinct(b)
    ensures Distinct(a)
  {
    DistinctCounts(b);
    CountsDistinct(a);
  }

  /** A permutation of a distinct sequence is distinct. */
  lemma DistinctPermutation<T>(a: seq<T>, b: seq<T>)
    requires multiset(a) == multiset(b)
    requires Distinct(b)
    ensures Distinct(a)
  {
    DistinctSubMultiset(a, b);
  }

  /** Order-preserving filter: boolean-mask indexing `xs[p(xs)]`. Every
      occurrence of a satisfying element is kept (`FilterCounts`) and the
      order is kept (`FilterAppend`). */
  function Filter<T>(xs: seq<T>, p: T -> bool): (r: seq<T>)
    ensures |r| <= |xs|
    ensures forall y :: y in r ==> y in xs && p(y)
    ensures forall i :: 0 <= i < |xs| && p(xs[i]) ==> xs[i] in r
    ensures multiset(r) <= multiset(xs)
    decreases |xs|
  {
    if |xs| == 0 then []
    else
      var rest := Filter(xs[1..], p);
      assert xs == [xs[0]] + xs[1..];
      assert forall i :: 1 <= i < |xs| ==> xs[i] == xs[1..][i - 1];
      if p(xs[0]) then [xs[0]] + rest else rest
  }

  /** The filter keeps every occurrence of a satisfying element and none of the others. */
  lemma {:induction false} FilterCounts<T>(xs: seq<T>, p: T -> bool)
    ensures forall y :: multiset(Filter(xs, p))[y] == if p(y) then multiset(xs)[y] else 0
    decreases |xs|
  {
    if |xs| > 0 {
      FilterCounts(xs[1..], p);
      assert xs == [xs[0]] + xs[1..];
      assert multiset(xs) == multiset{xs[0]} + multiset(xs[1..]);
    }
  }

  /** Filtering a concatenation filters each part and keeps them in order. */
  lemma {:induction false} FilterAppend<T>(xs: seq<T>, ys: seq<T>, p: T -> bool)
    ensures Filter(xs + ys, p) == Filter(xs, p) + Filter(ys, p)
    decreases |xs|
  {
    if |xs| == 0 {
      assert xs + ys == ys;
    } else {
      assert (xs + ys)[0] == xs[0];
      assert (xs + ys)[1..] == xs[1..] + ys;
      FilterAppend(xs[1..], ys, p);
    }
  }

  /** Filtering twice with the same predicate is filtering once. */
  lemma {:induction false} FilterIdempotent<T>(xs: seq<T>, p: T -> bool)
    ensures Filter(Filter(xs, p), p) == Filter(xs, p)
    decreases |xs|
  {
    if |xs| > 0 {
      FilterIdempotent(xs[1..], p);
      var rest := Filter(xs[1..], p);
      if p(xs[0]) {
        assert ([xs[0]] + rest)[1..] == rest;
      }
    }
  }

  /** Every element satisfying the predicate is kept: the filter drops nothing else. */
  lemma {:induction false} FilterKeepsAll<T>(xs: seq<T>, p: T -> bool)
    requires forall i :: 0 <= i < |xs| ==> p(xs[i])
    ensures Filter(xs, p) == xs
    decreases |xs|
  {
    if |xs| > 0 {
      FilterKeepsAll(xs[1..], p);
      assert xs == [xs[0]] + xs[1..];
    }
  }

  function Both<T>(p: T -> bool, q: T -> bool): T -> bool {
    x => p(x) && q(x)
  }

  /** Two successive filters are one filter by the conjunction. */
  lemma {:induction false} FilterFuse<T>(xs: seq<T>, p: T -> bool, q: T -> bool)
    ensures Filter(Filter(xs, p), q) == Filter(xs, Both(p, q))
    decreases |xs|
  {
    if |xs| > 0 {
      FilterFuse(xs[1..], p, q);
      var rest := Filter(xs[1..], p);
      if p(xs[0]) {
        assert ([xs[0]] + rest)[1..] == rest;
      }
    }
  }

  /** Filters by predicates that agree on every element are equal. */
  lemma {:induction false} FilterCongruent<T>(xs: seq<T>, p: T -> bool, q: T -> bool)
    requires forall i :: 0 <= i < |xs| ==> p(xs[i]) == q(xs[i])
    ensures Filter(xs, p) == Filter(xs, q)
    decreases |xs|
  {
    if |xs| > 0 {
      assert forall i :: 0 <= i < |xs[1..]| ==> xs[1..][i] == xs[i + 1];
      FilterCongruent(xs[1..], p, q);
    }
  }

  /** `key(xs[i])` for every element, in order. */
  function Keys<T, K>(xs: seq<T>, key: T -> K): (r: seq<K>)
    ensures |r| == |xs|
    ensures forall i :: 0 <= i < |xs| ==> r[i] == key(xs[i])
  {
    seq(|xs|, i requires 0 <= i < |xs| => key(xs[i]))
  }

  /** Some element of `xs` has key `k`. */
  predicate HasKey<T, K(==)>(xs: seq<T>, key: T -> K, k: K) {
    exists i :: 0 <= i < |xs| && key(xs[i]) == k
  }

  /** `y` is the first element of `xs` carrying its key. */
  predicate FirstOfKey<T(==), K(==)>(xs: seq<T>, key: T -> K, y: T) {
    exists i :: 0 <= i < |xs| && xs[i] == y && forall j :: 0 <= j < i ==> key(xs[j]) != key(y)
  }

  /** `drop_duplicates(subset=key)`: the first element of each key, in order. */
  function DedupBy<T(==), K(==)>(xs: seq<T>, key: T -> K): (r: seq<T>)
    ensures forall i, j :: 0 <= i < j < |r| ==> key(r[i]) != key(r[j])
    ensures forall i :: 0 <= i < |xs| ==> HasKey(r, key, key(xs[i]))
    ensures forall k :: 0 <= k < |r| ==> FirstOfKey(xs, key, r[k])
    decreases |xs|
  {
    if |xs| == 0 then []
    else
      var init := xs[..|xs| - 1];
      var last := xs[|xs| - 1];
      var d := DedupBy(init, key);
      assert forall k :: 0 <= k < |d| ==> FirstOfKey(xs, key, d[k]) by {
        forall k | 0 <= k < |d|
          ensures FirstOfKey(xs, key, d[k])
        {
          assert FirstOfKey(init, key, d[k]);
          var i :| 0 <= i < |init| && init[i] == d[k] && forall j :: 0 <= j < i ==> key(init[j]) != key(d[k]);
          assert xs[i] == d[k];
          assert forall j :: 0 <= j < i ==> xs[j] == init[j];
        }
      }
      assert forall i :: 0 <= i < |init| ==> init[i] == xs[i];
      if HasKey(d, key, key(last)) then
        d
      else
        var r := d + [last];
        assert HasKey(r, key, key(last)) by {
          assert r[|d|] == last;
        }
        assert forall i :: 0 <= i < |init| ==> HasKey(r, key, key(init[i])) by {
          forall i | 0 <= i < |init|
            ensures HasKey(r, key, key(init[i]))
          {
            assert HasKey(d, key, key(init[i]));
            var k :| 0 <= k < |d| && key(d[k]) == key(init[i]);
            assert r[k] == d[k];
          }
        }
        assert FirstOfKey(xs, key, last) by {
          forall j | 0 <= j < |xs| - 1
            ensures key(xs[j]) != key(last)
          {
            assert xs[j] == init[j];
            assert HasKey(d, key, key(init[j]));
          }
        }
        r
  }

  /** No element of `xs` before position `i` has key `k`. */
  predicate NoKeyBefore<T, K(==)>(xs: seq<T>, key: T -> K, k: K, i: nat)
    requires i <= |xs|
  {
    forall j :: 0 <= j < i ==> key(xs[j]) != k
  }

  /** The position of the first element of `xs` with key `k`, or `|xs|` when there is none. */
  function FirstIndex<T, K(==)>(xs: seq<T>, key: T -> K, k: K): (i: nat)
    ensures i <= |xs|
    ensures i < |xs| ==> key(xs[i]) == k
    ensures NoKeyBefore(xs, key, k, i)
    decreases |xs|
  {
    if |xs| == 0 then 0
    else if key(xs[0]) == k then 0
    else
      var i := FirstIndex(xs[1..], key, k);
      assert NoKeyBefore(xs[1..], key, k, i);
      assert forall j :: 1 <= j <= i ==> xs[j] == xs[1..][j - 1];
      1 + i
  }

  /** The three facts about `FirstIndex` determine it. */
  lemma FirstIndexUnique<T, K>(xs: seq<T>, key: T -> K, k: K, i: nat)
    requires i <= |xs| && (i < |xs| ==> key(xs[i]) == k)
    requires NoKeyBefore(xs, key, k, i)
    ensures FirstIndex(xs, key, k) == i
  {
    var f := FirstIndex(xs, key, k);
    assert NoKeyBefore(xs, key, k, f);
    if i < |xs| {
      assert key(xs[i]) == k;
    }
    if f < |xs| {
      assert key(xs[f]) == k;
    }
  }

  /** Appending an element does not move the first position of a key already present. */
  lemma FirstIndexSnoc<T, K>(init: seq<T>, last: T, key: T -> K, k: K)
    ensures HasKey(init, key, k) ==> FirstIndex(init + [last], key, k) == FirstIndex(init, key, k) < |init|
    ensures !HasKey(init, key, k) && key(last) == k ==> FirstIndex(init + [last], key, k) == |init|
  {
    var xs := init + [last];
    var f := FirstIndex(init, key, k);
    assert forall j :: 0 <= j < |init| ==> xs[j] == init[j];
    assert NoKeyBefore(init, key, k, f);
    if HasKey(init, key, k) {
      var w :| 0 <= w < |init| && key(init[w]) == k;
      assert f <= w;
      assert NoKeyBefore(xs, key, k, f);
      FirstIndexUnique(xs, key, k, f);
    } else if key(last) == k {
      assert NoKeyBefore(xs, key, k, |init|);
      FirstIndexUnique(xs, key, k, |init|);
    }
  }

  /** The kept elements of a prefix keep their first positions when an element is appended. */
  lemma DedupPrefixPositions<T, K>(init: seq<T>, last: T, key: T -> K)
    ensures var d := DedupBy(init, key);
      forall k :: 0 <= k < |d| ==> FirstIndex(init + [last], key, key(d[k])) == FirstIndex(init, key, key(d[k])) < |init|
  {
    var d := DedupBy(init, key);
    forall k | 0 <= k < |d|
      ensures FirstIndex(init + [last], key, key(d[k])) == FirstIndex(init, key, key(d[k])) < |init|
    {
      assert FirstOfKey(init, key, d[k]);
      var i :| 0 <= i < |init| && init[i] == d[k] && forall j :: 0 <= j < i ==> key(init[j]) != key(d[k]);
      assert HasKey(init, key, key(d[k]));
      FirstIndexSnoc(init, last, key, key(d[k]));
    }
  }

  /** A key of the prefix is a key of its deduplication. */
  lemma DedupKeepsKey<T, K>(init: seq<T>, key: T -> K, k: K)
    ensures HasKey(init, key, k) ==> HasKey(DedupBy(init, key), key, k)
  {
    if HasKey(init, key, k) {
      var i :| 0 <= i < |init| && key(init[i]) == k;
      assert HasKey(DedupBy(init, key), key, key(init[i]));
    }
  }

  /** One step of `DedupBy`: the last element is appended iff its key is new. */
  lemma DedupBySnoc<T, K>(init: seq<T>, last: T, key: T -> K)
    ensures var d := DedupBy(init, key);
      DedupBy(init + [last], key) == if HasKey(d, key, key(last)) then d else d + [last]
  {
    var xs := init + [last];
    assert xs[..|xs| - 1] == init;
    assert xs[|xs| - 1] == last;
  }

  /** `drop_duplicates` keeps the first appearances in the order they appear. */
  lemma {:induction false} DedupByOrder<T, K>(xs: seq<T>, key: T -> K)
    ensures var r := DedupBy(xs, key);
      forall k, l :: 0 <= k < l < |r| ==> FirstIndex(xs, key, key(r[k])) < FirstIndex(xs, key, key(r[l]))
    decreases |xs|, 1
  {
    if |xs| > 0 {
      var init := xs[..|xs| - 1];
      var last := xs[|xs| - 1];
      assert xs == init + [last];
      DedupByOrderStep(init, last, key);
    }
  }

  lemma {:induction false} DedupByOrderStep<T, K>(init: seq<T>, last: T, key: T -> K)
    ensures var r := DedupBy(init + [last], key);
      forall k, l :: 0 <= k < l < |r| ==> FirstIndex(init + [last], key, key(r[k])) < FirstIndex(init + [last], key, key(r[l]))
    decreases |init| + 1, 0
  {
    var xs := init + [last];
    var d := DedupBy(init, key);
    DedupByOrder(init, key);
    DedupPrefixPositions(init, last, key);
    DedupBySnoc(init, last, key);
    if HasKey(d, key, key(last)) {
      SnocOrderOld(d, init, last, key);
    } else {
      DedupKeepsKey(init, key, key(last));
      FirstIndexSnoc(init, last, key, key(last));
      SnocOrderOld(d, init, last, key);
      SnocOrderNew(d, xs, last, key, |init|);
    }
  }

  lemma SnocOrderOld<T, K>(d: seq<T>, init: seq<T>, last: T, key: T -> K)
    requires forall k, l :: 0 <= k < l < |d| ==> FirstIndex(init, key, key(d[k])) < FirstIndex(init, key, key(d[l]))
    requires forall k :: 0 <= k < |d| ==> FirstIndex(init + [last], key, key(d[k])) == FirstIndex(init, key, key(d[k]))
    ensures forall k, l :: 0 <= k < l < |d| ==> FirstIndex(init + [last], key, key(d[k])) < FirstIndex(init + [last], key, key(d[l]))
  {
  }

  lemma SnocOrderNew<T, K>(d: seq<T>, xs: seq<T>, last: T, key: T -> K, n: nat)
    requires forall k, l :: 0 <= k < l < |d| ==> FirstIndex(xs, key, key(d[k])) < FirstIndex(xs, key, key(d[l]))
    requires forall k :: 0 <= k < |d| ==> FirstIndex(xs, key, key(d[k])) < n
    requires FirstIndex(xs, key, key(last)) == n
    ensures var r := d + [last];
      forall k, l :: 0 <= k < l < |r| ==> FirstIndex(xs, key, key(r[k])) < FirstIndex(xs, key, key(r[l]))
  {
    var r := d + [last];
    forall k, l | 0 <= k < l < |r|
      ensures FirstIndex(xs, key, key(r[k])) < FirstIndex(xs, key, key(r[l]))
    {
      assert r[k] == d[k];
      if l < |d| {
        assert r[l] == d[l];
      } else {
        assert r[l] == last;
      }
    }
  }

  /** The identity, as a key. */
  function Id<T>(x: T): T {
    x
  }

  /** The first position of a key among the keys is its first position among the elements. */
  lemma FirstIndexKeys<T, K>(xs: seq<T>, key: T -> K, k: K)
    ensures FirstIndex(Keys(xs, key), Id, k) == FirstIndex(xs, key, k)
  {
    var ks := Keys(xs, key);
    var f := FirstIndex(ks, Id, k);
    assert NoKeyBefore(ks, Id, k, f);
    assert forall j :: 0 <= j < |xs| ==> Id(ks[j]) == key(xs[j]);
    assert NoKeyBefore(xs, key, k, f);
    FirstIndexUnique(xs, key, k, f);
  }

  /** `unique()`: the distinct values of `xs`, in order of first appearance. */
  function Dedup<T(==)>(xs: seq<T>): (r: seq<T>)
    ensures Distinct(r)
    ensures forall i :: 0 <= i < |xs| ==> xs[i] in r
    ensures forall k :: 0 <= k < |r| ==> r[k] in xs
  {
    var r := DedupBy(xs, Id);
    assert forall i :: 0 <= i < |xs| ==> xs[i] in r by {
      forall i | 0 <= i < |xs|
        ensures xs[i] in r
      {
        assert HasKey(r, Id, xs[i]);
      }
    }
    assert forall k :: 0 <= k < |r| ==> r[k] in xs by {
      forall k | 0 <= k < |r|
        ensures r[k] in xs
      {
        assert FirstOfKey(xs, Id, r[k]);
      }
    }
    r
  }

  /** `unique()` lists the values in the order of their first appearance. */
  lemma DedupOrder<T>(xs: seq<T>)
    ensures var r := Dedup(xs);
      forall k, l :: 0 <= k < l < |r| ==> FirstIndex(xs, Id, r[k]) < FirstIndex(xs, Id, r[l])
  {
    DedupByOrder(xs, Id);
    var r := Dedup(xs);
    assert r == DedupBy(xs, Id);
    forall k, l | 0 <= k < l < |r|
      ensures FirstIndex(xs, Id, r[k]) < FirstIndex(xs, Id, r[l])
    {
      assert Id(r[k]) == r[k] && Id(r[l]) == r[l];
    }
  }

  /** The elements of `xs` whose key is `g`, in order (`df.loc[df[key] == g]`). */
  function Members<T, K(==)>(xs: seq<T>, key: T -> K, g: K): (r: seq<T>)
    ensures forall y :: y in r ==> y in xs && key(y) == g
    ensures forall i :: 0 <= i < |xs| && key(xs[i]) == g ==> xs[i] in r
    decreases |xs|
  {
    if |xs| == 0 then []
    else
      var rest := Members(xs[1..], key, g);
      assert forall i :: 1 <= i < |xs| ==> xs[i] == xs[1..][i - 1];
      if key(xs[0]) == g then [xs[0]] + rest else rest
  }

  function KeyIs<T, K(==)>(key: T -> K, g: K): T -> bool {
    x => key(x) == g
  }

  /** Selecting a group is the order-preserving filter on the key, so it keeps
      every member, in order; its first element is the first with that key. */
  lemma {:induction false} MembersIsFilter<T, K>(xs: seq<T>, key: T -> K, g: K)
    ensures Members(xs, key, g) == Filter(xs, KeyIs(key, g))
    ensures HasKey(xs, key, g) ==> |Members(xs, key, g)| > 0 && Members(xs, key, g)[0] == xs[FirstIndex(xs, key, g)]
    decreases |xs|
  {
    if |xs| > 0 {
      MembersIsFilter(xs[1..], key, g);
      if HasKey(xs, key, g) && key(xs[0]) != g {
        var i :| 0 <= i < |xs| && key(xs[i]) == g;
        assert xs[1..][i - 1] == xs[i];
        assert HasKey(xs[1..], key, g);
      }
    }
  }

  /** How many of `gs` equal `k`. */
  function Hits<K(==)>(gs: seq<K>, k: K): nat
    decreases |gs|
  {
    if |gs| == 0 then 0 else (if gs[0] == k then 1 else 0) + Hits(gs[1..], k)
  }

  /** Total size of the groups named by `gs`. */
  function GroupSizes<T, K(==)>(gs: seq<K>, xs: seq<T>, key: T -> K): nat
    decreases |gs|
  {
    if |gs| == 0 then 0 else |Members(xs, key, gs[0])| + GroupSizes(gs[1..], xs, key)
  }

  lemma {:induction false} HitsOfDistinct<K>(gs: seq<K>, k: K)
    requires Distinct(gs)
    ensures Hits(gs, k) == if k in gs then 1 else 0
    decreases |gs|
  {
    if |gs| > 0 {
      var rest := gs[1..];
      assert Distinct(rest) by {
        forall i, j | 0 <= i < j < |rest|
          ensures rest[i] != rest[j]
        {
          assert rest[i] == gs[i + 1] && rest[j] == gs[j + 1];
        }
      }
      HitsOfDistinct(rest, k);
      assert gs == [gs[0]] + rest;
      if gs[0] == k {
        forall j | 0 <= j < |rest|
          ensures rest[j] != k
        {
          assert rest[j] == gs[j + 1];
        }
      }
    }
  }

  /** Peeling the first element off `xs` removes it from exactly the groups it hits. */
  lemma {:induction false} GroupSizesStep<T, K>(gs: seq<K>, xs: seq<T>, key: T -> K)
    requires |xs| > 0
    ensures GroupSizes(gs, xs, key) == Hits(gs, key(xs[0])) + GroupSizes(gs, xs[1..], key)
    decreases |gs|
  {
    if |gs| > 0 {
      GroupSizesStep(gs[1..], xs, key);
    }
  }

  /** Groups named by a distinct list covering every key split `xs` without loss or overlap:
      their sizes add up to the length of `xs`. */
  lemma {:induction false} GroupSizesPartition<T, K>(gs: seq<K>, xs: seq<T>, key: T -> K)
    requires Distinct(gs)
    requires forall i :: 0 <= i < |xs| ==> key(xs[i]) in gs
    ensures GroupSizes(gs, xs, key) == |xs|
    decreases |xs|
  {
    if |xs| == 0 {
      GroupSizesOfEmpty(gs, xs, key);
    } else {
      GroupSizesStep(gs, xs, key);
      HitsOfDistinct(gs, key(xs[0]));
      assert forall i :: 0 <= i < |xs[1..]| ==> xs[1..][i] == xs[i + 1];
      GroupSizesPartition(gs, xs[1..], key);
    }
  }

  lemma {:induction false} GroupSizesOfEmpty<T, K>(gs: seq<K>, xs: seq<T>, key: T -> K)
    requires |xs| == 0
    ensures GroupSizes(gs, xs, key) == 0
    decreases |gs|
  {
    if |gs| > 0 {
      GroupSizesOfEmpty(gs[1..], xs, key);
    }
  }

  /** Python `sorted` on text. */
  predicate Sorted(xs: seq<string>) {
    forall i, j :: 0 <= i < j < |xs| ==> LessEq(xs[i], xs[j])
  }

  function Insert(x: string, xs: seq<string>): (r: seq<string>)
    requires Sorted(xs)
    ensures Sorted(r)
    ensures multiset(r) == multiset(xs) + multiset{x}
    decreases |xs|
  {
    if |xs| == 0 then [x]
    else if LessEq(x, xs[0]) then
      assert forall j :: 0 <= j < |xs| ==> LessEq(x, xs[j]) by {
        forall j | 0 <= j < |xs|
          ensures LessEq(x, xs[j])
        {
          if j > 0 {
            LessEqTransitive(x, xs[0], xs[j]);
          }
        }
      }
      [x] + xs
    else
      var rest := Insert(x, xs[1..]);
      LessEqTotal(x, xs[0]);
      assert xs == [xs[0]] + xs[1..];
      assert forall j :: 0 <= j < |rest| ==> LessEq(xs[0], rest[j]) by {
        forall j | 0 <= j < |rest|
          ensures LessEq(xs[0], rest[j])
        {
          assert rest[j] in multiset(rest);
          if rest[j] != x {
            assert rest[j] in multiset(xs[1..]);
            var k :| 0 <= k < |xs[1..]| && xs[1..][k] == rest[j];
            assert xs[k + 1] == rest[j];
          }
        }
      }
      [xs[0]] + rest
  }

  /** `sorted(xs)`: insertion sort. */
  function Sort(xs: seq<string>): (r: seq<string>)
    ensures Sorted(r)
    ensures multiset(r) == multiset(xs)
    decreases |xs|
  {
    if |xs| == 0 then []
    else
      assert xs == [xs[0]] + xs[1..];
      Insert(xs[0], Sort(xs[1..]))
  }

  /** Two sorted arrangements of the same elements are the same sequence. */
  lemma {:induction false} SortedUnique(a: seq<string>, b: seq<string>)
    requires Sorted(a) && Sorted(b)
    requires multiset(a) == multiset(b)
    ensures a == b
    decreases |a|
  {
    if |a| > 0 {
      assert |b| == |multiset(b)|;
      assert a == [a[0]] + a[1..];
      assert b == [b[0]] + b[1..];
      assert a[0] in multiset(b);
      assert b[0] in multiset(a);
      var i :| 0 <= i < |b| && b[i] == a[0];
      var j :| 0 <= j < |a| && a[j] == b[0];
      if i > 0 {
        assert LessEq(b[0], b[i]);
      } else {
        LessEqReflexive(b[0]);
      }
      if j > 0 {
        assert LessEq(a[0], a[j]);
      } else {
        LessEqReflexive(a[0]);
      }
      LessEqAntisymmetric(a[0], b[0]);
      assert multiset(a) == multiset{a[0]} + multiset(a[1..]);
      assert multiset(b) == multiset{b[0]} + multiset(b[1..]);
      assert a[0] == b[0];
      assert multiset(a[1..]) == multiset(a) - multiset{a[0]};
      assert multiset(b[1..]) == multiset(b) - multiset{b[0]};
      SortedUnique(a[1..], b[1..]);
    }
  }

  /** Sorting depends only on the multiset of elements, and sorting a sorted list changes nothing. */
  lemma SortCanonical(a: seq<string>, b: seq<string>)
    requires multiset(a) == multiset(b)
    ensures Sort(a) == Sort(b)
    ensures Sorted(a) ==> Sort(a) == a
  {
    SortedUnique(Sort(a), Sort(b));
    if Sorted(a) {
      SortedUnique(Sort(a), a);
    }
  }

  /** A non-empty sequence has its head as a member. */
  lemma HeadIsMember<T>(s: seq<T>)
    ensures |s| > 0 ==> s[0] in s
  {
  }
}

=== FILE: special_cases.dfy ===
/** The batch loop of src/dl_special_case.py: for each listed watershed, the
    boundary, the flowlines and the DEM are fetched in turn, each failure is
    appended to a ledger and the batch carries on; the ledger is written out
    only when it is not empty. */
module SpecialCases {
  import opened Common
  import opened Geo
  import opened NhdFetch
  import opened DemAcquisition

  /** A row of the special-cases table. */
  datatype SpecialCase = SpecialCase(huc: string, name: string)

  /** A row of the failure log. */
  datatype Failure = Failure(huc: string, name: string, reason: string)

  const BoundaryFailed: string := "failed on get_boundary"
  const NhdFailed: string := "failed on get_nhd"
  const DemFailed: string := "failed on get_dem"

  /** The services the loop calls: the boundary lookup (None when it raises),
      the NHD service and the elevation service. */
  datatype Services = Services(
    boundary: string -> Option<Geometry>,
    nhd: NhdService,
    dem: Provider)

  /** The failures one watershed adds to the ledger. */
  function CaseFailures(c: SpecialCase, svc: Services): (fs: seq<Failure>)
    ensures forall k :: 0 <= k < |fs| ==> fs[k].huc == c.huc && fs[k].name == c.name
    ensures svc.boundary(c.huc).None? ==> fs == [Failure(c.huc, c.name, BoundaryFailed)]
    ensures svc.boundary(c.huc).Some? ==>
      var b := svc.boundary(c.huc).value;
      var nhdFails := GetNhdTotalBounds(b, svc.nhd).Err?;
      var demFails := GetDemTotalBounds(b, svc.dem).dem.Err?;
      |fs| == (if nhdFails then 1 else 0) + (if demFails then 1 else 0) &&
      (Failure(c.huc, c.name, NhdFailed) in fs <==> nhdFails) &&
      (Failure(c.huc, c.name, DemFailed) in fs <==> demFails) &&
      (nhdFails && demFails ==> fs[0].reason == NhdFailed && fs[1].reason == DemFailed)
  {
    match svc.boundary(c.huc)
    case None => [Failure(c.huc, c.name, BoundaryFailed)]
    case Some(b) =>
      (if GetNhdTotalBounds(b, svc.nhd).Err? then [Failure(c.huc, c.name, NhdFailed)] else []) +
      (if GetDemTotalBounds(b, svc.dem).dem.Err? then [Failure(c.huc, c.name, DemFailed)] else [])
  }

  /** A watershed adds at most two records; a boundary failure adds exactly one,
      and then no download is recorded for it. */
  lemma CaseFailuresBound(c: SpecialCase, svc: Services)
    ensures |CaseFailures(c, svc)| <= 2
    ensures Failure(c.huc, c.name, BoundaryFailed) in CaseFailures(c, svc) <==> svc.boundary(c.huc).None?
    ensures svc.boundary(c.huc).None? ==> |CaseFailures(c, svc)| == 1
  {
    var fs := CaseFailures(c, svc);
    if svc.boundary(c.huc).Some? {
      assert forall k :: 0 <= k < |fs| ==> fs[k].reason != BoundaryFailed;
    }
  }

  /** The ledger after processing `cases` in order: every failure of every
      watershed is recorded. */
  function Ledger(cases: seq<SpecialCase>, svc: Services): (l: seq<Failure>)
    ensures forall i, f :: 0 <= i < |cases| && f in CaseFailures(cases[i], svc) ==> f in l
    decreases |cases|
  {
    if |cases| == 0 then []
    else
      var init := cases[..|cases| - 1];
      var prev := Ledger(init, svc);
      var last := CaseFailures(cases[|cases| - 1], svc);
      assert forall i, f :: 0 <= i < |cases| - 1 && f in CaseFailures(cases[i], svc) ==> f in prev by {
        forall i, f | 0 <= i < |cases| - 1 && f in CaseFailures(cases[i], svc)
          ensures f in prev
        {
          assert cases[i] == init[i];
        }
      }
      prev + last
  }

  /** The ledger is append-only: processing more watersheds only adds records at the end. */
  lemma {:induction false} LedgerAppendOnly(a: seq<SpecialCase>, b: seq<SpecialCase>, svc: Services)
    ensures |Ledger(a, svc)| <= |Ledger(a + b, svc)|
    ensures Ledger(a + b, svc)[..|Ledger(a, svc)|] == Ledger(a, svc)
    decreases |b|
  {
    if |b| == 0 {
      assert a + b == a;
    } else {
      var b' := b[..|b| - 1];
      LedgerAppendOnly(a, b', svc);
      assert (a + b)[..|a + b| - 1] == a + b';
      assert Ledger(a + b, svc) == Ledger(a + b', svc) + CaseFailures(b[|b| - 1], svc);
    }
  }

  /** Every record names a listed watershed, and there are at most two per watershed. */
  lemma {:induction false} LedgerSound(cases: seq<SpecialCase>, svc: Services)
    ensures |Ledger(cases, svc)| <= 2 * |cases|
    ensures forall f :: f in Ledger(cases, svc) ==> exists i :: 0 <= i < |cases| && f.huc == cases[i].huc && f.name == cases[i].name
    decreases |cases|
  {
    if |cases| > 0 {
      var init := cases[..|cases| - 1];
      var last := cases[|cases| - 1];
      LedgerSound(init, svc);
      CaseFailuresBound(last, svc);
      forall f | f in Ledger(cases, svc)
        ensures exists i :: 0 <= i < |cases| && f.huc == cases[i].huc && f.name == cases[i].name
      {
        if f in Ledger(init, svc) {
          var i :| 0 <= i < |init| && f.huc == init[i].huc && f.name == init[i].name;
          assert cases[i] == init[i];
        } else {
          assert f in CaseFailures(last, svc);
          var k :| 0 <= k < |CaseFailures(last, svc)| && CaseFailures(last, svc)[k] == f;
          assert f.huc == cases[|cases| - 1].huc;
        }
      }
    }
  }

  /** The loop over the table. The batch never stops early; `writeLog` says
      whether `failed_hucs.csv` is written. */
  method RunSpecialCases(cases: seq<SpecialCase>, svc: Services) returns (failures: seq<Failure>, writeLog: bool)
    ensures failures == Ledger(cases, svc)
    ensures writeLog <==> |failures| > 0
    ensures |failures| <= 2 * |cases|
  {
    failures := [];
    var i := 0;
    while i < |cases|
      invariant 0 <= i <= |cases|
      invariant failures == Ledger(cases[..i], svc)
    {
      var c := cases[i];
      match svc.boundary(c.huc) {
        case None =>
          failures := failures + [Failure(c.huc, c.name, BoundaryFailed)];
        case Some(b) =>
          if GetNhdTotalBounds(b, svc.nhd).Err? {
            failures := failures + [Failure(c.huc, c.name, NhdFailed)];
          }
          if GetDemTotalBounds(b, svc.dem).dem.Err? {
            failures := failures + [Failure(c.huc, c.name, DemFailed)];
          }
      }
      assert cases[..i + 1][..i] == cases[..i];
      i := i + 1;
    }
    assert cases[..i] == cases;
    LedgerSound(cases, svc);
    writeLog := |failures| > 0;
  }
}

=== FILE: target_huc10s.dfy ===
/** src/generate_target_huc10s.py: the target huc10 list is the region-18
    huc10s followed by the huc10s whose `states` mention CA, with duplicates
    removed by huc10, the first occurrence winning. */
module TargetHuc10s {
  import opened Common
  import opened Text
  import opened Seqs

  /** A row of the national huc10 table; `states` may be missing. */
  datatype Huc10Row = Huc10Row(huc2: string, huc10: string, states: Option<string>)

  /** A row of the output: `hucid` and `states`. */
  datatype TargetRow = TargetRow(hucid: string, states: Option<string>)

  function HucIdOf(t: TargetRow): string {
    t.hucid
  }

  function AsTarget(r: Huc10Row): TargetRow {
    TargetRow(r.huc10, r.states)
  }

  predicate InRegion18(r: Huc10Row) {
    r.huc2 == "18"
  }

  /** `fillna("None")` on the states column. */
  function FilledStates(r: Huc10Row): (s: string)
    ensures r.states.Some? ==> s == r.states.value
    ensures r.states.None? ==> s == "None"
  {
    r.states.GetOr("None")
  }

  /** `str.contains("CA")` on the filled states. */
  predicate MentionsCA(r: Huc10Row) {
    Contains(FilledStates(r), "CA")
  }

  /** The region-18 rows, taken before the fill, so their states stay as they were. */
  function WatershedRows(rows: seq<Huc10Row>): (ws: seq<TargetRow>)
    ensures forall t :: t in ws <==> exists i :: 0 <= i < |rows| && InRegion18(rows[i]) && t == AsTarget(rows[i])
  {
    var sel := Filter(rows, InRegion18);
    var ws := Keys(sel, AsTarget);
    assert forall t :: t in ws ==> exists i :: 0 <= i < |rows| && InRegion18(rows[i]) && t == AsTarget(rows[i]) by {
      forall t | t in ws
        ensures exists i :: 0 <= i < |rows| && InRegion18(rows[i]) && t == AsTarget(rows[i])
      {
        var k :| 0 <= k < |ws| && ws[k] == t;
        assert sel[k] in sel;
        var i :| 0 <= i < |rows| && rows[i] == sel[k];
      }
    }
    assert forall i :: 0 <= i < |rows| && InRegion18(rows[i]) ==> AsTarget(rows[i]) in ws by {
      forall i | 0 <= i < |rows| && InRegion18(rows[i])
        ensures AsTarget(rows[i]) in ws
      {
        assert rows[i] in sel;
        var k :| 0 <= k < |sel| && sel[k] == rows[i];
        assert ws[k] == AsTarget(rows[i]);
      }
    }
    ws
  }

  /** The rows whose filled states mention CA, carrying the filled value. */
  function StateRows(rows: seq<Huc10Row>): (ss: seq<TargetRow>)
    ensures forall t :: t in ss <==> exists i :: (0 <= i < |rows| && MentionsCA(rows[i]) &&
      t == TargetRow(rows[i].huc10, Some(FilledStates(rows[i]))))
  {
    var sel := Filter(rows, MentionsCA);
    var ss := seq(|sel|, k requires 0 <= k < |sel| => TargetRow(sel[k].huc10, Some(FilledStates(sel[k]))));
    assert forall t :: t in ss ==> exists i :: (0 <= i < |rows| && MentionsCA(rows[i]) &&
      t == TargetRow(rows[i].huc10, Some(FilledStates(rows[i])))) by {
      forall t | t in ss
        ensures exists i :: 0 <= i < |rows| && MentionsCA(rows[i]) && t == TargetRow(rows[i].huc10, Some(FilledStates(rows[i])))
      {
        var k :| 0 <= k < |ss| && ss[k] == t;
        assert sel[k] in sel;
        var i :| 0 <= i < |rows| && rows[i] == sel[k];
      }
    }
    assert forall i :: 0 <= i < |rows| && MentionsCA(rows[i]) ==> TargetRow(rows[i].huc10, Some(FilledStates(rows[i]))) in ss by {
      forall i | 0 <= i < |rows| && MentionsCA(rows[i])
        ensures TargetRow(rows[i].huc10, Some(FilledStates(rows[i]))) in ss
      {
        assert rows[i] in sel;
        var k :| 0 <= k < |sel| && sel[k] == rows[i];
        assert ss[k] == TargetRow(rows[i].huc10, Some(FilledStates(rows[i])));
      }
    }
    ss
  }

  /** `pd.concat([...]).drop_duplicates(subset=["huc10"])`, renamed to `hucid`. */
  function TargetList(rows: seq<Huc10Row>): (out: seq<TargetRow>)
    ensures forall i, j :: 0 <= i < j < |out| ==> out[i].hucid != out[j].hucid
    ensures forall t :: t in out ==> t in WatershedRows(rows) + StateRows(rows)
  {
    var combined := WatershedRows(rows) + StateRows(rows);
    var out := DedupBy(combined, HucIdOf);
    assert forall t :: t in out ==> t in combined by {
      forall t | t in out
        ensures t in combined
      {
        var k :| 0 <= k < |out| && out[k] == t;
        assert FirstOfKey(combined, HucIdOf, out[k]);
      }
    }
    out
  }

  /** A row of the concatenation has its huc10 in the deduplicated list. */
  lemma InCombinedListed(rows: seq<Huc10Row>, t: TargetRow)
    requires t in WatershedRows(rows) + StateRows(rows)
    ensures exists k :: 0 <= k < |TargetList(rows)| && TargetList(rows)[k].hucid == t.hucid
  {
    var combined := WatershedRows(rows) + StateRows(rows);
    var d := TargetList(rows);
    assert d == DedupBy(combined, HucIdOf);
    var j :| 0 <= j < |combined| && combined[j] == t;
    assert HasKey(d, HucIdOf, HucIdOf(combined[j]));
    var k :| 0 <= k < |d| && HucIdOf(d[k]) == t.hucid;
  }

  /** Every region-18 huc10 and every huc10 whose states mention CA is in the list. */
  lemma TargetListComplete(rows: seq<Huc10Row>, i: nat)
    requires i < |rows| && (InRegion18(rows[i]) || MentionsCA(rows[i]))
    ensures exists k :: 0 <= k < |TargetList(rows)| && TargetList(rows)[k].hucid == rows[i].huc10
  {
    if InRegion18(rows[i]) {
      assert AsTarget(rows[i]) in WatershedRows(rows);
      InCombinedListed(rows, AsTarget(rows[i]));
    } else {
      var t := TargetRow(rows[i].huc10, Some(FilledStates(rows[i])));
      assert t in StateRows(rows);
      InCombinedListed(rows, t);
    }
  }

  /** Every listed huc10 comes from a region-18 row or from a row whose states mention CA. */
  lemma TargetListSound(rows: seq<Huc10Row>, t: TargetRow)
    requires t in TargetList(rows)
    ensures exists i :: 0 <= i < |rows| && rows[i].huc10 == t.hucid && (InRegion18(rows[i]) || MentionsCA(rows[i]))
  {
    if t in WatershedRows(rows) {
      var i :| 0 <= i < |rows| && InRegion18(rows[i]) && t == AsTarget(rows[i]);
    } else {
      assert t in StateRows(rows);
      var i :| 0 <= i < |rows| && MentionsCA(rows[i]) && t == TargetRow(rows[i].huc10, Some(FilledStates(rows[i])));
    }
  }

  /** A missing `states` never matches CA: the fill gives the text "None". */
  lemma MissingStatesNeverMatch(r: Huc10Row)
    requires r.states.None?
    ensures !MentionsCA(r)
  {
    assert FilledStates(r) == "None";
    assert "None"[1..] == "one" && "one"[1..] == "ne" && "ne"[1..] == "e" && "e"[1..] == "";
    assert !Contains("", "CA");
    assert !Contains("e", "CA");
    assert "ne"[..2][0] == 'n';
    assert !Contains("ne", "CA");
    assert "one"[..2][0] == 'o';
    assert !Contains("one", "CA");
    assert "None"[..2][0] == 'N';
  }

  /** First occurrence wins: a huc10 with a region-18 row keeps that row's
      unfilled states, even when it also mentions CA. */
  lemma RegionRowsWin(rows: seq<Huc10Row>, t: TargetRow)
    requires t in TargetList(rows)
    requires exists i :: 0 <= i < |rows| && InRegion18(rows[i]) && rows[i].huc10 == t.hucid
    ensures t in WatershedRows(rows)
  {
    var ws := WatershedRows(rows);
    var combined := ws + StateRows(rows);
    var out := DedupBy(combined, HucIdOf);
    var k :| 0 <= k < |out| && out[k] == t;
    assert FirstOfKey(combined, HucIdOf, t);
    var j :| 0 <= j < |combined| && combined[j] == t && forall m :: 0 <= m < j ==> HucIdOf(combined[m]) != HucIdOf(t);
    var i :| 0 <= i < |rows| && InRegion18(rows[i]) && rows[i].huc10 == t.hucid;
    assert AsTarget(rows[i]) in ws;
    var m :| 0 <= m < |ws| && ws[m] == AsTarget(rows[i]);
    assert combined[m] == ws[m];
    assert HucIdOf(combined[m]) == HucIdOf(t);
    assert j <= m;
    assert combined[j] == ws[j];
  }
}

=== FILE: target_hucs.dfy ===
/** `filter_huc10_list` and `get_target_hucs` of src/utils.py. The manifest
    file is read by the caller; its `hucid` column arrives as text. */
module TargetHucs {
  import opened Common
  import opened Text
  import opened Seqs
  import opened Sampling
  import opened FilterHucs

  const EmptyPopulationError: string := "'a' cannot be empty unless no samples are taken"
  const NegativeSizeError: string := "negative dimensions are not allowed"
  const LargerSampleError: string := "Cannot take a larger sample than population when 'replace=False'"

  /** What `np.random.choice(hucs, size=n, replace=False)` raises for a size
      it cannot draw; an empty population is rejected before the size checks. */
  function ChoiceError(n: int, available: nat): (e: Option<string>)
    ensures e.None? <==> 0 <= n <= available
    ensures available == 0 && n != 0 ==> e == Some(EmptyPopulationError)
    ensures available > 0 && n < 0 ==> e == Some(NegativeSizeError)
    ensures available > 0 && n > available ==> e == Some(LargerSampleError)
  {
    if available == 0 && n != 0 then Some(EmptyPopulationError)
    else if n < 0 then Some(NegativeSizeError)
    else if n > available then Some(LargerSampleError)
    else None
  }

  const ToListError: string := "'numpy.ndarray' object has no attribute 'to_list'"

  /** What `str.startswith` raises for a pattern that is neither a string nor a tuple. */
  const PrefixTypeError: string := "expected a string or tuple, not int"

  /** `hucs[hucs.str.startswith(prefix)]` with the empty-result check, for a
      prefix that is not None. The prefix is read from the configuration
      without a type check, so an integer reaches `startswith`, which raises. */
  function KeepPrefix(hucs: seq<string>, prefix: Option<Scalar>): (r: Result<seq<string>>)
    ensures prefix.None? ==> r == Ok(hucs)
    ensures prefix.Some? && prefix.value.Number? ==> r == Err(PrefixTypeError)
    ensures prefix.Some? && prefix.value.Text? ==>
      (r.Ok? <==> exists i :: 0 <= i < |hucs| && StartsWith(hucs[i], prefix.value.s)) &&
      (r.Err? ==> r.msg == NoMatchError(prefix.value.s)) &&
      (r.Ok? ==> r.value == Filter(hucs, HasPrefix(prefix.value.s)))
    ensures r.Ok? ==> forall x :: x in r.value <==>
      x in hucs && (prefix.Some? ==> prefix.value.Text? && StartsWith(x, prefix.value.s))
  {
    match prefix
    case None => Ok(hucs)
    case Some(Number(_)) => Err(PrefixTypeError)
    case Some(Text(p)) =>
      var kept := Filter(hucs, HasPrefix(p));
      assert forall i :: 0 <= i < |hucs| && StartsWith(hucs[i], p) ==> hucs[i] in kept by {
        forall i | 0 <= i < |hucs| && StartsWith(hucs[i], p)
          ensures hucs[i] in kept
        {
          assert HasPrefix(p)(hucs[i]);
        }
      }
      if |kept| == 0 then Err(NoMatchError(p))
      else
        assert kept[0] in hucs && StartsWith(kept[0], p);
        Ok(kept)
  }

  /** `filter_huc10_list` as written: after sampling, the array has no
      `to_list`, so any `sample_size` ends in an error. */
  function FilterHuc10ListAsWritten(hucs: seq<string>, prefix: Option<Scalar>, sampleSize: Option<int>, draws: seq<nat>): (r: Result<seq<string>>)
    ensures sampleSize.Some? ==> r.Err?
    ensures prefix.Some? && prefix.value.Number? ==> r == Err(PrefixTypeError)
    ensures sampleSize.None? ==> r == KeepPrefix(hucs, prefix)
  {
    var kept :- KeepPrefix(hucs, prefix);
    match sampleSize
    case None => Ok(kept)
    case Some(n) =>
      match ChoiceError(n, |kept|)
      case Some(e) => Err(e)
      case None => Err(ToListError)
  }

  /** A sample of one from a single id, which the function was written to allow, fails. */
  lemma AsWrittenSamplingFails()
    ensures FilterHuc10ListAsWritten(["1805000101"], None, Some(1), []) == Err(ToListError)
  {
  }

  /** `filter_huc10_list` with the sample converted by `.tolist()`: input order
      is kept without sampling, and a sample is `n` ids drawn without replacement. */
  function FilterHuc10List(hucs: seq<string>, prefix: Option<Scalar>, sampleSize: Option<int>, draws: seq<nat>): (r: Result<seq<string>>)
    ensures sampleSize.None? ==> r == KeepPrefix(hucs, prefix)
    ensures prefix.Some? && prefix.value.Number? ==> r == Err(PrefixTypeError)
    ensures sampleSize.Some? && KeepPrefix(hucs, prefix).Ok? ==>
      var kept := KeepPrefix(hucs, prefix).value;
      (r.Ok? <==> 0 <= sampleSize.value <= |kept|) &&
      (r.Ok? ==> |r.value| == sampleSize.value && multiset(r.value) <= multiset(kept))
    ensures r.Ok? ==> forall x :: x in r.value ==>
      x in hucs && (prefix.Some? ==> prefix.value.Text? && StartsWith(x, prefix.value.s))
  {
    var kept :- KeepPrefix(hucs, prefix);
    match sampleSize
    case None => Ok(kept)
    case Some(n) =>
      match ChoiceError(n, |kept|)
      case Some(e) => Err(e)
      case None =>
        var chosen := Sample(kept, n, draws);
        assert forall x :: x in chosen ==> x in kept by {
          forall x | x in chosen
            ensures x in kept
          {
            assert x in multiset(chosen);
          }
        }
        Ok(chosen)
  }

  /** The corrected function differs from the written one only where a sample
      is drawn, and every admissible sample is reachable. */
  lemma FilterHuc10ListCorrected(hucs: seq<string>, prefix: Option<Scalar>, chosen: seq<string>) returns (draws: seq<nat>)
    requires KeepPrefix(hucs, prefix).Ok?
    requires multiset(chosen) <= multiset(KeepPrefix(hucs, prefix).value)
    ensures FilterHuc10List(hucs, prefix, Some(|chosen|), draws) == Ok(chosen)
    ensures FilterHuc10ListAsWritten(hucs, prefix, Some(|chosen|), draws).Err?
    ensures FilterHuc10List(hucs, prefix, None, draws) == FilterHuc10ListAsWritten(hucs, prefix, None, draws)
  {
    draws := SampleReachesEvery(KeepPrefix(hucs, prefix).value, chosen);
  }

  /** The keys of the configuration that name target watersheds. */
  datatype TargetConfig = TargetConfig(
    hucId: Option<Scalar>,
    hucIds: Option<seq<Scalar>>,
    hucManifest: Option<seq<string>>,
    prefix: Option<Scalar>,
    sampleSize: Option<int>)

  function AllAsText(xs: seq<Scalar>): (r: seq<string>)
    ensures |r| == |xs| && forall i :: 0 <= i < |xs| ==> r[i] == AsText(xs[i])
  {
    seq(|xs|, i requires 0 <= i < |xs| => AsText(xs[i]))
  }

  /** `get_target_hucs`: `huc_id`, then `huc_ids`, then the manifest through
      `filter_huc10_list` as written; with none of them the function falls
      through and returns None. */
  function GetTargetHucs(config: TargetConfig, draws: seq<nat>): (r: Option<Result<seq<string>>>)
    ensures config.hucId.Some? ==> r == Some(Ok([AsText(config.hucId.value)]))
    ensures config.hucId.None? && config.hucIds.Some? ==> r == Some(Ok(AllAsText(config.hucIds.value)))
    ensures config.hucId.None? && config.hucIds.None? && config.hucManifest.Some? ==>
      r == Some(FilterHuc10ListAsWritten(config.hucManifest.value, config.prefix, config.sampleSize, draws))
    ensures config.hucId.None? && config.hucIds.None? && config.hucManifest.Some? && config.sampleSize.Some? ==>
      r.value.Err?
    ensures (config.hucId.None? && config.hucIds.None? && config.hucManifest.Some? &&
             config.prefix.Some? && config.prefix.value.Number?) ==>
      r == Some(Err(PrefixTypeError))
    ensures r.None? <==> config.hucId.None? && config.hucIds.None? && config.hucManifest.None?
  {
    if config.hucId.Some? then Some(Ok([AsText(config.hucId.value)]))
    else if config.hucIds.Some? then Some(Ok(AllAsText(config.hucIds.value)))
    else if config.hucManifest.Some? then Some(FilterHuc10ListAsWritten(config.hucManifest.value, config.prefix, config.sampleSize, draws))
    else None
  }

  /** `get_target_hucs` with the corrected `filter_huc10_list`. */
  function GetTargetHucsCorrected(config: TargetConfig, draws: seq<nat>): (r: Option<Result<seq<string>>>)
    ensures config.hucId.Some? || config.hucIds.Some? || config.sampleSize.None? ==>
      r == GetTargetHucs(config, draws)
    ensures config.hucId.None? && config.hucIds.None? && config.hucManifest.Some? ==>
      r == Some(FilterHuc10List(config.hucManifest.value, config.prefix, config.sampleSize, draws))
    ensures (config.hucId.None? && config.hucIds.None? && config.hucManifest.Some? &&
             config.prefix.Some? && config.prefix.value.Number?) ==>
      r == Some(Err(PrefixTypeError))
  {
    if config.hucId.Some? then Some(Ok([AsText(config.hucId.value)]))
    else if config.hucIds.Some? then Some(Ok(AllAsText(config.hucIds.value)))
    else if config.hucManifest.Some? then Some(FilterHuc10List(config.hucManifest.value, config.prefix, config.sampleSize, draws))
    else None
  }

  /** Ids given in the configuration come back as their text: a text id
      unchanged, an integer id as the digits that parse back to it. Without a
      sample the manifest ids starting with the prefix come back in file order. */
  lemma TargetIdsAsGiven(config: TargetConfig, draws: seq<nat>)
    ensures config.hucId.Some? && config.hucId.value.Text? ==>
      GetTargetHucs(config, draws) == Some(Ok([config.hucId.value.s]))
    ensures config.hucId.Some? && config.hucId.value.Number? && config.hucId.value.n >= 0 ==>
      var ids := GetTargetHucs(config, draws).value.value;
      |ids| == 1 && IsDigits(ids[0]) && ParseNat(ids[0]) == config.hucId.value.n
    ensures config.hucId.None? && config.hucIds.Some? ==>
      var given := config.hucIds.value;
      var ids := GetTargetHucs(config, draws).value.value;
      |ids| == |given| &&
      forall i :: 0 <= i < |given| ==>
        (given[i].Text? ==> ids[i] == given[i].s) &&
        (given[i].Number? && given[i].n >= 0 ==> IsDigits(ids[i]) && ParseNat(ids[i]) == given[i].n)
    ensures (config.hucId.None? && config.hucIds.None? && config.hucManifest.Some? &&
             config.sampleSize.None? && config.prefix.None?) ==>
      GetTargetHucs(config, draws) == Some(Ok(config.hucManifest.value))
  {
  }
}

=== FILE: text.dfy ===
/** Python string operations the pipeline relies on, over `seq<char>`.
    Only ASCII digits count as digits (see README). */
module Text {

  /** `s.startswith(p)` */
  predicate StartsWith(s: string, p: string) {
    |p| <= |s| && s[..|p|] == p
  }

  /** `s.endswith(t)` */
  predicate EndsWith(s: string, t: string) {
    |t| <= |s| && s[|s| - |t|..] == t
  }

  /** `t in s` for two strings: `t` occurs somewhere in `s`. */
  predicate Contains(s: string, t: string)
    decreases |s|
  {
    StartsWith(s, t) || (|s| > 0 && Contains(s[1..], t))
  }

  lemma {:induction false} OccursImpliesContains(s: string, t: string, i: nat)
    requires i <= |s| - |t| && StartsWith(s[i..], t)
    ensures Contains(s, t)
    decreases i
  {
    if i == 0 {
      assert s[0..] == s;
    } else {
      assert s[1..][i - 1..] == s[i..];
      OccursImpliesContains(s[1..], t, i - 1);
    }
  }

  lemma {:induction false} ContainsImpliesOccurs(s: string, t: string)
    requires Contains(s, t)
    ensures exists i :: 0 <= i <= |s| - |t| && StartsWith(s[i..], t)
    decreases |s|
  {
    if StartsWith(s, t) {
      assert s[0..] == s;
    } else {
      ContainsImpliesOccurs(s[1..], t);
      var i :| 0 <= i <= |s[1..]| - |t| && StartsWith(s[1..][i..], t);
      assert s[1..][i..] == s[i + 1..];
    }
  }

  /** `Contains` holds exactly when `t` occurs at some offset of `s`. */
  lemma ContainsIffOccurs(s: string, t: string)
    ensures Contains(s, t) <==> exists i :: 0 <= i <= |s| - |t| && StartsWith(s[i..], t)
  {
    if Contains(s, t) {
      ContainsImpliesOccurs(s, t);
    }
    forall i | 0 <= i <= |s| - |t| && StartsWith(s[i..], t)
      ensures Contains(s, t)
    {
      OccursImpliesContains(s, t, i);
    }
  }

  predicate IsDigit(c: char) {
    '0' <= c <= '9'
  }

  /** `s.isdigit()` restricted to ASCII: false for the empty string. */
  predicate IsDigits(s: string) {
    |s| > 0 && forall i :: 0 <= i < |s| ==> IsDigit(s[i])
  }

  /** `s.split(c)[0]`: the text before the first `c`, or all of `s`. */
  function SplitHead(s: string, c: char): (r: string)
    ensures StartsWith(s, r)
    ensures c !in r
    ensures |r| < |s| ==> s[|r|] == c
  {
    if |s| == 0 || s[0] == c then ""
    else
      var rest := SplitHead(s[1..], c);
      assert s[..|rest| + 1] == [s[0]] + s[1..][..|rest|];
      [s[0]] + rest
  }

  /** The three facts `SplitHead` ensures pin its result down. */
  lemma SplitHeadUnique(s: string, c: char, p: string)
    requires StartsWith(s, p) && c !in p && (|p| < |s| ==> s[|p|] == c)
    ensures p == SplitHead(s, c)
  {
    var r := SplitHead(s, c);
    if |p| != |r| {
      assert false;
    }
  }

  /** `s.split(c)[-1]`: the text after the last `c`, or all of `s`. */
  function AfterLast(s: string, c: char): (r: string)
    ensures EndsWith(s, r)
    ensures c !in r
    ensures |r| < |s| ==> s[|s| - |r| - 1] == c
  {
    if |s| == 0 || s[|s| - 1] == c then ""
    else
      var init := s[..|s| - 1];
      var rest := AfterLast(init, c);
      assert s == init + [s[|s| - 1]];
      assert s[|s| - |rest| - 1..] == rest + [s[|s| - 1]];
      rest + [s[|s| - 1]]
  }

  /** The three facts `AfterLast` ensures pin its result down. */
  lemma AfterLastUnique(s: string, c: char, p: string)
    requires EndsWith(s, p) && c !in p && (|p| < |s| ==> s[|s| - |p| - 1] == c)
    ensures p == AfterLast(s, c)
  {
    var r := AfterLast(s, c);
    if |p| != |r| {
      assert false;
    }
  }

  /** `s[0:n]` for a non-negative `n`: slicing never fails, it stops at the end. */
  function Take(s: string, n: nat): (r: string)
    ensures StartsWith(s, r)
    ensures |r| == if n <= |s| then n else |s|
  {
    if n <= |s| then s[..n] else s
  }

  /** `os.path.basename`-style name: the text after the last `/`. */
  function BaseName(path: string): (r: string)
    ensures '/' !in r
    ensures EndsWith(path, r)
  {
    AfterLast(path, '/')
  }

  /** `os.path.join(dir, name)` on POSIX paths. */
  function PathJoin(dir: string, name: string): (r: string)
    ensures EndsWith(r, name)
    ensures !StartsWith(name, "/") ==> StartsWith(r, dir)
  {
    if StartsWith(name, "/") then name
    else if |dir| == 0 || EndsWith(dir, "/") then dir + name
    else dir + "/" + name
  }

  /** A directory ending in `/` followed by a plain name has that name as its base name. */
  lemma BaseNameOfChild(dir: string, name: string)
    requires '/' !in name
    requires |dir| == 0 || EndsWith(dir, "/")
    ensures BaseName(dir + name) == name
  {
    var s := dir + name;
    assert s[|s| - |name|..] == name;
    if |name| < |s| {
      assert s[|s| - |name| - 1] == dir[|dir| - 1];
      assert dir[|dir| - 1..] == "/";
    }
    AfterLastUnique(s, '/', name);
  }

  /** A joined path has the joined name as its base name. */
  lemma {:induction false} BaseNameOfJoin(dir: string, name: string)
    requires '/' !in name
    ensures BaseName(PathJoin(dir, name)) == name
  {
    if |name| > 0 {
      assert name[0] != '/';
    }
    assert !StartsWith(name, "/");
    if |dir| == 0 || EndsWith(dir, "/") {
      BaseNameOfChild(dir, name);
    } else {
      assert EndsWith(dir + "/", "/");
      BaseNameOfChild(dir + "/", name);
      assert dir + "/" + name == (dir + "/") + name;
    }
  }

  function DigitChar(d: nat): (c: char)
    requires d < 10
    ensures IsDigit(c)
  {
    ('0' as int + d) as char
  }

  function DigitValue(c: char): nat {
    if IsDigit(c) then (c as int - '0' as int) as nat else 0
  }

  /** `str(n)` for a non-negative integer: its decimal digits, no leading zeros. */
  function ShowNat(n: nat): (r: string)
    ensures IsDigits(r)
    ensures n > 0 ==> r[0] != '0'
    decreases n
  {
    if n < 10 then [DigitChar(n)]
    else ShowNat(n / 10) + [DigitChar(n % 10)]
  }

  /** `int(s)` for a string of decimal digits. */
  function ParseNat(s: string): nat
    decreases |s|
  {
    if |s| == 0 then 0
    else ParseNat(s[..|s| - 1]) * 10 + DigitValue(s[|s| - 1])
  }

  /** Rendering a number and reading it back gives the number. */
  lemma {:induction false} ParseShowNat(n: nat)
    ensures ParseNat(ShowNat(n)) == n
    decreases n
  {
    if n >= 10 {
      var s := ShowNat(n / 10) + [DigitChar(n % 10)];
      assert s[..|s| - 1] == ShowNat(n / 10);
      ParseShowNat(n / 10);
    }
  }

  /** `str(i)` for any integer. */
  function ShowInt(i: int): (r: string)
    ensures i >= 0 ==> IsDigits(r)
    ensures i < 0 ==> |r| > 1 && r[0] == '-' && IsDigits(r[1..])
  {
    if i >= 0 then ShowNat(i) else "-" + ShowNat(-i)
  }

  /** Python's `<=` on `str`: lexicographic order of code points. */
  predicate LessEq(a: string, b: string)
    decreases |a|
  {
    |a| == 0 || (|b| > 0 && (a[0] < b[0] || (a[0] == b[0] && LessEq(a[1..], b[1..]))))
  }

  lemma {:induction false} LessEqReflexive(a: string)
    ensures LessEq(a, a)
    decreases |a|
  {
    if |a| > 0 {
      LessEqReflexive(a[1..]);
    }
  }

  lemma {:induction false} LessEqTotal(a: string, b: string)
    ensures LessEq(a, b) || LessEq(b, a)
    decreases |a|
  {
    if |a| > 0 && |b| > 0 && a[0] == b[0] {
      LessEqTotal(a[1..], b[1..]);
    }
  }

  lemma {:induction false} LessEqTransitive(a: string, b: string, c: string)
    requires LessEq(a, b) && LessEq(b, c)
    ensures LessEq(a, c)
    decreases |a|
  {
    if |a| > 0 && a[0] == b[0] && b[0] == c[0] {
      LessEqTransitive(a[1..], b[1..], c[1..]);
    }
  }

  lemma {:induction false} LessEqAntisymmetric(a: string, b: string)
    requires LessEq(a, b) && LessEq(b, a)
    ensures a == b
    decreases |a|
  {
    if |a| > 0 {
      LessEqAntisymmetric(a[1..], b[1..]);
      assert a == [a[0]] + a[1..];
      assert b == [b[0]] + b[1..];
    }
  }
}

=== FILE: valley_floors.dfy ===
/** src/valley_floors.py: pair every DEM with the flowlines of the same huc8
    (an inner join on the key taken from the file names) and derive the
    terrain directory and output file of each pair. The directory listings
    are inputs; the valley-floor computation itself is not modelled. */
module ValleyFloors {
  import opened Text
  import opened Seqs

  /** One row of `parse_flowdir` or `parse_demdir`. */
  datatype Listed = Listed(huc8: string, path: string)

  /** `f.split('-')[0]`: the name up to its first `-`. */
  function Key(name: string): (k: string)
    ensures StartsWith(name, k) && '-' !in k
    ensures |k| < |name| ==> name[|k|] == '-'
  {
    SplitHead(name, '-')
  }

  function Entry(dir: string, name: string): Listed {
    Listed(Key(name), PathJoin(dir, name))
  }

  predicate IsShapefile(name: string) {
    EndsWith(name, ".shp")
  }

  /** `parse_flowdir`: only the `.shp` names, each with its key and full path. */
  function ParseFlowDir(dir: string, names: seq<string>): (r: seq<Listed>)
    ensures |r| <= |names|
    ensures forall e :: e in r <==> exists i :: 0 <= i < |names| && IsShapefile(names[i]) && e == Entry(dir, names[i])
  {
    var shp := Filter(names, IsShapefile);
    var r := Keys(shp, (n: string) => Entry(dir, n));
    assert forall e :: e in r ==> exists i :: 0 <= i < |names| && IsShapefile(names[i]) && e == Entry(dir, names[i]) by {
      forall e | e in r
        ensures exists i :: 0 <= i < |names| && IsShapefile(names[i]) && e == Entry(dir, names[i])
      {
        var k :| 0 <= k < |r| && r[k] == e;
        assert shp[k] in shp;
        var i :| 0 <= i < |names| && names[i] == shp[k];
      }
    }
    assert forall i :: 0 <= i < |names| && IsShapefile(names[i]) ==> Entry(dir, names[i]) in r by {
      forall i | 0 <= i < |names| && IsShapefile(names[i])
        ensures Entry(dir, names[i]) in r
      {
        assert names[i] in shp;
        var k :| 0 <= k < |shp| && shp[k] == names[i];
        assert r[k] == Entry(dir, names[i]);
      }
    }
    r
  }

  /** `parse_demdir`: every name, whatever its extension, in listing order. */
  function ParseDemDir(dir: string, names: seq<string>): (r: seq<Listed>)
    ensures |r| == |names|
    ensures forall i :: 0 <= i < |names| ==> r[i].huc8 == Key(names[i]) && r[i].path == PathJoin(dir, names[i])
  {
    Keys(names, (n: string) => Entry(dir, n))
  }

  /** A row of the merged table. */
  datatype Pair = Pair(huc8: string, demFile: string, flowFile: string)

  function SameKey(k: string): Listed -> bool {
    (f: Listed) => f.huc8 == k
  }

  /** The joined rows of one DEM: one per flowline file with the same key, in order. */
  function Matches(d: Listed, flows: seq<Listed>): (r: seq<Pair>)
    ensures forall p :: p in r <==> exists j :: 0 <= j < |flows| && flows[j].huc8 == d.huc8 && p == Pair(d.huc8, d.path, flows[j].path)
  {
    var sel := Filter(flows, SameKey(d.huc8));
    var r := Keys(sel, (f: Listed) => Pair(d.huc8, d.path, f.path));
    assert forall p :: p in r ==> exists j :: 0 <= j < |flows| && flows[j].huc8 == d.huc8 && p == Pair(d.huc8, d.path, flows[j].path) by {
      forall p | p in r
        ensures exists j :: 0 <= j < |flows| && flows[j].huc8 == d.huc8 && p == Pair(d.huc8, d.path, flows[j].path)
      {
        var k :| 0 <= k < |r| && r[k] == p;
        assert sel[k] in sel;
        var j :| 0 <= j < |flows| && flows[j] == sel[k];
      }
    }
    assert forall j :: 0 <= j < |flows| && flows[j].huc8 == d.huc8 ==> Pair(d.huc8, d.path, flows[j].path) in r by {
      forall j | 0 <= j < |flows| && flows[j].huc8 == d.huc8
        ensures Pair(d.huc8, d.path, flows[j].path) in r
      {
        assert SameKey(d.huc8)(flows[j]);
        assert flows[j] in sel;
        var k :| 0 <= k < |sel| && sel[k] == flows[j];
        assert r[k] == Pair(d.huc8, d.path, flows[j].path);
      }
    }
    r
  }

  /** `pd.merge(dem_files, flow_files, on='huc8')`: an inner join, the DEM
      rows in order, each followed by its matching flowline rows. */
  function Join(dems: seq<Listed>, flows: seq<Listed>): (r: seq<Pair>)
    ensures forall p :: p in r <==> exists i :: 0 <= i < |dems| && p in Matches(dems[i], flows)
    decreases |dems|
  {
    if |dems| == 0 then []
    else
      var rest := Join(dems[1..], flows);
      assert forall i :: 1 <= i < |dems| ==> dems[i] == dems[1..][i - 1];
      Matches(dems[0], flows) + rest
  }

  /** A joined row pairs a DEM and a flowline file with equal keys. */
  lemma JoinSound(dems: seq<Listed>, flows: seq<Listed>, p: Pair)
    requires p in Join(dems, flows)
    ensures exists i, j :: (0 <= i < |dems| && 0 <= j < |flows| && dems[i].huc8 == flows[j].huc8 &&
      p == Pair(dems[i].huc8, dems[i].path, flows[j].path))
  {
    var i :| 0 <= i < |dems| && p in Matches(dems[i], flows);
    var j :| 0 <= j < |flows| && flows[j].huc8 == dems[i].huc8 && p == Pair(dems[i].huc8, dems[i].path, flows[j].path);
  }

  /** Every DEM and flowline file with equal keys are joined; keys present on
      one side only never appear. */
  lemma JoinComplete(dems: seq<Listed>, flows: seq<Listed>, i: nat, j: nat)
    requires i < |dems| && j < |flows| && dems[i].huc8 == flows[j].huc8
    ensures Pair(dems[i].huc8, dems[i].path, flows[j].path) in Join(dems, flows)
  {
    assert Pair(dems[i].huc8, dems[i].path, flows[j].path) in Matches(dems[i], flows);
  }

  /** The inputs of one `valley_floors` call. */
  datatype Job = Job(demFile: string, flowFile: string, terrainDir: string, outFile: string)

  /** `os.path.join(output_dir, huc8 + 'valley_floor.shp')`: no separator before the suffix. */
  function OutFile(outputDir: string, huc8: string): string {
    PathJoin(outputDir, huc8 + "valley_floor.shp")
  }

  function JobOf(terrainBase: string, outputDir: string, p: Pair): Job {
    Job(p.demFile, p.flowFile, PathJoin(terrainBase, p.huc8), OutFile(outputDir, p.huc8))
  }

  /** One job per joined row, in the order of the merged table. */
  function Jobs(terrainBase: string, outputDir: string, pairs: seq<Pair>): (jobs: seq<Job>)
    ensures |jobs| == |pairs|
    ensures forall k :: 0 <= k < |pairs| ==> jobs[k] == JobOf(terrainBase, outputDir, pairs[k])
  {
    Keys(pairs, (p: Pair) => JobOf(terrainBase, outputDir, p))
  }

  /** The loop over the merged table. */
  function ValleyFloorJobs(demDir: string, demNames: seq<string>, flowDir: string, flowNames: seq<string>,
                           terrainBase: string, outputDir: string): (jobs: seq<Job>)
    ensures var pairs := Join(ParseDemDir(demDir, demNames), ParseFlowDir(flowDir, flowNames));
      |jobs| == |pairs| && forall k :: 0 <= k < |pairs| ==> jobs[k] == JobOf(terrainBase, outputDir, pairs[k])
  {
    Jobs(terrainBase, outputDir, Join(ParseDemDir(demDir, demNames), ParseFlowDir(flowDir, flowNames)))
  }

  /** A flowline row comes from a listed `.shp` name. */
  lemma FlowRowListed(flowDir: string, flowNames: seq<string>, e: Listed)
    requires e in ParseFlowDir(flowDir, flowNames)
    ensures exists j :: 0 <= j < |flowNames| && IsShapefile(flowNames[j]) && e == Entry(flowDir, flowNames[j])
  {
  }

  /** Every job runs a listed DEM with a listed `.shp` flowline file of the
      same key, and writes to the output named after that key. */
  lemma JobsSound(demDir: string, demNames: seq<string>, flowDir: string, flowNames: seq<string>,
                  terrainBase: string, outputDir: string, job: Job)
    requires job in ValleyFloorJobs(demDir, demNames, flowDir, flowNames, terrainBase, outputDir)
    ensures exists i, j :: (0 <= i < |demNames| && 0 <= j < |flowNames| && IsShapefile(flowNames[j]) &&
      Key(demNames[i]) == Key(flowNames[j]) &&
      job == Job(PathJoin(demDir, demNames[i]), PathJoin(flowDir, flowNames[j]),
                 PathJoin(terrainBase, Key(demNames[i])), OutFile(outputDir, Key(demNames[i]))))
  {
    var dems := ParseDemDir(demDir, demNames);
    var flows := ParseFlowDir(flowDir, flowNames);
    var pairs := Join(dems, flows);
    var k :| 0 <= k < |pairs| && job == JobOf(terrainBase, outputDir, pairs[k]);
    JoinSound(dems, flows, pairs[k]);
    var i, j :| 0 <= i < |dems| && 0 <= j < |flows| && dems[i].huc8 == flows[j].huc8 &&
      pairs[k] == Pair(dems[i].huc8, dems[i].path, flows[j].path);
    FlowRowListed(flowDir, flowNames, flows[j]);
    var j' :| 0 <= j' < |flowNames| && IsShapefile(flowNames[j']) && flows[j] == Entry(flowDir, flowNames[j']);
    assert job == Job(PathJoin(demDir, demNames[i]), PathJoin(flowDir, flowNames[j']),
                      PathJoin(terrainBase, Key(demNames[i])), OutFile(outputDir, Key(demNames[i])));
  }

  /** Every listed DEM whose key matches a listed `.shp` name gets a job. */
  lemma JobsComplete(demDir: string, demNames: seq<string>, flowDir: string, flowNames: seq<string>,
                     terrainBase: string, outputDir: string, i: nat, j: nat)
    requires i < |demNames| && j < |flowNames| && IsShapefile(flowNames[j]) && Key(demNames[i]) == Key(flowNames[j])
    ensures Job(PathJoin(demDir, demNames[i]), PathJoin(flowDir, flowNames[j]),
                PathJoin(terrainBase, Key(demNames[i])), OutFile(outputDir, Key(demNames[i])))
      in ValleyFloorJobs(demDir, demNames, flowDir, flowNames, terrainBase, outputDir)
  {
    var dems := ParseDemDir(demDir, demNames);
    var flows := ParseFlowDir(flowDir, flowNames);
    assert Entry(flowDir, flowNames[j]) in flows;
    var j' :| 0 <= j' < |flows| && flows[j'] == Entry(flowDir, flowNames[j]);
    JoinComplete(dems, flows, i, j');
    var pairs := Join(dems, flows);
    var p := Pair(dems[i].huc8, dems[i].path, flows[j'].path);
    var k :| 0 <= k < |pairs| && pairs[k] == p;
    assert ValleyFloorJobs(demDir, demNames, flowDir, flowNames, terrainBase, outputDir)[k] == JobOf(terrainBase, outputDir, p);
  }

  /** With an output directory ending in `/` and a key without `/`, the
      output's file name is the key followed directly by `valley_floor.shp`,
      so different keys write different files. */
  lemma OutFileNames(outputDir: string, a: string, b: string)
    requires EndsWith(outputDir, "/")
    requires '/' !in a && '/' !in b
    ensures BaseName(OutFile(outputDir, a)) == a + "valley_floor.shp"
    ensures a != b ==> OutFile(outputDir, a) != OutFile(outputDir, b)
  {
    var s := "valley_floor.shp";
    assert '/' !in a + s by {
      forall k | 0 <= k < |a + s|
        ensures (a + s)[k] != '/'
      {
        if k >= |a| {
          assert (a + s)[k] == s[k - |a|];
        }
      }
    }
    assert (a + s)[..1] != "/" by {
      if |a + s| >= 1 {
        assert (a + s)[..1][0] == (a + s)[0];
      }
    }
    BaseNameOfChild(outputDir, a + s);
    if OutFile(outputDir, a) == OutFile(outputDir, b) {
      assert (b + s)[..1] != "/" by {
        assert (b + s)[..1][0] == (b + s)[0];
        assert '/' !in b;
        if |b| == 0 { assert (b + s)[0] == s[0]; } else { assert (b + s)[0] == b[0]; }
      }
      assert outputDir + (a + s) == outputDir + (b + s);
      assert a + s == (outputDir + (a + s))[|outputDir|..];
      assert b + s == (outputDir + (b + s))[|outputDir|..];
      assert |a| == |b|;
      assert a == (a + s)[..|a|];
      assert b == (b + s)[..|b|];
    }
  }
}
